=== FILE: README.md ===
# Beaver SOS — a Dafny model of the alert session lifecycle

Beaver is a personal-safety app. The phone app (Expo) raises an SOS. The
backend (Express, Firestore, Twilio, socket.io) opens an alert session. It
sends WhatsApp or SMS messages with a tracking link to up to five trusted
contacts, then relays the phone's GPS samples to the contacts' web viewer.
The alert ends when the user types their 4-digit PIN, or when the session
expires.

This project models the sequential logic of that lifecycle as pure Dafny
functions over immutable state, and proves properties of it:

- `session_store.dfy` (module `SessionStore`) — the Firestore collections as
  maps. Session creation, the lazily expiring validity check, PIN-gated
  deactivation, the GPS record, the track query (ascending, last 200) and the
  expiry sweep. `hashPin` is an injective digest of the salted PIN.
- `session_controller.dfy` — the five HTTP handlers. Covers validation order,
  status codes, the public session view and the sent/failed report.
- `notifications.dfy` — the Twilio dispatcher. Covers channel detection, the
  tracking link and the per-contact loop with failure isolation. Provider
  answers are parameters.
- `relay.dfy` — the socket.io relay: room membership, broadcasts and
  disconnect.
- `ticker.dfy` — the `prev <= 1 ? 0 : prev - 1` interval updater shared by the
  alert countdown and the security timer. `alert_hook.dfy` models `useAlert`:
  countdown, trigger, cancel and once-only recovery. `home_screen.dfy` models
  the home screen: security timer, SOS button, PIN modal, `formatTimer` and
  the contact preview.
- `contact_form.dfy` — the contact editor shared by the settings and
  onboarding screens. `settings_screen.dfy` and `onboarding_screen.dfy` model
  the two screens' step machines. `pin_pad.dfy` models the 4-digit PIN
  buffer.
- `tracking.dfy`, `tracking_page.dfy`, `status_bar.dfy` and
  `contact_card.dfy` — the web viewer and the contact avatar.
- `common.dfy` and `types.dfy` — shared definitions. These are the JavaScript
  string and number primitives the code relies on (`trim`, `replace(/\s/g,'')`,
  `String(n)`, `padStart`, `Math.floor`, the truncating `%`, `slice(-n)`),
  plus the shared record types.

Time (`Date.now()`), identifiers (`uuid`) and every answer from Firestore,
Twilio, the device or the network are parameters. That includes whether an
awaited storage write succeeded. The one write the settings screen does not
wait for, the contact list, is taken as written. Each socket handler, button
press or interval callback is one transition.

The code and its own comments disagree in places. The model follows the code:

- The comment of `getSessionTrack` says 50 positions; the query keeps the last
  200.
- An expired session is not terminal. `updateSessionStatus` overwrites the
  status unconditionally, so a correct PIN moves a session from `expired` to
  `deactivated`. Nothing except creation ever writes `active`
  (`SessionStore.StatusNeverDecreases`, `SessionStore.ExpiredCanBeDeactivated`).
- On lazy expiry the GET handler echoes the snapshot read before the update,
  whose status is still `active`. App recovery checks `status`, not `valid`,
  so it resumes an alert the server has just expired
  (`AlertHook.RecoveryResumesLazilyExpiredSession`).

## Model

| member | source | states |
|---|---|---|
| SessionStore.HashPinInjective | beaver-backend/src/services/sessionService.ts:122-123 | Two PINs have the same digest exactly when they are equal, so the digest comparison is a PIN comparison. |
| SessionStore.CreateSession | beaver-backend/src/services/sessionService.ts:24-47 | The new session is active, created at `now`, and expires `(minutes ?? 60) * 60000` ms later. Its digest is that of the PIN. It has the same contacts in the same order under fresh ids. It is stored under its id, and nothing else changes. |
| SessionStore.GetSession | beaver-backend/src/services/sessionService.ts:52-56 | The stored session, or none exactly when the id is absent. |
| SessionStore.UpdateSessionStatus | beaver-backend/src/services/sessionService.ts:84-87 | Overwrites the status of an existing session whatever it was. An absent document is a failure (`update` throws). |
| SessionStore.IsSessionValid | beaver-backend/src/services/sessionService.ts:61-79 | Valid iff the session exists, is active and `now <= expiresAt`. The reasons are not-found, deactivated or expired. An active session past its expiry is persisted as expired, and the returned snapshot is the one read before. Otherwise the store is unchanged. |
| SessionStore.SaveGpsPosition | beaver-backend/src/services/sessionService.ts:92-99 | The sample is written under `(sessionId, timestamp)`, overwriting any earlier one. `lastGpsUpdate` becomes this sample's timestamp with no status check. For an absent session the write happens and the session update fails. |
| SessionStore.SetAlertSentAt | beaver-backend/src/services/twilioService.ts:148-151 | Stamps `alertSentAt` on an existing session. Fails for an absent one. |
| SessionStore.SortedElements | beaver-backend/src/services/sessionService.ts:108 | The timestamps as a strictly ascending sequence with exactly the same elements. |
| SessionStore.TrackTimestamps | beaver-backend/src/services/sessionService.ts:105-110 | At most 200 strictly increasing stored timestamps of the session. No stored timestamp at or after the first kept one is missing. |
| SessionStore.GetSessionTrack | beaver-backend/src/services/sessionService.ts:104-113 | Only that session's stored samples, strictly ascending by timestamp, `min(n, 200)` of them. Every stored sample of the session that is not older than the first returned one is returned. |
| SessionStore.DeactivateSession | beaver-backend/src/services/sessionService.ts:118-131 | Succeeds iff the session exists and the PIN digest matches. Not-found and incorrect-PIN failures change nothing. Success sets `deactivated` whatever the prior status. |
| SessionStore.CleanupExpiredSessions | beaver-backend/src/services/sessionService.ts:136-152 | Exactly the active sessions with `expiresAt < now` become expired. All others are untouched, and the count is the number flipped. |
| SessionStore.SweepIdempotent | beaver-backend/src/services/sessionService.ts:138-147 | A second sweep at the same time flips nothing and changes nothing. |
| SessionStore.LazyExpiryAgreesWithSweep | beaver-backend/src/services/sessionService.ts:73-76 | Expiring a session on read and then sweeping gives the same sessions as sweeping alone. |
| SessionStore.ApplyEvolves | beaver-backend/src/services/sessionService.ts:73-151 | Every operation after creation keeps the set of sessions and their identity fields, and never lowers the status rank (active < expired < deactivated). |
| SessionStore.StatusNeverDecreases | beaver-backend/src/services/sessionService.ts:84-86 | Over any sequence of operations, statuses only move forward and no session appears or disappears. |
| SessionStore.OnlyCreationWritesActive | beaver-backend/src/services/sessionService.ts:37 | A session active after any run of operations was already active before it. |
| SessionStore.DeactivatedIsFinal | beaver-backend/src/services/sessionService.ts:128 | A deactivated session stays deactivated under every operation sequence. |
| SessionStore.ExpiredCanBeDeactivated | beaver-backend/src/services/sessionService.ts:118-130 | The right PIN moves an expired session to `deactivated`. |
| SessionStore.WrongPinChangesNothing | beaver-backend/src/services/sessionService.ts:122-126 | A different PIN fails and leaves the store as it was, whatever the status. |
| SessionStore.RunKeepsKeys | beaver-backend/src/services/sessionService.ts:93-94 | Every sample stays stored under its own key and every session under its own id, across any run. |
| SessionController.FirstBadPhone | beaver-backend/src/controllers/sessionController.ts:39-46 | None exactly when every phone matches `^\+\d{7,15}$`. Otherwise the index of a rejected phone. |
| SessionController.CreateError | beaver-backend/src/controllers/sessionController.ts:25-46 | The first failing check in order: blank trimmed name, then no contacts, then a PIN not of four digits, then the first bad phone. None iff all pass. No cap on the number of contacts. |
| SessionController.CreateSessionHandler | beaver-backend/src/controllers/sessionController.ts:20-60 | 400 with the validation error, and an unchanged store, when validation fails. Otherwise 500 with an unchanged store when storage throws. 201 iff validation passes and storage works. On 201 the store is exactly the one `CreateSession` builds: the session is active with the PIN digest and as many contacts as were sent. The body holds the id, expiry and `BEAVER_WEB_URL + "/s/" + id`. |
| SessionController.GetSessionHandler | beaver-backend/src/controllers/sessionController.ts:66-91 | 500 with an unchanged store when storage throws. Otherwise 404 iff the session is absent and 200 iff present. The 200 view carries the id, first name, status, creation, expiry and last GPS time of the session as read. Its reason is the lazy expiry check's, and it is valid iff the session is live. The store is the lazily expired one. |
| SessionController.GetHidesPinHash | beaver-backend/src/controllers/sessionController.ts:76-86 | The GET response is the same whatever digest is stored: it reveals nothing about the PIN. |
| SessionController.GetSessionTrackHandler | beaver-backend/src/controllers/sessionController.ts:97-106 | The store never changes. 500 when storage throws. Otherwise 200 with the session id and exactly the window `GetSessionTrack` selects: at most 200 samples, all of that session, for any status. |
| SessionController.UnknownTrackIsEmpty | beaver-backend/src/controllers/sessionController.ts:97-101 | An id with no samples gets 200 and an empty track, not an error. |
| SessionController.DeactivateSessionHandler | beaver-backend/src/controllers/sessionController.ts:112-134 | 400 for a missing or non-4-digit PIN, without touching the store. With a well-formed PIN, 500 and an unchanged store when storage throws. 401 for any refusal, including not-found. 200 iff the PIN is well formed, storage works, the session exists and the PIN matches. |
| SessionController.AlertMessage | beaver-backend/src/controllers/sessionController.ts:166 | `<sent> alerte(s) envoyée(s)`, followed by `, <failed> échec(s)` exactly when something failed. |
| SessionController.SendAlertHandler | beaver-backend/src/controllers/sessionController.ts:140-172 | 400 without a session id, sending nothing. 500 with the store unchanged and nothing sent when the validity check throws. 403 for an invalid session, sending nothing. Otherwise one alert per contact in order, and the sent ones are stored. The response is 200 with sent + failed = number of contacts even when all failed, and `alertSentAt` is stamped. When the stamp throws or hits a missing document, the answer is 500: the stored alerts remain and `alertSentAt` is not written. |
| SessionController.SampleBodyAccepted | beaver-backend/src/controllers/sessionController.ts:25-46 | A concrete request (name, one French mobile number, PIN 4821) passes every check. |
| SessionController.WrongThenRightPin | beaver-backend/src/controllers/sessionController.ts:112-129 | After creation, PIN 0000 gets 401 with the store unchanged. PIN 4821 gets 200, and the GET then reports the session deactivated and not valid. |
| Notifications.DetectChannel | beaver-backend/src/services/twilioService.ts:24-46 | WhatsApp iff the lookup reports `mobile` or `personal`. SMS for any other or missing type, and SMS when the lookup throws. |
| Notifications.BuildTrackingUrl | beaver-backend/src/services/twilioService.ts:51-54 | The base (`BEAVER_WEB_URL`, default `https://beaver.app`) followed by `/s/` and the session id. |
| Notifications.TrackingUrlInjective | beaver-backend/src/services/twilioService.ts:51-54 | Under one base, two sessions get the same link iff they are the same session. |
| Notifications.AlertFor | beaver-backend/src/services/twilioService.ts:109-145 | Every alert carries the session id, the contact's phone and the time. It is sent, with the detected channel and the provider sid, iff both the send and the record write succeeded. Otherwise it is failed, over SMS, with no sid. |
| Notifications.SendAlertsToContacts | beaver-backend/src/services/twilioService.ts:105-158 | Exactly one alert per contact, in contact order, each as `AlertFor` says. Only sent alerts are stored. `alertSentAt` is written once after the loop. It is written iff the update does not throw and the session document exists; otherwise the sessions are unchanged and the stored alerts remain. |
| Notifications.CountsAddUp | beaver-backend/src/controllers/sessionController.ts:159-160 | Each alert is counted exactly once as sent or failed. The sent count is the number of stored alerts. |
| Relay.ToRoom | beaver-backend/src/services/socketService.ts:77 | The recipients are exactly the room members other than the sender, and the payload is unchanged. |
| Relay.JoinSession | beaver-backend/src/services/socketService.ts:40-65 | Adds the socket to the session's room, creating it if needed, even for an invalid session. No membership changes when the validity check throws. Other rooms are untouched, and no room is ever left empty. |
| Relay.GpsPositionEvent | beaver-backend/src/services/socketService.ts:72-86 | The sample goes to the other room members and rooms do not change. Persistence has three outcomes: nothing written; only the sample stored, with `lastGpsUpdate` not advanced; or the full save. |
| Relay.SampleWithoutStamp | beaver-backend/src/services/sessionService.ts:92-99 | When the session update throws after the sample was stored, the sample is present and the sessions are unchanged. For a missing session document this is what the full save does too, while for an existing one the full save advances `lastGpsUpdate`. |
| Relay.BroadcastIndependentOfPersistence | beaver-backend/src/services/socketService.ts:77-82 | The same recipients receive the same sample whatever persistence outcome happens, and never the sender. |
| Relay.RelaySignal | beaver-backend/src/services/socketService.ts:92-113 | Offer, answer and ICE payloads are relayed unchanged to the other members of the named session's room. |
| Relay.Disconnect | beaver-backend/src/services/socketService.ts:118-129 | The socket leaves every room. Exactly the rooms left empty are deleted, and the others only lose that socket. |
| Relay.RoomParticipants | beaver-backend/src/services/socketService.ts:139-141 | The room's size, 0 when absent. Under the no-empty-room invariant, 0 iff the room does not exist. |
| Relay.JoinThenDisconnect | beaver-backend/src/services/socketService.ts:49-55 | A socket that joins and then disconnects leaves the rooms exactly as they were. |
| Relay.PhoneAndViewer | beaver-backend/src/services/socketService.ts:40-128 | With a phone and a viewer in one room: the phone's sample reaches only the viewer, and the viewer's signal reaches only the phone. When the phone leaves, the room holds only the viewer. |
| Ticker.Decrement | beaver-app/src/hooks/useAlert.ts:133-141 | The updater stops on a value of at most 1 and shows 0. Otherwise it counts down by one. |
| Ticker.TickTimer | beaver-app/src/screens/HomeScreen.tsx:78-89 | A stopped timer does not move. A running one fires on its last tick and stops exactly then. |
| Ticker.TicksFromStart | beaver-app/src/hooks/useAlert.ts:128-143 | Started at n >= 1, after k ticks the timer shows n - k while k < n. From then on it is stopped at 0, having fired exactly once. |
| Ticker.StoppedStays | beaver-app/src/hooks/useAlert.ts:149-155 | A stopped timer is unchanged by any number of ticks. |
| AlertHook.StartCountdown | beaver-app/src/hooks/useAlert.ts:128-131 | The countdown is set to 10 and running, with the cancel flag cleared. |
| AlertHook.CancelCountdown | beaver-app/src/hooks/useAlert.ts:149-155 | Raises the cancel flag, stops the interval and shows 0. |
| AlertHook.CountdownTick | beaver-app/src/hooks/useAlert.ts:132-142 | A tick moves the shared timer. `onComplete` runs when the timer fires, and only if the flag is not raised. |
| AlertHook.CountdownCompletesOnTenthTick | beaver-app/src/hooks/useAlert.ts:134-139 | Without cancellation `onComplete` runs exactly once, on the 10th tick, and the display reads 10 - k before that. |
| AlertHook.NoCompletionAfterCancel | beaver-app/src/hooks/useAlert.ts:134-137 | After cancelling, no number of ticks runs `onComplete`, and the display stays at 0. |
| AlertHook.TriggerSOS | beaver-app/src/hooks/useAlert.ts:166-241 | A denied permission returns with `isLoading` still true and nothing created. A failure clears loading and leaves the alert inactive. Only a complete setup activates the alert and starts the countdown, with the session, stored id and room join recorded. |
| AlertHook.AudioFailureNonFatal | beaver-app/src/hooks/useAlert.ts:214-223 | An audio failure changes only the audio flag: the alert is still active and the countdown still starts. |
| AlertHook.CancelAlert | beaver-app/src/hooks/useAlert.ts:247-268 | Without a session, or when deactivation throws, the result is false and the state unchanged. After an accepted deactivation the countdown is cancelled and GPS, audio and the socket stop. If clearing the stored id then throws, the result is false and the alert stays marked active with its session and stored id. Otherwise the result is true: session and stored id cleared, inactive. |
| AlertHook.CancelAlertAgainstServer | beaver-app/src/hooks/useAlert.ts:247-268 | Against the server's handler, cancelling succeeds iff storage works, the PIN is 4 digits, the session exists, its digest matches and clearing the stored id works. A refused PIN or a 500 leaves the hook unchanged. An accepted PIN deactivates the session on the server and stops GPS even when the clear throws, and then the app still shows the alert as active. |
| AlertHook.Recover | beaver-app/src/hooks/useAlert.ts:59-123 | Runs only once. A missing or empty stored id does nothing more. Several outcomes clear the stored id: a non-active server status, an exception, or a failed read of the stored name or contacts after an `active` answer; in each case the alert stays as it was. For `active` with the profile read it restores the session as active and rejoins the room. GPS restarts iff permission is given and tracking does not throw. A throw from tracking clears the stored id but leaves the alert active. |
| AlertHook.RecoverOnlyOnce | beaver-app/src/hooks/useAlert.ts:60-61 | A second recovery, in any environment, changes nothing. |
| AlertHook.RecoveryResumesLazilyExpiredSession | beaver-app/src/hooks/useAlert.ts:69-74 | For an active session past its expiry, the server persists `expired` and answers not valid. The app still resumes the alert unless reading the stored profile throws. |
| HomeScreen.HandleTriggerSOS | beaver-app/src/screens/HomeScreen.tsx:97-104 | A warning iff the name, the contact list or the PIN is empty. Otherwise an SOS request with exactly the stored data. |
| HomeScreen.StartSecurityTimer | beaver-app/src/screens/HomeScreen.tsx:136-139 | The timer runs from `duration * 60` seconds, at least 300 because the duration is 5, 15 or 30 minutes. During an alert the controls are hidden and nothing changes. |
| HomeScreen.CancelSecurityTimer | beaver-app/src/screens/HomeScreen.tsx:248-263 | The timer stops and shows 0, and nothing else changes. During an alert the button is hidden and nothing changes at all. |
| HomeScreen.SecurityTick | beaver-app/src/screens/HomeScreen.tsx:78-89 | A tick moves only the timer. It requests the SOS iff the timer was running at 1 or less. |
| HomeScreen.SecurityTimerFiresOnce | beaver-app/src/screens/HomeScreen.tsx:78-88 | Started for d minutes and left alone, the timer requests the SOS exactly once, at second d·60. It then stays stopped at 0. |
| HomeScreen.CancelledTimerNeverFires | beaver-app/src/screens/HomeScreen.tsx:260-263 | After cancelling, no number of ticks requests the SOS. |
| HomeScreen.PressSOS | beaver-app/src/screens/HomeScreen.tsx:111-117 | While the hook is loading a press does nothing. During an alert it opens the PIN modal. Otherwise it goes through the trigger guard. |
| HomeScreen.PinEntered | beaver-app/src/screens/HomeScreen.tsx:122-131 | The hook becomes `CancelAlert`'s result. A successful cancellation closes the modal and clears the error. A failure keeps it open with the error text. A refused PIN leaves the hook unchanged. |
| HomeScreen.CancelPinModal | beaver-app/src/screens/HomeScreen.tsx:377-387 | The cancel buttons close the modal and clear the error; nothing else changes. |
| HomeScreen.BackPinModal | beaver-app/src/screens/HomeScreen.tsx:373 | The back gesture closes the modal and keeps the error; nothing else changes. |
| HomeScreen.ReopenedModalError | beaver-app/src/screens/HomeScreen.tsx:373-387 | After a refused PIN, reopening the modal shows the old error if it was closed by the back gesture and no error if it was cancelled. |
| HomeScreen.PressThenCorrectPin | beaver-app/src/screens/HomeScreen.tsx:111-131 | Pressing during an alert and then entering an accepted PIN ends the alert and closes the modal. A refused PIN keeps both. An accepted PIN whose stored id cannot be cleared keeps the modal open with the error and the alert marked active, with GPS stopped. |
| HomeScreen.FormatTimerReadsBack | beaver-app/src/screens/HomeScreen.tsx:169-173 | `mm:ss` with two-digit seconds. Reading the two parts back gives minutes·60 + seconds = the input, and the text is five characters below 100 minutes. |
| HomeScreen.ContactPreview | beaver-app/src/screens/HomeScreen.tsx:308-331 | The shown contacts are the first min(3, count). `+N` appears iff there are more than three, and shown + N = count. |
| HomeScreen.MoreLabel | beaver-app/src/screens/HomeScreen.tsx:327-331 | `+`, then digits that read back to N, then ` autre`, with an `s` iff N is more than one. |
| ContactForm.CleanPhone | beaver-app/src/screens/SettingsScreen.tsx:87 | A character is kept iff it is in the phone and is not whitespace. A single character is dropped iff it is whitespace. |
| ContactForm.CleanPhoneAppend | beaver-app/src/screens/SettingsScreen.tsx:87 | Cleaning distributes over concatenation. With the one-character case this fixes the cleaned text completely. |
| ContactForm.AddContact | beaver-app/src/screens/SettingsScreen.tsx:82-109 | Refuses, in order, a blank trimmed name, a cleaned phone failing `^\+\d{7,15}$`, then a sixth contact. A refusal leaves the list and inputs as they were. Otherwise it appends one contact with the fresh id, trimmed name and cleaned phone, and clears the inputs. |
| ContactForm.DeleteContact | beaver-app/src/screens/SettingsScreen.tsx:121 | Keeps exactly the contacts whose id differs: a one-element list is kept iff its id differs, and removal distributes over concatenation (`DeleteDistributes`), so order and duplicates are kept. |
| ContactForm.DeleteDistributes | beaver-app/src/screens/SettingsScreen.tsx:121 | Deleting from a concatenation deletes from each part. |
| ContactForm.AddThenDelete | beaver-app/src/screens/OnboardingScreen.tsx:75-88 | Adding under a fresh id and deleting that id gives back the original list, in order. |
| ContactForm.AddKeepsWellFormed | beaver-app/src/screens/OnboardingScreen.tsx:54-84 | Adding keeps the list at five or fewer contacts with trimmed non-blank names and valid numbers. |
| ContactForm.DeleteKeepsWellFormed | beaver-app/src/screens/OnboardingScreen.tsx:86-88 | Deleting keeps a well-formed list well formed. |
| ContactForm.SpacesInPhoneIgnored | beaver-app/src/screens/OnboardingScreen.tsx:61 | A number typed with a space is handled as the same number without it. |
| SettingsScreen.SaveFirstName | beaver-app/src/screens/SettingsScreen.tsx:70-79 | A name shorter than two UTF-16 code units once trimmed is refused, and so is nothing changed when the write rejects. Otherwise the trimmed name is stored and marked as a change. A changed stored name is always a written, trimmed name of two or more units. |
| SettingsScreen.AstralNameSaved | beaver-app/src/screens/SettingsScreen.tsx:70-79 | A single character outside the Basic Multilingual Plane counts as two code units and is saved. |
| SettingsScreen.OneLetterNameRefused | beaver-app/src/screens/SettingsScreen.tsx:70-79 | A single letter is refused and nothing changes. |
| SettingsScreen.AddContactPressed | beaver-app/src/screens/SettingsScreen.tsx:82-109 | The stored list is the form's result and stays well formed. The PIN and name are untouched. |
| SettingsScreen.DeleteContactConfirmed | beaver-app/src/screens/SettingsScreen.tsx:111-129 | The stored list is exactly `DeleteContact` of the old list: it loses the contacts with that id and stays well formed. |
| SettingsScreen.ChangeTimer | beaver-app/src/screens/SettingsScreen.tsx:132-136 | The picker shows the chosen duration at once. The stored duration and the change flag follow only if the write succeeds; nothing else changes. |
| SettingsScreen.ChangeTimerShownVersusStored | beaver-app/src/screens/SettingsScreen.tsx:132-136 | The picker agrees with the stored duration iff the write succeeded or the choice was already stored. |
| SettingsScreen.OpenPinChange | beaver-app/src/screens/SettingsScreen.tsx:139-144 | The PIN change always starts at the current-PIN check, with no candidate and no error. |
| SettingsScreen.PinStepComplete | beaver-app/src/screens/SettingsScreen.tsx:146-171 | The error is cleared first. A failed read of the stored PIN stays at the current-PIN step. A wrong current PIN stays there with an error. The new PIN is held for confirmation. A mismatch returns to the new-PIN step with the candidate cleared. A match whose write succeeds stores exactly that PIN and closes; a rejected write stays at the confirmation with the candidate. The stored PIN changes only on a written match. |
| SettingsScreen.RetryAfterRejectedWrite | beaver-app/src/screens/SettingsScreen.tsx:159-169 | After a rejected write, confirming the same PIN again with a working store completes the change. |
| SettingsScreen.PinChangeNeedsCurrentPin | beaver-app/src/screens/SettingsScreen.tsx:149-155 | Whatever is typed after opening, the stored PIN changes only if the current PIN was among the entries. |
| SettingsScreen.ThreeEntryChange | beaver-app/src/screens/SettingsScreen.tsx:146-171 | Current, new, confirm: the PIN becomes the new one iff the stored PIN could be read and is the current one, the two new entries agree and the write succeeds. A rejected write leaves the modal at the confirmation holding the candidate. |
| OnboardingScreen.Apply | beaver-app/src/screens/OnboardingScreen.tsx:45-126 | Steps advance only when allowed: name when the trimmed name is at least two UTF-16 code units, contacts with at least one, PIN to confirm. A mismatched confirm returns to the PIN with it cleared. The profile is saved only by a matching confirm, with the trimmed name, the contacts and that PIN. |
| OnboardingScreen.RunKeepsInv | beaver-app/src/screens/OnboardingScreen.tsx:45-121 | Along any run with pad-produced PINs, the flow keeps its invariant: a well-formed list, the step preconditions and a complete saved profile. |
| OnboardingScreen.OnboardingSavesCompleteProfile | beaver-app/src/screens/OnboardingScreen.tsx:104-121 | Any saved profile has a trimmed name of two or more UTF-16 code units, one to five well-formed contacts and a 4-digit PIN. |
| OnboardingScreen.MismatchedConfirmRestarts | beaver-app/src/screens/OnboardingScreen.tsx:104-110 | A confirmation that differs returns to the PIN step with the first PIN cleared. |
| OnboardingScreen.SavedProfileAcceptedByServer | beaver-backend/src/controllers/sessionController.ts:25-46 | A profile completed on the phone always passes the server's create checks. |
| PinPad.PressDigit | beaver-app/src/components/PinPad.tsx:35-50 | Ignored with four digits present. Otherwise it appends exactly that digit, and the fourth digit schedules the completion with the joined digits. |
| PinPad.PressDelete | beaver-app/src/components/PinPad.tsx:52-55 | Removes the last digit. A no-op on an empty buffer. |
| PinPad.PressKey | beaver-app/src/components/PinPad.tsx:95-98 | The delete key deletes, the blank key does nothing, and any other key is a digit. |
| PinPad.Timeout | beaver-app/src/components/PinPad.tsx:45-48 | The oldest scheduled completion delivers its PIN and empties the buffer. |
| PinPad.GridKeysAreDigits | beaver-app/src/components/PinPad.tsx:58-63 | Every key other than the blank one and delete is a single decimal digit. |
| PinPad.PadOnlyDeliversPinCodes | beaver-app/src/components/PinPad.tsx:38-63 | Under any interleaving of presses and callbacks, the buffer holds at most four digits. Every PIN scheduled or delivered matches `^\d{4}$`. |
| PinPad.FourDigitsDelivered | beaver-app/src/components/PinPad.tsx:40-48 | Four digits and the callback deliver their concatenation once, in entry order, and leave the pad empty. |
| Tracking.LoadSession | beaver-web/src/hooks/useTracking.ts:32-64 | A non-OK session answer gives the not-found error. An exception gives the load error. An invalid session is kept without a track. A loaded track replaces the positions, and its last sample becomes current. Loading always ends. |
| Tracking.GpsUpdate | beaver-web/src/hooks/useTracking.ts:92-99 | With the socket open, the sample becomes current and the trace is the last 200 of the old trace plus the sample. Without it, nothing happens. |
| Tracking.StatusUpdate | beaver-web/src/hooks/useTracking.ts:102-106 | Only an event for the viewer's own session, on an open socket with a session loaded, changes anything. It changes only that session's status. |
| Tracking.TraceIsWindowOfHistory | beaver-web/src/hooks/useTracking.ts:92-98 | After any number of updates the trace is the last 200 of everything received, in order. The current position is the last sample. |
| Tracking.EarlyUpdatesOverwrittenByTrack | beaver-web/src/hooks/useTracking.ts:44-56 | The socket opens when the session arrives. Samples received before the track answer are dropped when the track replaces the trace. |
| Tracking.LoadFromServer | beaver-backend/src/controllers/sessionController.ts:66-106 | The viewer's two requests answered by the server's handlers. A not-OK session answer iff the GET fails in storage or the session does not exist. Otherwise the info has the stored id and is valid iff the session is live, and the track is not OK iff its request fails in storage. |
| Tracking.ServerLoad | beaver-web/src/hooks/useTracking.ts:36-71 | Against the server, the socket opens exactly when the GET succeeds for a session that is live at that moment. The initial trace has at most 200 samples. A failed or unknown GET shows the not-found error without a session. |
| Tracking.ServerTrackThenUpdates | beaver-web/src/hooks/useTracking.ts:50-98 | When both requests are answered, a viewer that loaded the server's track and then got samples shows the last 200 of the track followed by the samples. |
| TrackingPage.EndedMessage | beaver-web/src/pages/TrackingPage.tsx:171-187 | For a deactivated session, the owner's name and the all-clear line, never the expiry line. For any other status, the expiry line. |
| TrackingPage.PageOf | beaver-web/src/pages/TrackingPage.tsx:20-44 | In order: no route id gives the invalid-link error; loading gives the loading page; an error or no session gives the error page; an invalid session gives the ended page, with the badge iff deactivated; otherwise the live page. |
| TrackingPage.ViewerPageFromServer | beaver-web/src/pages/TrackingPage.tsx:34-44 | Against the server: an unknown id, or a GET that fails in storage, shows the not-found error. A deactivated session shows its owner's all-clear. An expired one, or one past its expiry, shows the expiry line. A live one shows the live page whether or not the track request succeeded. |
| TrackingPage.StatusEventKeepsLivePage | beaver-web/src/hooks/useTracking.ts:102-106 | A status event leaves `valid` alone, so an open live page stays live even when the event says deactivated. |
| StatusBar.ElapsedSeconds | beaver-web/src/components/StatusBar.tsx:18 | `floor((now - start) / 1000)`. |
| StatusBar.PartsDecompose | beaver-web/src/components/StatusBar.tsx:19-21 | For a non-negative duration: h·3600 + m·60 + s = seconds, with 0 <= m, s < 60. |
| StatusBar.FormatDuration | beaver-web/src/components/StatusBar.tsx:17-25 | `Hh Mmin` from an hour, `Mmin Ss` from a minute, `Ss` below. A negative elapsed time shows only the truncated remainder `-59s`..`0s`. |
| StatusBar.DurationShape | beaver-web/src/components/StatusBar.tsx:22-24 | Texts from an hour end in `min`. Every shorter one ends in `s`. |
| StatusBar.BatteryColor | beaver-web/src/components/StatusBar.tsx:28-35 | Green iff above 30, amber iff in (15, 30], red iff at most 15. |
| StatusBar.BatteryColorMonotone | beaver-web/src/components/StatusBar.tsx:29 | A lower battery is never shown in a calmer colour. |
| StatusBar.CellsOf | beaver-web/src/components/StatusBar.tsx:48-75 | Each figure shows a dash exactly when the sample or that field is missing. The battery cell carries the level and its colour. |
| ContactCard.AvatarColor | beaver-app/src/components/ContactCard.tsx:23-28 | The colour is always one of the five of the palette. |
| ContactCard.AvatarColorPeriodic | beaver-app/src/components/ContactCard.tsx:28 | Colours repeat every five positions. |
| ContactCard.ListColorsDistinct | beaver-app/src/components/ContactCard.tsx:28 | In a list of at most five contacts, no two cards share a colour. |
| ContactCard.Split | beaver-app/src/components/ContactCard.tsx:30 | `split(' ')`: at least one piece, and no piece contains a space. |
| ContactCard.SplitJoin | beaver-app/src/components/ContactCard.tsx:30 | Joining the pieces with single spaces gives the name back. |
| ContactCard.FirstCharsAreWordStarts | beaver-app/src/components/ContactCard.tsx:30-32 | Taking the first character of every piece equals taking every non-space character that starts a word. Empty pieces contribute nothing. |
| ContactCard.Initials | beaver-app/src/components/ContactCard.tsx:29-34 | At most two characters. |
| ContactCard.InitialsAreWordStarts | beaver-app/src/components/ContactCard.tsx:29-34 | The initials are the first two word starts, upper-cased, and never contain a space. |
| ContactCard.ExtraSpacesIgnored | beaver-app/src/components/ContactCard.tsx:30-32 | Leading, trailing and doubled spaces do not change the initials. |
| ContactCard.TwoWordInitials | beaver-app/src/components/ContactCard.tsx:29-34 | For a first and last name without spaces, the initials are their two upper-cased first letters. |
| Common.TrimIsInfix | beaver-app/src/screens/SettingsScreen.tsx:71-75 | `trim` returns a contiguous part of the text with only whitespace cut on either side. |
| Common.Utf16Length | beaver-app/src/screens/SettingsScreen.tsx:70 | JavaScript's `length`: between the number of characters and twice that. |
| Common.Utf16LengthIsCountIffBmp | beaver-app/src/screens/SettingsScreen.tsx:70 | The length equals the number of characters iff no character lies outside the Basic Multilingual Plane. |
| Common.AstralCharCountsTwice | beaver-app/src/screens/SettingsScreen.tsx:70 | One character outside the Basic Multilingual Plane has the same length as two letters. |
| Common.TrimIdempotent | beaver-app/src/screens/SettingsScreen.tsx:75 | Trimming twice is trimming once. |
| Common.StripAppend | beaver-app/src/screens/SettingsScreen.tsx:87 | Whitespace removal distributes over concatenation. |
| Common.DecimalRoundTrip | beaver-app/src/screens/HomeScreen.tsx:170-171 | Reading back the decimal text of n gives n. |
| Common.E164DigitCount | beaver-backend/src/controllers/sessionController.ts:40 | An accepted phone has 7 to 15 digits after the `+`, within the E.164 maximum of 15. |
| Common.LastNAppend | beaver-web/src/hooks/useTracking.ts:96-97 | Trimming to the last n after every append gives the same window as trimming once at the end. |

## Left out

- SettingsScreen.AddContactPressed: `saveContacts` is not awaited, so the screen shows the new list at once. A rejected write, which would leave storage holding the old list, is not modelled; the stored list is taken to be the one shown. The same holds for SettingsScreen.DeleteContactConfirmed.
- Firestore, Twilio, Expo SDKs, AsyncStorage/SecureStore, `fetch` and socket.io transports. Each call is replaced by its outcome, given as a parameter. For the create, read, track and deactivate handlers that outcome is a `storeFails` flag: a Firestore exception is answered with 500 and the store is left as it was. The alert handler has two flags. `validFails` covers the validity check throwing: 500, store unchanged. `stampThrows` covers the final `alertSentAt` update throwing: 500, with the alerts already stored. Firestore queries appear only through the postconditions of the modelled functions. The GPS relay's persistence outcome is a `Persist` value: nothing written, the sample alone, or both writes. On the settings screen, the name, timer and PIN writes and the PIN read each carry a success flag; a rejected call ends the handler at that point.
- SHA-256 inside `hashPin`: an injective digest of the salted text `beaver_<pin>_salt`, not the hash function itself.
- WebRTC media and SDP contents: the relay treats them as opaque payloads.
- Real time and concurrency: `Date.now()` is a parameter, `setInterval` is discrete ticks, and every handler is one atomic step. The 200 ms delays (PIN pad, between Twilio sends) and StatusBar's 1 s refresh are timing only.
- Floating point: `mpsToKmh`, `Math.round(accuracy)`, coordinates and map rendering are not modelled.
- Text rendering: `toLocaleTimeString`, the connection indicator and all styles and JSX markup.
- The dialog texts of `Alert.alert`: a refusal is modelled by its kind, not its wording.
- Cron scheduling, logging, Express routing and rate limiting. Only the sweep function is modelled.
- OnboardingScreen.Apply: the four storage writes at the end are one outcome (`saveOk`). A failure part-way that leaves some of them written is not modelled.
- AlertHook.Recover: the rebuilt tracking URL is a parameter. The string rewrite of the API URL (`:3001` to `:5173`) is not modelled.
- Stale closures in React callbacks: handlers see the state current at the event.
- `session_status`: the backend never emits it; the event is only declared in beaver-backend/src/models/types.ts:67. The viewer's handler is modelled as written.
- ContactCard.Initials: characters are whole characters, not UTF-16 code units, and upper-casing covers ASCII `a`–`z` only. Unicode case mapping is not modelled.
- Common.IntToString: `String(n)` for integers written in plain decimal. Exponent notation for very large numbers is not modelled.
- Tracking.TraceIsWindowOfHistory: requires the starting trace to hold at most 200 samples. `LoadSession` always establishes this through the server's track (`Tracking.ServerLoad`).

=== FILE: alert_hook.dfy ===
/**
 * The alert orchestration hook of beaver-app/src/hooks/useAlert.ts: the
 * 10-second countdown before alerts are sent, the SOS trigger, the PIN-gated
 * cancellation and the once-only recovery of a session after a restart.
 *
 * Every call into a device service or the backend is replaced by its
 * outcome, given as a parameter; the state records what the hook has
 * started (socket room joined, background GPS, audio stream) so the
 * contracts can say which services run afterwards.
 */
module AlertHook {
  import opened Common
  import opened Types
  import opened Ticker
  import opened SessionStore
  import opened SessionController

  // ---------------------------------------------------------------------------
  // startCountdown / cancelCountdown
  // ---------------------------------------------------------------------------

  /**
   * The alert countdown: the shared timer, the `isCancelled` flag consulted
   * when the last tick arrives, and how many times `onComplete` ran.
   */
  datatype Countdown = Countdown(timer: Timer, cancelled: bool, completions: nat)

  const Idle: Countdown := Countdown(Timer(0, false, 0), false, 0)

  /** Sets the countdown to 10, clears the cancel flag and starts the interval. */
  function StartCountdown(c: Countdown): (r: Countdown)
    ensures r.timer.value == AlertCountdownSeconds && r.timer.running && !r.cancelled
    ensures r.completions == c.completions
  {
    Countdown(Started(AlertCountdownSeconds), false, c.completions)
  }

  /** Raises the cancel flag, clears the interval and shows 0. */
  function CancelCountdown(c: Countdown): (r: Countdown)
    ensures r.cancelled && !r.timer.running && r.timer.value == 0
    ensures r.completions == c.completions
  {
    Countdown(Timer(0, false, c.timer.fired), true, c.completions)
  }

  /**
   * One interval callback. Once cancelled, a tick that still runs applies the
   * updater but, finding the flag raised, does not call `onComplete`.
   */
  function CountdownTick(c: Countdown): (r: Countdown)
    ensures c.cancelled ==> r.completions == c.completions && !r.timer.running && r.cancelled
    ensures !c.cancelled ==> r.timer == TickTimer(c.timer) && !r.cancelled
    ensures !c.cancelled ==> r.completions == c.completions + (TickTimer(c.timer).fired - c.timer.fired)
  {
    if c.cancelled then Countdown(Timer(Decrement(c.timer.value).next, false, c.timer.fired), true, c.completions)
    else
      var t := TickTimer(c.timer);
      Countdown(t, false, c.completions + (t.fired - c.timer.fired))
  }

  function CountdownTicks(c: Countdown, k: nat): Countdown
    decreases k
  {
    if k == 0 then c else CountdownTicks(CountdownTick(c), k - 1)
  }

  /** Without cancellation the countdown follows the shared timer and completes once per last tick. */
  lemma {:induction false} UncancelledFollowsTimer(c: Countdown, k: nat)
    requires !c.cancelled
    ensures CountdownTicks(c, k).timer == Ticks(c.timer, k)
    ensures CountdownTicks(c, k).completions == c.completions + (Ticks(c.timer, k).fired - c.timer.fired)
    ensures Ticks(c.timer, k).fired >= c.timer.fired
    decreases k
  {
    if k > 0 {
      UncancelledFollowsTimer(CountdownTick(c), k - 1);
    }
  }

  /**
   * Started and never cancelled, the countdown shows `10 - k` after `k`
   * ticks and runs `onComplete` exactly once, on the 10th tick.
   */
  lemma CountdownCompletesOnTenthTick(c: Countdown, k: nat)
    ensures CountdownTicks(StartCountdown(c), k).completions
            == c.completions + (if k >= AlertCountdownSeconds then 1 else 0)
    ensures CountdownTicks(StartCountdown(c), k).timer.value
            == (if k >= AlertCountdownSeconds then 0 else AlertCountdownSeconds - k)
  {
    UncancelledFollowsTimer(StartCountdown(c), k);
    TicksFromStart(AlertCountdownSeconds, k);
  }

  /** After cancellation no number of ticks runs `onComplete`, and the countdown stays at 0. */
  lemma {:induction false} NoCompletionAfterCancel(c: Countdown, k: nat)
    ensures CountdownTicks(CancelCountdown(c), k).completions == c.completions
    ensures CountdownTicks(CancelCountdown(c), k).timer.value == 0
    decreases k
  {
    if k > 0 {
      assert CountdownTick(CancelCountdown(c)) == CancelCountdown(c);
      NoCompletionAfterCancel(c, k - 1);
    }
  }

  // ---------------------------------------------------------------------------
  // Hook state
  // ---------------------------------------------------------------------------

  /** The app's copy of a session (`BeaverSession` on the app side). */
  datatype ClientSession = ClientSession(
    sessionId: string,
    userFirstName: string,
    contacts: seq<Contact>,
    status: SessionStatus,
    createdAt: int,
    expiresAt: int,
    trackingUrl: string)

  datatype Hook = Hook(
    isActive: bool,
    session: Option<ClientSession>,
    countdown: Countdown,
    isLoading: bool,
    hasRecovered: bool,
    storedId: Option<string>,   // the session id kept in device storage
    joined: Option<string>,     // the socket room joined
    gpsTracking: bool,
    audio: bool)

  const Initial: Hook := Hook(false, None, Idle, false, false, None, None, false, false)

  // ---------------------------------------------------------------------------
  // triggerSOS
  // ---------------------------------------------------------------------------

  datatype TriggerParams = TriggerParams(userFirstName: string, contacts: seq<Contact>, pinCode: string)

  /** How far the setup got after the session was created. */
  datatype Setup =
    | SaveFailed             // storing the session id threw
    | TrackingFailed         // starting background GPS threw
    | Ready(audioStarted: bool)

  datatype TriggerOutcome =
    | PermissionDenied
    | CreateFailed
    | SessionCreated(sessionId: string, expiresAt: int, trackingUrl: string, setup: Setup)

  /**
   * The SOS protocol. A refused location permission returns early, with the
   * loading flag still raised. Any exception after that clears the loading
   * flag and leaves the alert inactive, keeping whatever was already done.
   * A failing audio stream is not an exception: the alert becomes active
   * and the countdown starts either way.
   */
  function TriggerSOS(h: Hook, p: TriggerParams, o: TriggerOutcome, now: int): (r: Hook)
    ensures o.PermissionDenied? ==> r == h.(isLoading := true)
    ensures o.CreateFailed? ==> r == h.(isLoading := false)
    ensures o.SessionCreated? ==>
              && !r.isLoading
              && r.session == Some(ClientSession(o.sessionId, p.userFirstName, p.contacts, Active,
                                                 now, o.expiresAt, o.trackingUrl))
    ensures (r.countdown != h.countdown || r.isActive != h.isActive) ==> o.SessionCreated? && o.setup.Ready?
    ensures o.SessionCreated? && o.setup.Ready? ==>
              && r.isActive && r.gpsTracking && r.audio == o.setup.audioStarted
              && r.storedId == Some(o.sessionId) && r.joined == Some(o.sessionId)
              && r.countdown == StartCountdown(h.countdown)
  {
    match o
    case PermissionDenied => h.(isLoading := true)
    case CreateFailed => h.(isLoading := false)
    case SessionCreated(id, expiresAt, url, setup) =>
      var s := ClientSession(id, p.userFirstName, p.contacts, Active, now, expiresAt, url);
      match setup
      case SaveFailed => h.(session := Some(s), isLoading := false)
      case TrackingFailed => h.(session := Some(s), storedId := Some(id), joined := Some(id), isLoading := false)
      case Ready(audioStarted) =>
        h.(session := Some(s), storedId := Some(id), joined := Some(id), gpsTracking := true,
           audio := audioStarted, isActive := true, isLoading := false,
           countdown := StartCountdown(h.countdown))
  }

  /** Whether audio started changes nothing but the audio flag. */
  lemma AudioFailureNonFatal(h: Hook, p: TriggerParams, id: string, expiresAt: int, url: string, now: int)
    ensures var ok := TriggerSOS(h, p, SessionCreated(id, expiresAt, url, Ready(true)), now);
            var ko := TriggerSOS(h, p, SessionCreated(id, expiresAt, url, Ready(false)), now);
            ko == ok.(audio := false)
  {
  }

  // ---------------------------------------------------------------------------
  // cancelAlert
  // ---------------------------------------------------------------------------

  /**
   * Without a session: `false`, nothing called. When the deactivation request
   * fails (`deactivated` false): `false`, state unchanged. Otherwise the
   * countdown is cancelled and GPS, audio and the socket are stopped (none of
   * these throws). Clearing the stored id comes next: when it throws
   * (`clearThrows`) the result is `false` and the alert is still marked
   * active with its session and stored id, although its services have
   * stopped. Otherwise the alert is closed and the result is `true`.
   */
  function CancelAlert(h: Hook, deactivated: bool, clearThrows: bool): (r: (Hook, bool))
    ensures r.1 <==> h.session.Some? && deactivated && !clearThrows
    ensures h.session.None? || !deactivated ==> r == (h, false)
    ensures h.session.Some? && deactivated ==>
              && !r.0.gpsTracking && !r.0.audio && r.0.joined.None?
              && r.0.countdown == CancelCountdown(h.countdown)
              && r.0.isLoading == h.isLoading && r.0.hasRecovered == h.hasRecovered
    ensures h.session.Some? && deactivated && clearThrows ==>
              r.0.isActive == h.isActive && r.0.session == h.session && r.0.storedId == h.storedId
    ensures r.1 ==> !r.0.isActive && r.0.session.None? && r.0.storedId.None?
  {
    if h.session.None? || !deactivated then (h, false)
    else
      var stopped := h.(countdown := CancelCountdown(h.countdown), gpsTracking := false, audio := false,
                        joined := None);
      if clearThrows then (stopped, false)
      else (stopped.(storedId := None, isActive := false, session := None), true)
  }

  /**
   * Against the backend: the hook's cancellation succeeds exactly when the
   * server's store answers and accepts the PIN for the session and the stored
   * id is then cleared. A wrong PIN or a 500 leaves the hook as it was; a
   * failed clear after an accepted PIN leaves a deactivated session whose
   * alert the app still shows as active.
   */
  lemma CancelAlertAgainstServer(h: Hook, st: Store, pin: string, storeFails: bool, clearThrows: bool)
    requires h.session.Some?
    ensures var id := h.session.value.sessionId;
            var resp := DeactivateSessionHandler(st, id, Some(pin), storeFails);
            var accepted := !storeFails && IsPinCode(pin) && id in st.sessions
                            && st.sessions[id].pinHash == Some(HashPin(pin));
            var r := CancelAlert(h, resp.response.code == 200, clearThrows);
            && (r.1 <==> accepted && !clearThrows)
            && (!accepted ==> r == (h, false))
            && (accepted ==> resp.store.sessions[id].status == Deactivated && !r.0.gpsTracking)
            && (accepted && clearThrows ==> r.0.isActive == h.isActive && !r.1)
  {
  }

  // ---------------------------------------------------------------------------
  // Session recovery
  // ---------------------------------------------------------------------------

  /** The `getSession` call of recovery: it throws on any non-2xx answer. */
  datatype Fetch = FetchThrew | Fetched(status: Option<SessionStatus>, createdAt: Option<int>, expiresAt: Option<int>)

  /** The results of the calls recovery makes. */
  datatype RecoverEnv = RecoverEnv(
    fetch: Fetch,
    name: Option<string>,
    contacts: Option<seq<Contact>>,
    profileThrows: bool,
    permission: bool,
    trackingThrows: bool,
    audioStarted: bool,
    trackingUrl: string,
    now: int)

  /** A session id is stored: `getSessionId` returned a non-empty string. */
  predicate HasStoredId(h: Hook) {
    h.storedId.Some? && h.storedId.value != ""
  }

  /** The server still reports the session as active and the stored profile could be read. */
  predicate Resumable(e: RecoverEnv) {
    ServerSaysActive(e) && !e.profileThrows
  }

  /** The server still reports the session as active. */
  predicate ServerSaysActive(e: RecoverEnv) {
    e.fetch.Fetched? && e.fetch.status == Some(Active)
  }

  /**
   * The mount-time recovery. It runs once per hook. Without a stored id, an
   * empty one included, it does nothing more. With one, it asks the server; any status other than `active`, or any exception,
   * including a failed read of the stored name or contacts (`getContacts`
   * parses stored JSON), clears the stored id and leaves the alert
   * inactive. For `active` it rebuilds the session, marks the
   * alert active and rejoins the room; GPS restarts only with permission,
   * and an audio failure is ignored. If starting GPS throws, the catch
   * clears the stored id, but the alert has already been marked active.
   */
  function Recover(h: Hook, e: RecoverEnv): (r: Hook)
    ensures h.hasRecovered ==> r == h
    ensures !h.hasRecovered ==> r.hasRecovered
    ensures !h.hasRecovered && !HasStoredId(h) ==> r == h.(hasRecovered := true)
    ensures !h.hasRecovered && HasStoredId(h) && !Resumable(e) ==> r == h.(hasRecovered := true, storedId := None)
    ensures r.isActive != h.isActive ==> !h.hasRecovered && HasStoredId(h) && Resumable(e)
    ensures !h.hasRecovered && HasStoredId(h) && Resumable(e) ==>
              && r.isActive && r.joined == h.storedId
              && r.session.Some? && r.session.value.sessionId == h.storedId.value
              && r.session.value.status == Active
              && (r.gpsTracking <==> e.permission && !e.trackingThrows)
              && (r.storedId == h.storedId <==> !(e.permission && e.trackingThrows))
  {
    if h.hasRecovered then h
    else
      var h1 := h.(hasRecovered := true);
      if !HasStoredId(h) then h1
      else if !Resumable(e) then h1.(storedId := None)
      else
        var id := h.storedId.value;
        var s := ClientSession(id, e.name.GetOr(""), e.contacts.GetOr([]), Active,
                               e.fetch.createdAt.GetOr(e.now), e.fetch.expiresAt.GetOr(e.now + 3600000),
                               e.trackingUrl);
        var h2 := h1.(session := Some(s), isActive := true, joined := Some(id));
        if e.permission && e.trackingThrows then h2.(storedId := None, gpsTracking := false)
        else h2.(gpsTracking := e.permission, audio := e.audioStarted)
  }

  /** A second recovery attempt, whatever its environment, changes nothing. */
  lemma RecoverOnlyOnce(h: Hook, e1: RecoverEnv, e2: RecoverEnv)
    ensures Recover(Recover(h, e1), e2) == Recover(h, e1)
  {
  }

  /** What the app's `getSession` makes of a GET response: the body on 200, an exception otherwise. */
  function FetchFrom(resp: Response): Fetch {
    if resp.code == 200 && resp.body.ViewBody? then
      Fetched(Some(resp.body.view.status), Some(resp.body.view.createdAt), Some(resp.body.view.expiresAt))
    else FetchThrew
  }

  /**
   * Recovery consults `status`, not `valid`. For an active session read past
   * its expiry, the server persists `expired` but answers with the snapshot
   * read before, whose status is `active`; the app therefore resumes an
   * alert that the server has just expired, unless reading the stored
   * profile fails.
   */
  lemma RecoveryResumesLazilyExpiredSession(h: Hook, st: Store, now: int, e: RecoverEnv)
    requires !h.hasRecovered && HasStoredId(h)
    requires h.storedId.value in st.sessions
    requires st.sessions[h.storedId.value].status == Active && now > st.sessions[h.storedId.value].expiresAt
    requires e.fetch == FetchFrom(GetSessionHandler(st, h.storedId.value, now, false).response)
    ensures var resp := GetSessionHandler(st, h.storedId.value, now, false);
            && !resp.response.body.view.valid
            && resp.store.sessions[h.storedId.value].status == Expired
            && (Recover(h, e).isActive <==> h.isActive || !e.profileThrows)
  {
    var resp := GetSessionHandler(st, h.storedId.value, now, false);
    assert resp.response.code == 200 && resp.response.body.view.status == Active;
    assert ServerSaysActive(e);
  }
}

=== FILE: common.dfy ===
/**
 * Shared vocabulary of the Beaver model: an optional value, the JavaScript
 * string primitives the screens and handlers rely on (whitespace, `trim`,
 * `replace(/\s/g, '')`), the two input regular expressions, decimal text and
 * JavaScript's truncating remainder.
 */
module Common {

  /** A value that may be absent (`undefined` / `null` in the source). */
  datatype Option<+T> = None | Some(value: T) {
    function GetOr(default: T): T {
      match this
      case Some(v) => v
      case None => default
    }
  }

  // ---------------------------------------------------------------------------
  // Characters and whitespace
  // ---------------------------------------------------------------------------

  /**
   * The characters JavaScript treats as white space in `trim()` and in the
   * regular-expression class `\s`: the WhiteSpace and LineTerminator
   * productions of ECMAScript (tab, vertical tab, form feed, space, no-break
   * space, byte order mark, every space separator, line feed, carriage
   * return, line and paragraph separators).
   */
  predicate IsJsWhitespace(c: char) {
    || c == '\t' || c == '\n' || c == '\U{B}' || c == '\U{C}' || c == '\r'
    || c == ' ' || c == '\U{A0}' || c == '\U{1680}'
    || ('\U{2000}' <= c <= '\U{200A}')
    || c == '\U{2028}' || c == '\U{2029}' || c == '\U{202F}' || c == '\U{205F}'
    || c == '\U{3000}' || c == '\U{FEFF}'
  }

  predicate AllWhitespace(s: string) {
    forall i :: 0 <= i < |s| ==> IsJsWhitespace(s[i])
  }

  predicate NoWhitespace(s: string) {
    forall i :: 0 <= i < |s| ==> !IsJsWhitespace(s[i])
  }

  /** `\d` without the `u` flag: the ASCII digits only. */
  predicate IsAsciiDigit(c: char) {
    '0' <= c <= '9'
  }

  predicate AllDigits(s: string) {
    forall i :: 0 <= i < |s| ==> IsAsciiDigit(s[i])
  }

  // ---------------------------------------------------------------------------
  // The two input formats
  // ---------------------------------------------------------------------------

  /** `/^\d{4}$/.test(s)`: exactly four ASCII digits. */
  predicate IsPinCode(s: string) {
    |s| == 4 && AllDigits(s)
  }

  /**
   * `/^\+\d{7,15}$/.test(s)`: a plus sign followed by 7 to 15 ASCII digits,
   * a syntactic subset of the international number structure of ITU-T
   * Recommendation E.164 (clause 6 caps a number at 15 digits).
   */
  predicate IsE164Phone(s: string) {
    8 <= |s| <= 16 && s[0] == '+' && AllDigits(s[1..])
  }

  /** The digits of an accepted phone number never exceed the E.164 maximum. */
  lemma E164DigitCount(s: string)
    requires IsE164Phone(s)
    ensures 7 <= |s[1..]| <= 15
    ensures forall i :: 1 <= i < |s| ==> s[i] != '+' && !IsJsWhitespace(s[i])
  {
    forall i | 1 <= i < |s|
      ensures s[i] != '+' && !IsJsWhitespace(s[i])
    {
      assert s[1..][i - 1] == s[i];
    }
  }

  // ---------------------------------------------------------------------------
  // String.prototype.trim and replace(/\s/g, '')
  // ---------------------------------------------------------------------------

  /** Drops the leading white space of `s`. */
  function TrimStart(s: string): (r: string)
    ensures |r| <= |s| && r == s[|s| - |r|..]
    ensures |r| > 0 ==> !IsJsWhitespace(r[0])
    ensures AllWhitespace(s[..|s| - |r|])
  {
    if |s| > 0 && IsJsWhitespace(s[0]) then
      var r := TrimStart(s[1..]);
      var k := |s| - |r|;
      assert forall i :: 1 <= i < k ==> s[i] == s[1..][..k - 1][i - 1];
      r
    else s
  }

  /** Drops the trailing white space of `s`. */
  function TrimEnd(s: string): (r: string)
    ensures |r| <= |s| && r == s[..|r|]
    ensures |r| > 0 ==> !IsJsWhitespace(r[|r| - 1])
    ensures AllWhitespace(s[|r|..])
  {
    if |s| > 0 && IsJsWhitespace(s[|s| - 1]) then
      var r := TrimEnd(s[..|s| - 1]);
      assert forall i :: |r| <= i < |s| - 1 ==> s[i] == s[..|s| - 1][|r|..][i - |r|];
      r
    else s
  }

  /**
   * `s.length`: JavaScript counts UTF-16 code units, so a character outside
   * the Basic Multilingual Plane (a surrogate pair) counts twice.
   */
  function Utf16Length(s: string): (n: nat)
    ensures |s| <= n <= 2 * |s|
  {
    if |s| == 0 then 0
    else (if s[0] as int < 0x1_0000 then 1 else 2) + Utf16Length(s[1..])
  }

  /** The JavaScript length is the number of characters iff none lies outside the Basic Multilingual Plane. */
  lemma {:induction false} Utf16LengthIsCountIffBmp(s: string)
    ensures Utf16Length(s) == |s| <==> forall i :: 0 <= i < |s| ==> s[i] as int < 0x1_0000
  {
    if |s| > 0 {
      Utf16LengthIsCountIffBmp(s[1..]);
      assert forall i :: 1 <= i < |s| ==> s[i] == s[1..][i - 1];
    }
  }

  /** A single character outside the Basic Multilingual Plane already has length 2. */
  lemma AstralCharCountsTwice()
    ensures Utf16Length("\U{20000}") == 2 && Utf16Length("ab") == 2
  {
    assert "\U{20000}"[1..] == "";
    assert "ab"[1..] == "b" && "b"[1..] == "";
  }

  /** `s.trim()`: white space dropped at both ends. */
  function Trim(s: string): (r: string)
    ensures |r| <= |s|
    ensures |r| > 0 ==> !IsJsWhitespace(r[0]) && !IsJsWhitespace(r[|r| - 1])
  {
    TrimEnd(TrimStart(s))
  }

  /**
   * The trim is the infix of `s` that neither starts nor ends with white
   * space, and everything cut off on either side is white space.
   */
  lemma TrimIsInfix(s: string)
    ensures var r := Trim(s);
            exists i :: 0 <= i <= |s| - |r| && r == s[i..i + |r|]
                        && AllWhitespace(s[..i]) && AllWhitespace(s[i + |r|..])
  {
    var a := TrimStart(s);
    var r := TrimEnd(a);
    var i := |s| - |a|;
    assert a == s[i..];
    assert r == s[i..i + |r|] by { assert a[..|r|] == s[i..i + |r|]; }
    assert s[i + |r|..] == a[|r|..];
    var head, tail := s[..i], s[i + |r|..];
    assert AllWhitespace(head) && AllWhitespace(tail);
    assert 0 <= i <= |s| - |r| && r == s[i..i + |r|] && AllWhitespace(s[..i]) && AllWhitespace(s[i + |r|..]);
  }

  /** Neither starts nor ends with white space: what `trim` produces. */
  predicate Trimmed(s: string) {
    |s| > 0 ==> !IsJsWhitespace(s[0]) && !IsJsWhitespace(s[|s| - 1])
  }

  /** A string with no white space at either end is its own trim. */
  lemma TrimmedFixed(s: string)
    requires Trimmed(s)
    ensures Trim(s) == s
  {
    if |s| > 0 {
      assert TrimStart(s) == s;
      assert TrimEnd(s) == s;
    }
  }

  /** Trimming an already trimmed string changes nothing. */
  lemma TrimIdempotent(s: string)
    ensures Trim(Trim(s)) == Trim(s)
  {
    var t := Trim(s);
    if |t| > 0 {
      assert TrimStart(t) == t;
      assert TrimEnd(t) == t;
    }
  }

  /** A string made only of white space trims to the empty string. */
  lemma {:induction false} TrimBlank(s: string)
    requires AllWhitespace(s)
    ensures Trim(s) == ""
  {
    if |s| > 0 {
      assert AllWhitespace(s[1..]);
      TrimBlank(s[1..]);
      assert TrimStart(s) == TrimStart(s[1..]);
    }
  }

  /** `s.replace(/\s/g, '')`: every white-space character removed, the rest kept in order. */
  function StripWhitespace(s: string): (r: string)
    ensures NoWhitespace(r)
    ensures |r| <= |s|
    ensures NoWhitespace(s) ==> r == s
    ensures forall c :: c in r <==> c in s && !IsJsWhitespace(c)
    ensures |s| == 1 ==> r == (if IsJsWhitespace(s[0]) then "" else s)
  {
    if |s| == 0 then ""
    else if IsJsWhitespace(s[0]) then StripWhitespace(s[1..])
    else [s[0]] + StripWhitespace(s[1..])
  }

  /** Whitespace removal distributes over concatenation. */
  lemma {:induction false} StripAppend(a: string, b: string)
    ensures StripWhitespace(a + b) == StripWhitespace(a) + StripWhitespace(b)
  {
    if |a| > 0 {
      var t := a + b;
      assert t[0] == a[0] && t[1..] == a[1..] + b;
      StripAppend(a[1..], b);
      if IsJsWhitespace(a[0]) {
        assert StripWhitespace(t) == StripWhitespace(t[1..]);
      } else {
        assert StripWhitespace(t) == [a[0]] + StripWhitespace(t[1..]);
      }
    } else {
      assert a + b == b;
    }
  }

  // ---------------------------------------------------------------------------
  // Decimal text (Number.prototype.toString on integers, padStart)
  // ---------------------------------------------------------------------------

  function DigitChar(d: nat): (c: char)
    requires d < 10
    ensures IsAsciiDigit(c) && c as int - '0' as int == d
  {
    ('0' as int + d) as char
  }

  /** The decimal representation of `n`, without leading zeros. */
  function NatToDecimal(n: nat): (r: string)
    ensures |r| >= 1 && AllDigits(r)
    ensures |r| > 1 ==> r[0] != '0'
  {
    if n < 10 then [DigitChar(n)] else NatToDecimal(n / 10) + [DigitChar(n % 10)]
  }

  /** The value of a string of decimal digits (leading zeros allowed). */
  function DecimalValue(s: string): nat
    requires AllDigits(s)
  {
    if |s| == 0 then 0
    else DecimalValue(s[..|s| - 1]) * 10 + (s[|s| - 1] as int - '0' as int)
  }

  /** Reading back the decimal text of `n` gives `n`. */
  lemma {:induction false} DecimalRoundTrip(n: nat)
    ensures DecimalValue(NatToDecimal(n)) == n
  {
    if n >= 10 {
      var r := NatToDecimal(n);
      assert r[..|r| - 1] == NatToDecimal(n / 10);
      DecimalRoundTrip(n / 10);
    }
  }

  /** A leading zero does not change the value of a digit string. */
  lemma {:induction false} LeadingZeroValue(s: string)
    requires AllDigits(s)
    ensures AllDigits("0" + s) && DecimalValue("0" + s) == DecimalValue(s)
  {
    if |s| > 0 {
      var t := "0" + s;
      assert t[..|t| - 1] == "0" + s[..|s| - 1];
      LeadingZeroValue(s[..|s| - 1]);
    }
  }

  /** JavaScript's `String(i)` for an integer of ordinary size. */
  function IntToString(i: int): (r: string)
    ensures |r| >= 1
    ensures i >= 0 ==> r == NatToDecimal(i)
    ensures i < 0 ==> r[0] == '-' && r[1..] == NatToDecimal(-i)
  {
    if i < 0 then "-" + NatToDecimal(-i) else NatToDecimal(i)
  }

  /** `s.padStart(2, '0')`: zeros in front until the text is two characters long. */
  function PadStart2(s: string): (r: string)
    ensures |r| == if |s| >= 2 then |s| else 2
    ensures r[|r| - |s|..] == s
    ensures forall i :: 0 <= i < |r| - |s| ==> r[i] == '0'
  {
    if |s| >= 2 then s else if |s| == 1 then "0" + s else "00"
  }

  // ---------------------------------------------------------------------------
  // JavaScript arithmetic on non-negative divisors
  // ---------------------------------------------------------------------------

  /** `Math.floor(a / b)` for a positive divisor. */
  function FloorDiv(a: int, b: int): (q: int)
    requires b > 0
    ensures b * q <= a < b * (q + 1)
  {
    a / b
  }

  /** JavaScript's integer quotient, truncated toward zero. */
  function JsTrunc(a: int, b: int): int
    requires b > 0
  {
    if a >= 0 then a / b else -((-a) / b)
  }

  /** `a % b` in JavaScript: the remainder of the truncating division, with the sign of the dividend. */
  function JsRem(a: int, b: int): (r: int)
    requires b > 0
    ensures r == a - b * JsTrunc(a, b)
    ensures a >= 0 ==> 0 <= r < b
    ensures a < 0 ==> -b < r <= 0
  {
    if a >= 0 then a % b else -((-a) % b)
  }

  // ---------------------------------------------------------------------------
  // Bounded trailing windows (`slice(-n)`, `limitToLast(n)`)
  // ---------------------------------------------------------------------------

  /** The last `n` elements of `xs` (all of them when there are fewer). */
  function LastN<T>(xs: seq<T>, n: nat): (r: seq<T>)
    ensures |r| == if |xs| > n then n else |xs|
    ensures r == xs[|xs| - |r|..]
  {
    if |xs| > n then xs[|xs| - n..] else xs
  }

  /**
   * Trimming after every append gives the same window as trimming once at the
   * end: the incremental window is the window of the whole history.
   */
  lemma LastNAppend<T>(xs: seq<T>, x: T, n: nat)
    ensures LastN(LastN(xs, n) + [x], n) == LastN(xs + [x], n)
  {
    var w := LastN(xs, n);
    var a := LastN(w + [x], n);
    var b := LastN(xs + [x], n);
    assert |a| == |b|;
    forall i | 0 <= i < |a| ensures a[i] == b[i] {
      if i == |a| - 1 {
        assert a[i] == x && b[i] == x;
      } else {
        assert a[i] == (w + [x])[|w| + 1 - |a| + i];
        assert b[i] == (xs + [x])[|xs| + 1 - |b| + i];
      }
    }
  }
}

=== FILE: contact_card.dfy ===
/**
 * The avatar of a trusted contact in the app's lists
 * (beaver-app/src/components/ContactCard.tsx): a colour picked by the
 * card's position and up to two initials taken from the name.
 *
 * Characters are taken as whole characters (the source indexes UTF-16 code
 * units) and `toUpperCase` is modelled on ASCII letters only.
 */
module ContactCard {
  import opened Types

  /** `AVATAR_COLORS`. */
  const AvatarColors: seq<string> := ["#1B4F8A", "#E8622A", "#16A34A", "#7C3AED", "#DB2777"]

  /** `AVATAR_COLORS[index % AVATAR_COLORS.length]`; `index` is a list position. */
  function AvatarColor(index: nat): (c: string)
    ensures c in AvatarColors
  {
    AvatarColors[index % |AvatarColors|]
  }

  /** The colours repeat every five cards. */
  lemma AvatarColorPeriodic(index: nat)
    ensures AvatarColor(index + 5) == AvatarColor(index)
  {
    assert (index + 5) % 5 == index % 5;
  }

  /** Any five consecutive cards have five different colours. */
  lemma NeighboursDiffer(i: nat, j: nat)
    requires i < j < i + 5
    ensures AvatarColor(i) != AvatarColor(j)
  {
  }

  /** A list holds at most five contacts, so no two cards of one list share a colour. */
  lemma ListColorsDistinct(cs: seq<Contact>, i: nat, j: nat)
    requires |cs| <= MaxContacts && i < j < |cs|
    ensures AvatarColor(i) != AvatarColor(j)
  {
    NeighboursDiffer(i, j);
  }

  // ---------------------------------------------------------------------------
  // Initials
  // ---------------------------------------------------------------------------

  /** `s.split(' ')`: the pieces between single spaces, empty ones included; never an empty list. */
  function Split(s: string): (r: seq<string>)
    ensures |r| >= 1
    ensures forall i :: 0 <= i < |r| ==> ' ' !in r[i]
    decreases |s|
  {
    if |s| == 0 then [""]
    else if s[0] == ' ' then [""] + Split(s[1..])
    else
      var rest := Split(s[1..]);
      [[s[0]] + rest[0]] + rest[1..]
  }

  /** Joining the pieces back with single spaces. */
  function JoinSpaces(ps: seq<string>): string
    requires |ps| >= 1
    decreases |ps|
  {
    if |ps| == 1 then ps[0] else ps[0] + " " + JoinSpaces(ps[1..])
  }

  /** Splitting loses nothing: joining the pieces with spaces gives the name back. */
  lemma {:induction false} SplitJoin(s: string)
    ensures JoinSpaces(Split(s)) == s
    decreases |s|
  {
    if |s| > 0 {
      var rest := Split(s[1..]);
      SplitJoin(s[1..]);
      if s[0] == ' ' {
        assert Split(s) == [""] + rest;
        assert ([""] + rest)[1..] == rest;
        assert s == " " + s[1..];
      } else {
        var r := Split(s);
        assert r == [[s[0]] + rest[0]] + rest[1..];
        assert r[1..] == rest[1..];
        if |rest| == 1 {
          assert s[1..] == rest[0];
        } else {
          assert s[1..] == rest[0] + " " + JoinSpaces(rest[1..]);
        }
        assert s == [s[0]] + s[1..];
      }
    }
  }

  /** `.map(n => n[0]).join('')`: the first character of each piece, an empty piece contributing nothing. */
  function FirstChars(ps: seq<string>): string
    decreases |ps|
  {
    if |ps| == 0 then "" else (if |ps[0]| > 0 then [ps[0][0]] else "") + FirstChars(ps[1..])
  }

  /**
   * Reference definition: the characters of `s` that are not spaces and
   * stand at the start or right after a space (`atStart` says whether the
   * position before `s` counts as such).
   */
  function WordStarts(s: string, atStart: bool): (r: string)
    ensures forall i :: 0 <= i < |r| ==> r[i] != ' '
    decreases |s|
  {
    if |s| == 0 then ""
    else if s[0] == ' ' then WordStarts(s[1..], true)
    else (if atStart then [s[0]] else "") + WordStarts(s[1..], false)
  }

  /** Taking the first character of every piece is taking the first character of every word. */
  lemma {:induction false} FirstCharsAreWordStarts(s: string)
    ensures FirstChars(Split(s)) == WordStarts(s, true)
    ensures FirstChars(Split(s)[1..]) == WordStarts(s, false)
    decreases |s|
  {
    if |s| > 0 {
      var rest := Split(s[1..]);
      FirstCharsAreWordStarts(s[1..]);
      if s[0] == ' ' {
        assert Split(s) == [""] + rest;
        assert ([""] + rest)[1..] == rest;
      } else {
        var r := Split(s);
        assert r == [[s[0]] + rest[0]] + rest[1..];
        assert r[1..] == rest[1..];
        assert r[0][0] == s[0];
      }
    }
  }

  /** Where the word boundary stands after reading `a`. */
  function AtStartAfter(a: string, atStart: bool): bool {
    if |a| == 0 then atStart else a[|a| - 1] == ' '
  }

  /** Word starts of a concatenation: those of the first part, then those of the second read from where the first ended. */
  lemma {:induction false} WordStartsAppend(a: string, b: string, atStart: bool)
    ensures WordStarts(a + b, atStart) == WordStarts(a, atStart) + WordStarts(b, AtStartAfter(a, atStart))
    decreases |a|
  {
    if |a| == 0 {
      assert a + b == b;
    } else {
      assert (a + b)[0] == a[0];
      assert (a + b)[1..] == a[1..] + b;
      var next := a[0] == ' ';
      WordStartsAppend(a[1..], b, next);
      if |a| > 1 {
        assert a[1..][|a[1..]| - 1] == a[|a| - 1];
      }
    }
  }

  /** `toUpperCase` on ASCII letters. */
  function Upper(c: char): (u: char)
    ensures c != ' ' ==> u != ' '
    ensures 'a' <= c <= 'z' ==> 'A' <= u <= 'Z' && u as int - 'A' as int == c as int - 'a' as int
    ensures !('a' <= c <= 'z') ==> u == c
  {
    if 'a' <= c <= 'z' then (c as int - 'a' as int + 'A' as int) as char else c
  }

  function UpperString(s: string): (r: string)
    ensures |r| == |s|
    ensures forall i :: 0 <= i < |s| ==> r[i] == Upper(s[i])
  {
    seq(|s|, i requires 0 <= i < |s| => Upper(s[i]))
  }

  /** `.slice(0, 2)`. */
  function Take2(s: string): (r: string)
    ensures |r| == if |s| < 2 then |s| else 2
    ensures r == s[..|r|]
  {
    if |s| < 2 then s else s[..2]
  }

  /** The avatar text of a contact name. */
  function Initials(name: string): (r: string)
    ensures |r| <= 2
  {
    Take2(UpperString(FirstChars(Split(name))))
  }

  /** The initials are the first two word starts of the name, upper-cased; they never contain a space. */
  lemma InitialsAreWordStarts(name: string)
    ensures Initials(name) == Take2(UpperString(WordStarts(name, true)))
    ensures forall i :: 0 <= i < |Initials(name)| ==> Initials(name)[i] != ' '
  {
    FirstCharsAreWordStarts(name);
  }

  /** Leading, trailing and doubled spaces in a name do not change its initials. */
  lemma ExtraSpacesIgnored(a: string, b: string)
    ensures Initials(" " + a) == Initials(a)
    ensures Initials(a + " ") == Initials(a)
    ensures Initials(a + "  " + b) == Initials(a + " " + b)
  {
    FirstCharsAreWordStarts(" " + a);
    FirstCharsAreWordStarts(a);
    FirstCharsAreWordStarts(a + " ");
    FirstCharsAreWordStarts(a + "  " + b);
    FirstCharsAreWordStarts(a + " " + b);
    LeadingSpace(a);
    TrailingSpace(a);
    DoubledSpace(a, b);
  }

  lemma LeadingSpace(a: string)
    ensures WordStarts(" " + a, true) == WordStarts(a, true)
  {
    assert (" " + a)[1..] == a;
  }

  lemma TrailingSpace(a: string)
    ensures WordStarts(a + " ", true) == WordStarts(a, true)
  {
    WordStartsAppend(a, " ", true);
    assert WordStarts(" ", AtStartAfter(a, true)) == "" by {
      assert " "[1..] == "";
    }
  }

  lemma DoubledSpace(a: string, b: string)
    ensures WordStarts(a + "  " + b, true) == WordStarts(a + " " + b, true)
  {
    var x := AtStartAfter(a, true);
    WordStartsAppend(a, "  " + b, true);
    WordStartsAppend(a, " " + b, true);
    assert ("  " + b)[1..] == " " + b;
    assert (" " + b)[1..] == b;
    assert WordStarts("  " + b, x) == WordStarts(b, true);
    assert WordStarts(" " + b, x) == WordStarts(b, true);
    assert a + "  " + b == a + ("  " + b);
    assert a + " " + b == a + (" " + b);
  }

  /** A first name and a last name without spaces give the two upper-cased first letters. */
  lemma TwoWordInitials(a: string, b: string)
    requires |a| > 0 && |b| > 0 && ' ' !in a && ' ' !in b
    ensures Initials(a + " " + b) == [Upper(a[0]), Upper(b[0])]
  {
    FirstCharsAreWordStarts(a + " " + b);
    assert a + " " + b == a + (" " + b);
    WordStartsAppend(a, " " + b, true);
    SingleWord(a);
    SingleWord(b);
    assert (" " + b)[1..] == b;
    assert a[|a| - 1] in a;
  }

  /** A word without spaces starts once, at its first character. */
  lemma SingleWord(w: string)
    requires |w| > 0 && ' ' !in w
    ensures WordStarts(w, true) == [w[0]]
  {
    assert w[0] in w;
    NoStartInside(w[1..]);
  }

  lemma {:induction false} NoStartInside(w: string)
    requires ' ' !in w
    ensures WordStarts(w, false) == ""
    decreases |w|
  {
    if |w| > 0 {
      assert w[0] in w;
      assert forall c :: c in w[1..] ==> c in w;
      NoStartInside(w[1..]);
    }
  }
}

=== FILE: contact_form.dfy ===
/**
 * The trusted-contact list editor that beaver-app/src/screens/SettingsScreen.tsx
 * and beaver-app/src/screens/OnboardingScreen.tsx both implement, with the
 * same checks in the same order; they differ only in the dialog texts and in
 * the library drawing the fresh id, which is a parameter here.
 */
module ContactForm {
  import opened Common
  import opened Types

  /** The two text inputs of the form. */
  datatype Draft = Draft(name: string, phone: string)

  const EmptyDraft: Draft := Draft("", "")

  /** Why an add was refused, in the order the checks are made. */
  datatype AddError = NameMissing | InvalidNumber | MaximumReached

  /** The result of pressing "add": the list, the inputs, and the refusal if any. */
  datatype Added = Added(contacts: seq<Contact>, draft: Draft, error: Option<AddError>)

  /** The phone as checked and stored: every whitespace character removed. */
  function CleanPhone(phone: string): (r: string)
    ensures NoWhitespace(r)
    ensures forall c :: c in r <==> c in phone && !IsJsWhitespace(c)
    ensures |phone| == 1 ==> r == (if IsJsWhitespace(phone[0]) then "" else phone)
  {
    StripWhitespace(phone)
  }

  /** Cleaning distributes over concatenation; with the one-character case this fixes the cleaned text. */
  lemma CleanPhoneAppend(a: string, b: string)
    ensures CleanPhone(a + b) == CleanPhone(a) + CleanPhone(b)
  {
    StripAppend(a, b);
  }

  /**
   * `handleAddContact`. A blank trimmed name, then a cleaned phone failing
   * `^\+\d{7,15}$`, then a list already holding five contacts, is refused
   * with the list and the inputs unchanged. Otherwise one contact with the
   * fresh id, the trimmed name and the cleaned phone is appended and the
   * inputs are cleared.
   */
  function AddContact(cs: seq<Contact>, d: Draft, freshId: string): (r: Added)
    ensures r.error.None? <==> Trim(d.name) != "" && IsE164Phone(CleanPhone(d.phone)) && |cs| < MaxContacts
    ensures r.error == Some(NameMissing) <==> Trim(d.name) == ""
    ensures r.error == Some(InvalidNumber) <==> Trim(d.name) != "" && !IsE164Phone(CleanPhone(d.phone))
    ensures r.error.Some? ==> r.contacts == cs && r.draft == d
    ensures r.error.None? ==> && |r.contacts| == |cs| + 1 && r.contacts[..|cs|] == cs
                              && r.contacts[|cs|] == Contact(freshId, Trim(d.name), CleanPhone(d.phone))
                              && r.draft == EmptyDraft
  {
    if Trim(d.name) == "" then Added(cs, d, Some(NameMissing))
    else if !IsE164Phone(CleanPhone(d.phone)) then Added(cs, d, Some(InvalidNumber))
    else if |cs| >= MaxContacts then Added(cs, d, Some(MaximumReached))
    else Added(cs + [Contact(freshId, Trim(d.name), CleanPhone(d.phone))], EmptyDraft, None)
  }

  /** `contacts.filter(c => c.id !== id)`. */
  function DeleteContact(cs: seq<Contact>, id: string): (r: seq<Contact>)
    ensures |r| <= |cs|
    ensures forall c :: c in r <==> c in cs && c.id != id
    ensures |cs| == 1 ==> r == (if cs[0].id == id then [] else cs)
  {
    if |cs| == 0 then []
    else (if cs[0].id == id then [] else [cs[0]]) + DeleteContact(cs[1..], id)
  }

  /** Deleting from a concatenation deletes from each part and keeps the parts in order. */
  lemma {:induction false} DeleteDistributes(a: seq<Contact>, b: seq<Contact>, id: string)
    ensures DeleteContact(a + b, id) == DeleteContact(a, id) + DeleteContact(b, id)
    decreases |a|
  {
    if |a| > 0 {
      assert (a + b)[0] == a[0];
      assert (a + b)[1..] == a[1..] + b;
      DeleteDistributes(a[1..], b, id);
    } else {
      assert a + b == b;
    }
  }

  /** Deleting an id that no contact carries changes nothing. */
  lemma {:induction false} DeleteAbsent(cs: seq<Contact>, id: string)
    requires forall i :: 0 <= i < |cs| ==> cs[i].id != id
    ensures DeleteContact(cs, id) == cs
    decreases |cs|
  {
    if |cs| > 0 {
      DeleteAbsent(cs[1..], id);
    }
  }

  /** Adding a contact under a fresh id and deleting that id gives back the original list. */
  lemma AddThenDelete(cs: seq<Contact>, d: Draft, freshId: string)
    requires forall i :: 0 <= i < |cs| ==> cs[i].id != freshId
    requires AddContact(cs, d, freshId).error.None?
    ensures DeleteContact(AddContact(cs, d, freshId).contacts, freshId) == cs
  {
    var c := Contact(freshId, Trim(d.name), CleanPhone(d.phone));
    DeleteDistributes(cs, [c], freshId);
    DeleteAbsent(cs, freshId);
    assert DeleteContact([c], freshId) == [];
  }

  /** What every list the form builds satisfies: at most five entries, trimmed non-blank names, valid numbers. */
  predicate WellFormedContacts(cs: seq<Contact>) {
    && |cs| <= MaxContacts
    && forall i :: 0 <= i < |cs| ==> cs[i].name != "" && Trimmed(cs[i].name) && IsE164Phone(cs[i].phone)
  }

  /** Adding keeps a well-formed list well formed: the cap of five is never exceeded. */
  lemma AddKeepsWellFormed(cs: seq<Contact>, d: Draft, freshId: string)
    ensures WellFormedContacts(cs) ==> WellFormedContacts(AddContact(cs, d, freshId).contacts)
  {
    var a := AddContact(cs, d, freshId);
    if WellFormedContacts(cs) && a.error.None? {
      var c := Contact(freshId, Trim(d.name), CleanPhone(d.phone));
      assert c.name != "" && Trimmed(c.name) && IsE164Phone(c.phone);
      assert a.contacts == cs + [c];
      AppendKeepsWellFormed(cs, c);
    }
  }

  lemma AppendKeepsWellFormed(cs: seq<Contact>, c: Contact)
    requires WellFormedContacts(cs) && |cs| < MaxContacts
    requires c.name != "" && Trimmed(c.name) && IsE164Phone(c.phone)
    ensures WellFormedContacts(cs + [c])
  {
    var r := cs + [c];
    forall i | 0 <= i < |r|
      ensures r[i].name != "" && Trimmed(r[i].name) && IsE164Phone(r[i].phone)
    {
      if i < |cs| {
        assert r[i] == cs[i];
      }
    }
  }

  /** Deleting keeps a well-formed list well formed. */
  lemma DeleteKeepsWellFormed(cs: seq<Contact>, id: string)
    ensures WellFormedContacts(cs) ==> WellFormedContacts(DeleteContact(cs, id))
  {
    if WellFormedContacts(cs) {
      var r := DeleteContact(cs, id);
      forall i | 0 <= i < |r|
        ensures r[i].name != "" && Trimmed(r[i].name) && IsE164Phone(r[i].phone)
      {
        assert r[i] in cs;
        var j :| 0 <= j < |cs| && cs[j] == r[i];
      }
    }
  }

  /** A phone typed with spaces is accepted when the same digits without them are. */
  lemma SpacesInPhoneIgnored(cs: seq<Contact>, name: string, a: string, b: string, freshId: string)
    ensures AddContact(cs, Draft(name, a + " " + b), freshId).contacts
            == AddContact(cs, Draft(name, a + b), freshId).contacts
  {
    SpaceVanishes(a, b);
  }

  lemma SpaceVanishes(a: string, b: string)
    ensures CleanPhone(a + " " + b) == CleanPhone(a + b)
  {
    assert a + " " + b == a + (" " + b);
    StripAppend(a, " " + b);
    StripAppend(" ", b);
    StripAppend(a, b);
    assert StripWhitespace(" ") == StripWhitespace("");
  }
}

=== FILE: home_screen.dfy ===
/**
 * The decision logic of beaver-app/src/screens/HomeScreen.tsx: the security
 * timer that raises the SOS by itself, the guard in front of the SOS, the
 * SOS button, the PIN modal that cancels an alert, the timer's text and the
 * contact preview.
 *
 * A press or tick does not call the alert hook itself; it returns the
 * `Request` it makes, so its effect on the hook (AlertHook) can be composed
 * separately.
 */
module HomeScreen {
  import opened Common
  import opened Types
  import opened Ticker
  import opened AlertHook

  /** The screen's state: the stored user data, the security timer and the PIN modal. */
  datatype Home = Home(
    firstName: string,
    contacts: seq<Contact>,
    pinCode: string,
    timerDuration: TimerDuration,
    showPinModal: bool,
    pinError: string,
    security: Timer)

  /** What a press or tick asks of the rest of the app. */
  datatype Request =
    | NoRequest
    | ConfigWarning                      // the "incomplete configuration" dialog
    | TriggerRequest(p: TriggerParams)   // `triggerSOS` with the stored data

  /** An empty name, an empty contact list or an empty PIN blocks the SOS. */
  predicate Configured(h: Home) {
    h.firstName != "" && |h.contacts| > 0 && h.pinCode != ""
  }

  /** `handleTriggerSOS`: the stored data, or a warning when any of it is missing. */
  function HandleTriggerSOS(h: Home): (q: Request)
    ensures q == ConfigWarning <==> !Configured(h)
    ensures Configured(h) ==> q == TriggerRequest(TriggerParams(h.firstName, h.contacts, h.pinCode))
  {
    if !Configured(h) then ConfigWarning
    else TriggerRequest(TriggerParams(h.firstName, h.contacts, h.pinCode))
  }

  // ---------------------------------------------------------------------------
  // Security timer
  // ---------------------------------------------------------------------------

  /**
   * `handleStartSecurityTimer`: `duration` minutes, counted in seconds. The
   * timer controls are hidden while an alert is active, so nothing happens then.
   */
  function StartSecurityTimer(h: Home, d: TimerDuration, alertActive: bool): (r: Home)
    ensures alertActive ==> r == h
    ensures !alertActive ==> r == h.(timerDuration := d, security := Started(d * 60))
    ensures !alertActive ==> r.security.running && r.security.value == d * 60 && r.security.value >= 300
  {
    if alertActive then h else h.(timerDuration := d, security := Started(d * 60))
  }

  /** The cancel button: the timer stops and shows 0. Hidden, and so unavailable, while an alert is active. */
  function CancelSecurityTimer(h: Home, alertActive: bool): (r: Home)
    ensures alertActive ==> r == h
    ensures !alertActive ==> !r.security.running && r.security.value == 0 && r == h.(security := r.security)
  {
    if alertActive then h else h.(security := Timer(0, false, h.security.fired))
  }

  /** One second of the security timer; the tick that sees at most 1 stops it and asks for the SOS. */
  function SecurityTick(h: Home): (r: (Home, Request))
    ensures r.0 == h.(security := TickTimer(h.security))
    ensures r.1 != NoRequest <==> h.security.running && h.security.value <= 1
    ensures r.1 != NoRequest ==> r.1 == HandleTriggerSOS(h)
  {
    var t := TickTimer(h.security);
    (h.(security := t), if t.fired > h.security.fired then HandleTriggerSOS(h) else NoRequest)
  }

  /** `k` seconds of the security timer: the screen afterwards and how many SOS requests were made. */
  function SecurityRun(h: Home, k: nat): (Home, nat)
    decreases k
  {
    if k == 0 then (h, 0)
    else
      var (h1, q) := SecurityTick(h);
      var (h2, n) := SecurityRun(h1, k - 1);
      (h2, n + (if q == NoRequest then 0 else 1))
  }

  /** The ticks move only the timer, and each of its firings is one request. */
  lemma {:induction false} SecurityRunFollowsTimer(h: Home, k: nat)
    ensures SecurityRun(h, k).0 == h.(security := Ticks(h.security, k))
    ensures Ticks(h.security, k).fired >= h.security.fired
    ensures SecurityRun(h, k).1 == Ticks(h.security, k).fired - h.security.fired
    decreases k
  {
    if k > 0 {
      SecurityRunFollowsTimer(SecurityTick(h).0, k - 1);
    }
  }

  /**
   * Started for `d` minutes and left alone, the security timer requests the
   * SOS exactly once, at second `d * 60`, and then stays stopped at 0.
   */
  lemma SecurityTimerFiresOnce(h: Home, d: TimerDuration, k: nat)
    ensures var r := SecurityRun(StartSecurityTimer(h, d, false), k);
            && r.1 == (if k >= d * 60 then 1 else 0)
            && r.0.security.value == (if k >= d * 60 then 0 else d * 60 - k)
            && r.0.security.running == (k < d * 60)
  {
    var h0 := StartSecurityTimer(h, d, false);
    SecurityRunFollowsTimer(h0, k);
    TicksFromStart(d * 60, k);
  }

  /** A cancelled security timer never requests the SOS. */
  lemma CancelledTimerNeverFires(h: Home, k: nat)
    ensures SecurityRun(CancelSecurityTimer(h, false), k).1 == 0
  {
    var h0 := CancelSecurityTimer(h, false);
    SecurityRunFollowsTimer(h0, k);
    StoppedStays(h0.security, k);
  }

  // ---------------------------------------------------------------------------
  // SOS button and PIN modal
  // ---------------------------------------------------------------------------

  /**
   * `handleSOSPress`. The button is disabled while the hook is loading.
   * During an alert a press opens the PIN modal; otherwise it goes through
   * the trigger guard.
   */
  function PressSOS(h: Home, alertActive: bool, isLoading: bool): (r: (Home, Request))
    ensures isLoading ==> r == (h, NoRequest)
    ensures !isLoading && alertActive ==> r == (h.(showPinModal := true), NoRequest)
    ensures !isLoading && !alertActive ==> r == (h, HandleTriggerSOS(h))
  {
    if isLoading then (h, NoRequest)
    else if alertActive then (h.(showPinModal := true), NoRequest)
    else (h, HandleTriggerSOS(h))
  }

  const PinErrorText: string := "Code PIN incorrect. R\U{E9}essayez."

  /**
   * `handlePinEntered`: asks the hook to cancel the alert with the PIN
   * (`deactivated` is the server's verdict, `clearThrows` whether clearing the
   * stored id failed). On success the modal closes; on failure it stays open
   * with an error.
   */
  function PinEntered(h: Home, hook: Hook, deactivated: bool, clearThrows: bool): (r: (Home, Hook))
    ensures r.1 == CancelAlert(hook, deactivated, clearThrows).0
    ensures CancelAlert(hook, deactivated, clearThrows).1 ==> r.0 == h.(showPinModal := false, pinError := "")
    ensures !CancelAlert(hook, deactivated, clearThrows).1 ==> r.0 == h.(pinError := PinErrorText)
    ensures !deactivated ==> r.1 == hook
  {
    var (hook2, ok) := CancelAlert(hook, deactivated, clearThrows);
    if ok then (h.(showPinModal := false, pinError := ""), hook2)
    else (h.(pinError := PinErrorText), hook2)
  }

  /**
   * Pressing SOS during an alert and then entering a PIN the server accepts
   * ends the alert and closes the modal. A refused PIN keeps both. An accepted
   * PIN whose stored id cannot be cleared keeps the modal open with the error
   * and the alert marked active, although GPS has stopped.
   */
  lemma PressThenCorrectPin(h: Home, hook: Hook)
    requires hook.isActive && hook.session.Some? && !hook.isLoading
    ensures var pressed := PressSOS(h, hook.isActive, hook.isLoading);
            && pressed.0.showPinModal && pressed.1 == NoRequest
            && !PinEntered(pressed.0, hook, true, false).0.showPinModal
            && !PinEntered(pressed.0, hook, true, false).1.isActive
            && PinEntered(pressed.0, hook, false, false).0.showPinModal
            && PinEntered(pressed.0, hook, false, false).1 == hook
            && PinEntered(pressed.0, hook, true, true).0.showPinModal
            && PinEntered(pressed.0, hook, true, true).1.isActive
            && !PinEntered(pressed.0, hook, true, true).1.gpsTracking
  {
  }

  /** The modal's cancel buttons (header and pad): close it and forget the error. */
  function CancelPinModal(h: Home): (r: Home)
    ensures !r.showPinModal && r.pinError == ""
    ensures r.(showPinModal := h.showPinModal, pinError := h.pinError) == h
  {
    h.(showPinModal := false, pinError := "")
  }

  /** The system back gesture (`onRequestClose`): closes the modal but keeps the error. */
  function BackPinModal(h: Home): (r: Home)
    ensures !r.showPinModal && r.pinError == h.pinError
    ensures r.(showPinModal := h.showPinModal) == h
  {
    h.(showPinModal := false)
  }

  /**
   * Reopening the modal after a refused PIN shows the old error again when it
   * was closed with the back gesture, and no error when it was cancelled.
   */
  lemma ReopenedModalError(h: Home, hook: Hook, clearThrows: bool)
    requires hook.isActive && hook.session.Some? && !hook.isLoading
    ensures var refused := PinEntered(PressSOS(h, true, false).0, hook, false, clearThrows).0;
            && PressSOS(BackPinModal(refused), true, false).0.pinError == PinErrorText
            && PressSOS(BackPinModal(refused), true, false).0.showPinModal
            && PressSOS(CancelPinModal(refused), true, false).0.pinError == ""
  {
  }

  // ---------------------------------------------------------------------------
  // formatTimer
  // ---------------------------------------------------------------------------

  /** `mm:ss`: minutes and seconds, each written in decimal and padded to two characters. */
  function FormatTimer(seconds: int): string {
    PadStart2(IntToString(FloorDiv(seconds, 60))) + ":" + PadStart2(IntToString(JsRem(seconds, 60)))
  }

  /** Padding a decimal text to two characters keeps its digits and its value. */
  lemma PaddedValue(n: nat)
    ensures AllDigits(PadStart2(NatToDecimal(n)))
    ensures DecimalValue(PadStart2(NatToDecimal(n))) == n
    ensures n < 100 ==> |PadStart2(NatToDecimal(n))| == 2
  {
    var s := NatToDecimal(n);
    DecimalRoundTrip(n);
    if |s| == 1 {
      LeadingZeroValue(s);
    }
    if n < 100 {
      NarrowDecimal(n);
    }
  }

  /** Numbers below 100 have at most two digits. */
  lemma NarrowDecimal(n: nat)
    requires n < 100
    ensures |NatToDecimal(n)| <= 2
  {
    if n >= 10 {
      assert NatToDecimal(n) == NatToDecimal(n / 10) + [DigitChar(n % 10)];
    }
  }

  /**
   * For any non-negative count, the text is `<minutes>:<ss>` where the part
   * after the colon is two digits, and reading both parts back gives the
   * count; below 100 minutes (the longest timer is 30) it is exactly five
   * characters.
   */
  lemma FormatTimerReadsBack(seconds: int)
    requires seconds >= 0
    ensures var t := FormatTimer(seconds);
            && |t| >= 5 && t[|t| - 3] == ':'
            && AllDigits(t[..|t| - 3]) && AllDigits(t[|t| - 2..])
            && DecimalValue(t[..|t| - 3]) * 60 + DecimalValue(t[|t| - 2..]) == seconds
            && (seconds < 6000 ==> |t| == 5)
  {
    var m := seconds / 60;
    var s := seconds % 60;
    var mm := PadStart2(NatToDecimal(m));
    var ss := PadStart2(NatToDecimal(s));
    assert FormatTimer(seconds) == mm + ":" + ss by {
      assert FloorDiv(seconds, 60) == m && IntToString(m) == NatToDecimal(m);
      assert JsRem(seconds, 60) == s && IntToString(s) == NatToDecimal(s);
    }
    PaddedValue(m);
    PaddedValue(s);
    ColonParts(mm, ss);
    assert m * 60 + s == seconds;
    if seconds < 6000 {
      assert m < 100;
    }
  }

  /** The two halves of `mm:ss` can be cut back out of it. */
  lemma ColonParts(mm: string, ss: string)
    requires |ss| == 2
    ensures var t := mm + ":" + ss;
            && |t| == |mm| + 3 && t[|t| - 3] == ':' && t[..|t| - 3] == mm && t[|t| - 2..] == ss
  {
  }

  // ---------------------------------------------------------------------------
  // Contact preview
  // ---------------------------------------------------------------------------

  /** The first three contacts, and the count of the others when there are more than three. */
  datatype Preview = Preview(shown: seq<Contact>, more: Option<nat>)

  function ContactPreview(contacts: seq<Contact>): (p: Preview)
    ensures p.shown <= contacts && |p.shown| == (if |contacts| > 3 then 3 else |contacts|)
    ensures p.more.Some? <==> |contacts| > 3
    ensures |p.shown| + p.more.GetOr(0) == |contacts|
  {
    if |contacts| > 3 then Preview(contacts[..3], Some(|contacts| - 3)) else Preview(contacts, None)
  }

  /** `+N autre`, with a plural `s` when N is more than one. */
  function MoreLabel(n: nat): (s: string)
    ensures var k := |NatToDecimal(n)|;
            && |s| >= k + 6 && s[0] == '+'
            && AllDigits(s[1..k + 1]) && DecimalValue(s[1..k + 1]) == n
            && (s[k + 1..] == " autres" <==> n > 1)
            && (s[k + 1..] == " autre" <==> n <= 1)
  {
    DecimalRoundTrip(n);
    assert ("+" + NatToDecimal(n) + " autre" + (if n > 1 then "s" else ""))[1..|NatToDecimal(n)| + 1] == NatToDecimal(n);
    "+" + NatToDecimal(n) + " autre" + (if n > 1 then "s" else "")
  }
}

=== FILE: notifications.dfy ===
/**
 * The alert dispatcher of beaver-backend/src/services/twilioService.ts.
 *
 * The provider is not modelled: what each contact's line-type lookup
 * returned, whether the WhatsApp or SMS send produced a message sid or threw,
 * whether storing the alert record succeeded and the clock reading taken for
 * it are given per contact as a `ContactOutcome`, so every possible
 * combination of provider behaviour is covered by quantifying over them.
 */
module Notifications {
  import opened Common
  import opened Types
  import opened SessionStore

  // ---------------------------------------------------------------------------
  // detectChannel
  // ---------------------------------------------------------------------------

  /** What the line-type lookup gave: the reported type (possibly absent), or an exception. */
  datatype Lookup = LineType(lineType: Option<string>) | LookupThrew

  /** Line types that can receive WhatsApp messages. */
  predicate ReachesWhatsApp(l: Lookup) {
    l.LineType? && (l.lineType == Some("mobile") || l.lineType == Some("personal"))
  }

  /** WhatsApp for a mobile or personal line; SMS otherwise, and SMS when the lookup fails. */
  function DetectChannel(l: Lookup): (c: Channel)
    ensures c == WhatsApp <==> ReachesWhatsApp(l)
    ensures l.LookupThrew? ==> c == Sms
  {
    match l
    case LookupThrew => Sms
    case LineType(t) =>
      if t == Some("mobile") || t == Some("personal") then WhatsApp else Sms
  }

  // ---------------------------------------------------------------------------
  // buildTrackingUrl
  // ---------------------------------------------------------------------------

  /** Used when `BEAVER_WEB_URL` is not set. */
  const DefaultWebUrl: string := "https://beaver.app"

  /** `${base}/s/${sessionId}` with `base` the environment value or the default. */
  function BuildTrackingUrl(webUrl: Option<string>, sessionId: string): (u: string)
    ensures webUrl.None? ==> DefaultWebUrl <= u
    ensures webUrl.Some? ==> webUrl.value <= u
    ensures |u| == |webUrl.GetOr(DefaultWebUrl)| + 3 + |sessionId|
    ensures u[|u| - |sessionId| - 3..] == "/s/" + sessionId
  {
    webUrl.GetOr(DefaultWebUrl) + "/s/" + sessionId
  }

  /** Under one base, different sessions get different links. */
  lemma TrackingUrlInjective(webUrl: Option<string>, a: string, b: string)
    ensures BuildTrackingUrl(webUrl, a) == BuildTrackingUrl(webUrl, b) <==> a == b
  {
    if BuildTrackingUrl(webUrl, a) == BuildTrackingUrl(webUrl, b) {
      var base := webUrl.GetOr(DefaultWebUrl) + "/s/";
      assert BuildTrackingUrl(webUrl, a) == base + a;
      assert BuildTrackingUrl(webUrl, b) == base + b;
      assert a == (base + a)[|base|..];
      assert b == (base + b)[|base|..];
    }
  }

  // ---------------------------------------------------------------------------
  // sendAlertsToContacts
  // ---------------------------------------------------------------------------

  /**
   * The environment's behaviour for one contact: the lookup result, the sid
   * returned by the send (`None` when the send threw), whether adding the
   * alert record succeeded, and `Date.now()` when the alert was built.
   */
  datatype ContactOutcome = ContactOutcome(lookup: Lookup, sid: Option<string>, stored: bool, now: int)

  /** A contact succeeds when the send returned a sid and the record was stored. */
  predicate Succeeds(o: ContactOutcome) {
    o.sid.Some? && o.stored
  }

  /** The record of a successful send, before it is stored. */
  function SentAlert(s: Session, c: Contact, o: ContactOutcome): Alert
    requires o.sid.Some?
  {
    Alert(s.sessionId, c.phone, DetectChannel(o.lookup), Sent, o.sid, o.now)
  }

  /** The alert the loop returns for contact `c` under outcome `o`. */
  function AlertFor(s: Session, c: Contact, o: ContactOutcome): (a: Alert)
    ensures a.sessionId == s.sessionId && a.contactPhone == c.phone && a.sentAt == o.now
    ensures a.status == Sent <==> Succeeds(o)
    ensures a.status == Sent ==> a.channel == DetectChannel(o.lookup) && a.providerSid == o.sid
    ensures a.status != Sent ==> a.status == Failed && a.channel == Sms && a.providerSid == None
  {
    if Succeeds(o) then SentAlert(s, c, o)
    else Alert(s.sessionId, c.phone, Sms, Failed, None, o.now)
  }

  /** The alerts kept in the collection: the successful ones, in order. */
  function SentOnly(alerts: seq<Alert>): (r: seq<Alert>)
    ensures |r| <= |alerts|
    ensures forall i :: 0 <= i < |r| ==> r[i].status == Sent
  {
    if |alerts| == 0 then []
    else if alerts[|alerts| - 1].status == Sent then SentOnly(alerts[..|alerts| - 1]) + [alerts[|alerts| - 1]]
    else SentOnly(alerts[..|alerts| - 1])
  }

  /** Number of alerts with the given status (`alerts.filter(a => a.status === st).length`). */
  function CountStatus(alerts: seq<Alert>, st: AlertStatus): (n: nat)
    ensures n <= |alerts|
  {
    if |alerts| == 0 then 0
    else CountStatus(alerts[..|alerts| - 1], st) + (if alerts[|alerts| - 1].status == st then 1 else 0)
  }

  /** The dispatcher's result: the store afterwards, the alerts, and whether the final session update went through. */
  datatype Dispatch = Dispatch(store: Store, alerts: seq<Alert>, stamped: bool)

  /**
   * Sends to every contact of `s` in turn. A failure at any stage for one
   * contact yields a failed alert for it and the loop moves on. Successful
   * alerts are appended to the alert collection. After the loop the session's
   * `alertSentAt` is set to `endTime`. That update is rejected, and `stamped`
   * is false, when the session document no longer exists or when Firestore
   * throws (`stampThrows`); the alerts already stored stay stored.
   */
  method SendAlertsToContacts(st: Store, s: Session, outcomes: seq<ContactOutcome>, endTime: int,
                              stampThrows: bool)
    returns (r: Dispatch)
    requires |outcomes| == |s.contacts|
    ensures |r.alerts| == |s.contacts|
    ensures forall i :: 0 <= i < |s.contacts| ==> r.alerts[i] == AlertFor(s, s.contacts[i], outcomes[i])
    ensures r.store.alerts == st.alerts + SentOnly(r.alerts)
    ensures r.store.positions == st.positions
    ensures r.stamped <==> !stampThrows && s.sessionId in st.sessions
    ensures r.stamped ==> (r.store.sessions ==
              st.sessions[s.sessionId := st.sessions[s.sessionId].(alertSentAt := Some(endTime))])
    ensures !r.stamped ==> r.store.sessions == st.sessions
  {
    var alerts: seq<Alert> := [];
    var cur := st;
    var i := 0;
    while i < |s.contacts|
      invariant 0 <= i <= |s.contacts|
      invariant |alerts| == i
      invariant forall j :: 0 <= j < i ==> alerts[j] == AlertFor(s, s.contacts[j], outcomes[j])
      invariant cur == st.(alerts := st.alerts + SentOnly(alerts))
    {
      var c := s.contacts[i];
      var o := outcomes[i];
      var a := AlertFor(s, c, o);
      if Succeeds(o) {
        cur := cur.(alerts := cur.alerts + [a]);
      }
      assert (alerts + [a])[..|alerts + [a]| - 1] == alerts;
      alerts := alerts + [a];
      i := i + 1;
    }
    if stampThrows {
      return Dispatch(cur, alerts, false);
    }
    match SetAlertSentAt(cur, s.sessionId, endTime)
    case Some(next) => r := Dispatch(next, alerts, true);
    case None => r := Dispatch(cur, alerts, false);
  }

  /** Every contact's alert is counted exactly once, as sent or as failed. */
  lemma {:induction false} CountsAddUp(alerts: seq<Alert>)
    requires forall i :: 0 <= i < |alerts| ==> alerts[i].status != Delivered
    ensures CountStatus(alerts, Sent) + CountStatus(alerts, Failed) == |alerts|
    ensures CountStatus(alerts, Sent) == |SentOnly(alerts)|
  {
    if |alerts| > 0 {
      CountsAddUp(alerts[..|alerts| - 1]);
    }
  }
}

=== FILE: onboarding_screen.dfy ===
/**
 * The first-run flow of beaver-app/src/screens/OnboardingScreen.tsx: name,
 * trusted contacts, PIN, PIN confirmation, then the profile is saved and the
 * app moves to the home screen.
 *
 * Each step's inputs are shown only at that step, so an event that belongs
 * to another step leaves the state unchanged. The storage writes at the
 * end are taken as one outcome (`saveOk`).
 */
module OnboardingScreen {
  import opened Common
  import opened Types
  import opened ContactForm
  import opened SessionController

  datatype Step = NameStep | ContactsStep | PinStep | PinConfirmStep

  /** What the final step writes to storage. */
  datatype Profile = Profile(name: string, contacts: seq<Contact>, pin: string)

  datatype Onboarding = Onboarding(
    step: Step,
    firstName: string,
    contacts: seq<Contact>,
    draft: Draft,
    firstPin: string,
    saved: Option<Profile>)   // present once the profile is saved and onboarding is marked done

  const Start: Onboarding := Onboarding(NameStep, "", [], EmptyDraft, "", None)

  datatype Event =
    | TypeName(text: string)
    | NameNext
    | TypeContact(d: Draft)
    | Add(freshId: string)
    | Delete(id: string)
    | ContactsNext
    | FirstPin(pin: string)
    | ConfirmPin(pin: string, saveOk: bool)

  /** One user action. */
  function Apply(o: Onboarding, e: Event): (r: Onboarding)
    ensures o.saved.Some? ==> r == o
    ensures r.step != o.step ==>
              || (o.step == NameStep && r.step == ContactsStep && Utf16Length(Trim(o.firstName)) >= 2)
              || (o.step == ContactsStep && r.step == PinStep && |o.contacts| >= 1)
              || (o.step == PinStep && r.step == PinConfirmStep)
              || (o.step == PinConfirmStep && r.step == PinStep && r.firstPin == "")
    ensures r.saved != o.saved ==>
              && o.step == PinConfirmStep && e.ConfirmPin? && e.pin == o.firstPin && e.saveOk
              && r.saved == Some(Profile(Trim(o.firstName), o.contacts, e.pin))
  {
    if o.saved.Some? then o
    else match e
      case TypeName(text) => if o.step == NameStep then o.(firstName := text) else o
      case NameNext =>
        if o.step == NameStep && Utf16Length(Trim(o.firstName)) >= 2 then o.(step := ContactsStep) else o
      case TypeContact(d) => if o.step == ContactsStep then o.(draft := d) else o
      case Add(freshId) =>
        if o.step == ContactsStep then
          var a := AddContact(o.contacts, o.draft, freshId);
          o.(contacts := a.contacts, draft := a.draft)
        else o
      case Delete(id) => if o.step == ContactsStep then o.(contacts := DeleteContact(o.contacts, id)) else o
      case ContactsNext =>
        if o.step == ContactsStep && |o.contacts| >= 1 then o.(step := PinStep) else o
      case FirstPin(pin) => if o.step == PinStep then o.(firstPin := pin, step := PinConfirmStep) else o
      case ConfirmPin(pin, saveOk) =>
        if o.step != PinConfirmStep then o
        else if pin != o.firstPin then o.(step := PinStep, firstPin := "")
        else if saveOk then o.(saved := Some(Profile(Trim(o.firstName), o.contacts, pin)))
        else o
  }

  function Run(o: Onboarding, es: seq<Event>): Onboarding
    decreases |es|
  {
    if |es| == 0 then o else Run(Apply(o, es[0]), es[1..])
  }

  /** Every PIN typed comes from the pad, which produces four digits (PinPad). */
  predicate PadPins(es: seq<Event>) {
    forall i :: 0 <= i < |es| ==>
      (es[i].FirstPin? ==> IsPinCode(es[i].pin)) && (es[i].ConfirmPin? ==> IsPinCode(es[i].pin))
  }

  /** A profile as the app needs it for an SOS. */
  predicate ProfileOk(p: Profile) {
    && Utf16Length(p.name) >= 2 && Trimmed(p.name)
    && 1 <= |p.contacts| && WellFormedContacts(p.contacts)
    && IsPinCode(p.pin)
  }

  /** What holds at every point of the flow. */
  predicate Inv(o: Onboarding) {
    && WellFormedContacts(o.contacts)
    && (o.step != NameStep ==> Utf16Length(Trim(o.firstName)) >= 2)
    && (o.step == PinStep || o.step == PinConfirmStep ==> |o.contacts| >= 1)
    && (o.step == PinConfirmStep ==> IsPinCode(o.firstPin))
    && (o.saved.Some? ==> ProfileOk(o.saved.value))
  }

  lemma ApplyKeepsInv(o: Onboarding, e: Event)
    requires Inv(o)
    requires (e.FirstPin? ==> IsPinCode(e.pin)) && (e.ConfirmPin? ==> IsPinCode(e.pin))
    ensures Inv(Apply(o, e))
  {
    match e
    case Add(freshId) => AddKeepsInv(o, freshId);
    case Delete(id) => DeleteKeepsInv(o, id);
    case ConfirmPin(pin, saveOk) => ConfirmKeepsInv(o, pin, saveOk);
    case TypeName(_) => EditKeepsInv(o, e);
    case TypeContact(_) => EditKeepsInv(o, e);
    case FirstPin(_) => EditKeepsInv(o, e);
    case NameNext => NextKeepsInv(o, e);
    case ContactsNext => NextKeepsInv(o, e);
  }

  /** Typing into a field changes nothing the invariant constrains, except a PIN from the pad. */
  lemma EditKeepsInv(o: Onboarding, e: Event)
    requires Inv(o) && (e.TypeName? || e.TypeContact? || e.FirstPin?)
    requires e.FirstPin? ==> IsPinCode(e.pin)
    ensures Inv(Apply(o, e))
  {
    if o.saved.None? {
      match e
      case TypeName(text) =>
        if o.step == NameStep {
          assert Apply(o, e) == o.(firstName := text);
        }
      case TypeContact(d) =>
        if o.step == ContactsStep {
          assert Apply(o, e) == o.(draft := d);
        }
      case FirstPin(pin) =>
        if o.step == PinStep {
          assert Apply(o, e) == o.(firstPin := pin, step := PinConfirmStep);
        }
    }
  }

  /** The two "next" buttons move on only when their step is complete. */
  lemma NextKeepsInv(o: Onboarding, e: Event)
    requires Inv(o) && (e.NameNext? || e.ContactsNext?)
    ensures Inv(Apply(o, e))
  {
    if o.saved.None? {
      match e
      case NameNext =>
        if o.step == NameStep && Utf16Length(Trim(o.firstName)) >= 2 {
          assert Apply(o, e) == o.(step := ContactsStep);
        }
      case ContactsNext =>
        if o.step == ContactsStep && |o.contacts| >= 1 {
          assert Apply(o, e) == o.(step := PinStep);
        }
    }
  }

  lemma AddKeepsInv(o: Onboarding, freshId: string)
    requires Inv(o)
    ensures Inv(Apply(o, Add(freshId)))
  {
    ApplyAdd(o, freshId);
    if o.saved.None? && o.step == ContactsStep {
      AddKeepsWellFormed(o.contacts, o.draft, freshId);
      var a := AddContact(o.contacts, o.draft, freshId);
      NewListKeepsInv(o, a.contacts, a.draft);
    }
  }

  lemma ApplyAdd(o: Onboarding, freshId: string)
    ensures Apply(o, Add(freshId)) == if o.saved.None? && o.step == ContactsStep then
              o.(contacts := AddContact(o.contacts, o.draft, freshId).contacts,
                 draft := AddContact(o.contacts, o.draft, freshId).draft)
            else o
  {
    if o.saved.None? && o.step == ContactsStep {
      var a := AddContact(o.contacts, o.draft, freshId);
      assert Apply(o, Add(freshId)) == o.(contacts := a.contacts, draft := a.draft);
    }
  }

  lemma DeleteKeepsInv(o: Onboarding, id: string)
    requires Inv(o)
    ensures Inv(Apply(o, Delete(id)))
  {
    ApplyDelete(o, id);
    if o.saved.None? && o.step == ContactsStep {
      DeleteKeepsWellFormed(o.contacts, id);
      NewListKeepsInv(o, DeleteContact(o.contacts, id), o.draft);
    }
  }

  lemma ApplyDelete(o: Onboarding, id: string)
    ensures Apply(o, Delete(id)) == if o.saved.None? && o.step == ContactsStep then
              o.(contacts := DeleteContact(o.contacts, id))
            else o
  {
  }

  /** At the contacts step, any well-formed list and any draft keep the invariant. */
  lemma NewListKeepsInv(o: Onboarding, cs: seq<Contact>, d: Draft)
    requires Inv(o) && o.step == ContactsStep && WellFormedContacts(cs)
    ensures Inv(o.(contacts := cs, draft := d))
  {
  }

  lemma ConfirmKeepsInv(o: Onboarding, pin: string, saveOk: bool)
    requires Inv(o) && IsPinCode(pin)
    ensures Inv(Apply(o, ConfirmPin(pin, saveOk)))
  {
    ApplyConfirm(o, pin, saveOk);
    if o.saved.None? && o.step == PinConfirmStep {
      if pin != o.firstPin {
        RestartKeepsInv(o);
      } else if saveOk {
        SaveKeepsInv(o, pin);
      }
    }
  }

  lemma RestartKeepsInv(o: Onboarding)
    requires Inv(o) && o.step == PinConfirmStep
    ensures Inv(o.(step := PinStep, firstPin := ""))
  {
  }

  lemma SaveKeepsInv(o: Onboarding, pin: string)
    requires Inv(o) && o.step == PinConfirmStep && IsPinCode(pin)
    ensures Inv(o.(saved := Some(Profile(Trim(o.firstName), o.contacts, pin))))
  {
    var p := Profile(Trim(o.firstName), o.contacts, pin);
    assert ProfileOk(p);
  }

  lemma ApplyConfirm(o: Onboarding, pin: string, saveOk: bool)
    ensures Apply(o, ConfirmPin(pin, saveOk)) ==
              if o.saved.Some? || o.step != PinConfirmStep then o
              else if pin != o.firstPin then o.(step := PinStep, firstPin := "")
              else if saveOk then o.(saved := Some(Profile(Trim(o.firstName), o.contacts, pin)))
              else o
  {
  }

  lemma {:induction false} RunKeepsInv(o: Onboarding, es: seq<Event>)
    requires Inv(o) && PadPins(es)
    ensures Inv(Run(o, es))
    decreases |es|
  {
    if |es| > 0 {
      ApplyKeepsInv(o, es[0]);
      assert PadPins(es[1..]) by {
        forall i | 0 <= i < |es[1..]| ensures (es[1..][i].FirstPin? ==> IsPinCode(es[1..][i].pin))
                                            && (es[1..][i].ConfirmPin? ==> IsPinCode(es[1..][i].pin)) {
          assert es[1..][i] == es[i + 1];
        }
      }
      RunKeepsInv(Apply(o, es[0]), es[1..]);
    }
  }

  /**
   * Whatever the user does, once onboarding is done the saved profile has a
   * trimmed name of at least two characters, one to five well-formed
   * contacts and a 4-digit PIN.
   */
  lemma OnboardingSavesCompleteProfile(es: seq<Event>)
    requires PadPins(es)
    ensures Run(Start, es).saved.Some? ==> ProfileOk(Run(Start, es).saved.value)
  {
    RunKeepsInv(Start, es);
  }

  /** The profile is saved only by a confirmation equal to the first entry. */
  lemma MismatchedConfirmRestarts(o: Onboarding, pin: string, saveOk: bool)
    requires o.saved.None? && o.step == PinConfirmStep && pin != o.firstPin
    ensures Apply(o, ConfirmPin(pin, saveOk)) == o.(step := PinStep, firstPin := "")
  {
  }

  /** The request body the app sends when it raises an SOS for a profile. */
  function CreateBodyFor(p: Profile, minutes: Option<int>): CreateBody {
    CreateBody(Some(p.name), Some(seq(|p.contacts|, i requires 0 <= i < |p.contacts| =>
                                        ContactInput(p.contacts[i].name, Some(p.contacts[i].phone)))),
               Some(p.pin), minutes)
  }

  /** A profile completed on the phone always passes the server's create checks. */
  lemma SavedProfileAcceptedByServer(p: Profile, minutes: Option<int>)
    requires ProfileOk(p)
    ensures CreateError(CreateBodyFor(p, minutes)).None?
  {
    var b := CreateBodyFor(p, minutes);
    assert b.userFirstName == Some(p.name);
    TrimmedFixed(p.name);
    assert ContactsGiven(b);
    assert PinGiven(b);
    forall i | 0 <= i < |b.contacts.value| ensures PhoneOk(b.contacts.value[i]) {
      assert b.contacts.value[i].phone == Some(p.contacts[i].phone);
    }
  }
}

=== FILE: pin_pad.dfy ===
/**
 * The 4-digit PIN pad of beaver-app/src/components/PinPad.tsx.
 *
 * The pad keeps the digits typed so far. The digit that completes four
 * schedules a callback 200 ms later that hands the joined digits to
 * `onComplete` and empties the buffer. The delay itself is not modelled:
 * scheduled callbacks wait in `pending`, in the order they were scheduled
 * (they all have the same delay), and `Timeout` runs the oldest one.
 */
module PinPad {
  import opened Common

  /** The key labels, row by row; the empty key is disabled. */
  const KeyGrid: seq<string> := ["1", "2", "3", "4", "5", "6", "7", "8", "9", "", "0", "\U{232B}"]

  const DeleteKey: string := "\U{232B}"

  const PinLength: nat := 4

  datatype Pad = Pad(digits: seq<string>, pending: seq<string>, completed: seq<string>)

  const Empty: Pad := Pad([], [], [])

  /** `digits.join('')`. */
  function Join(ds: seq<string>): (r: string)
    ensures ds == [] ==> r == ""
    decreases |ds|
  {
    if |ds| == 0 then "" else Join(ds[..|ds| - 1]) + ds[|ds| - 1]
  }

  /** A one-character decimal digit. */
  predicate DigitKey(k: string) {
    |k| == 1 && IsAsciiDigit(k[0])
  }

  /** The pad's keys other than the blank one and delete are exactly the ten digits. */
  lemma GridKeysAreDigits(k: string)
    requires k in KeyGrid && k != "" && k != DeleteKey
    ensures DigitKey(k)
  {
  }

  /**
   * `handleDigit`: ignored when four digits are already there; otherwise the
   * digit is appended, and reaching four schedules the completion.
   */
  function PressDigit(p: Pad, key: string): (r: Pad)
    ensures |p.digits| >= PinLength ==> r == p
    ensures |p.digits| < PinLength ==> r.digits == p.digits + [key] && r.completed == p.completed
    ensures |p.digits| < PinLength ==>
              r.pending == p.pending + (if |r.digits| == PinLength then [Join(r.digits)] else [])
  {
    if |p.digits| >= PinLength then p
    else
      var ds := p.digits + [key];
      p.(digits := ds, pending := p.pending + (if |ds| == PinLength then [Join(ds)] else []))
  }

  /** `handleDelete`: `slice(0, -1)`, which leaves an empty buffer empty. */
  function PressDelete(p: Pad): (r: Pad)
    ensures |p.digits| == 0 ==> r == p
    ensures |p.digits| > 0 ==> r.digits + [p.digits[|p.digits| - 1]] == p.digits
    ensures r.pending == p.pending && r.completed == p.completed
  {
    if |p.digits| == 0 then p else p.(digits := p.digits[..|p.digits| - 1])
  }

  /** A key press: delete, a digit, or the disabled blank key. */
  function PressKey(p: Pad, key: string): (r: Pad)
    requires key in KeyGrid
    ensures key == "" ==> r == p
    ensures key == DeleteKey ==> r == PressDelete(p)
    ensures key != "" && key != DeleteKey ==> r == PressDigit(p, key)
  {
    if key == DeleteKey then PressDelete(p) else if key != "" then PressDigit(p, key) else p
  }

  /** The oldest scheduled callback runs: `onComplete` gets its PIN and the buffer empties. */
  function Timeout(p: Pad): (r: Pad)
    ensures |p.pending| == 0 ==> r == p
    ensures |p.pending| > 0 ==> && r.completed == p.completed + [p.pending[0]]
                                && r.pending == p.pending[1..] && r.digits == []
  {
    if |p.pending| == 0 then p else Pad([], p.pending[1..], p.completed + [p.pending[0]])
  }

  /** What always holds: at most four digits in the buffer, and every PIN scheduled or delivered has the form `^\d{4}$`. */
  predicate Inv(p: Pad) {
    && |p.digits| <= PinLength
    && (forall i :: 0 <= i < |p.digits| ==> DigitKey(p.digits[i]))
    && (forall i :: 0 <= i < |p.pending| ==> IsPinCode(p.pending[i]))
    && (forall i :: 0 <= i < |p.completed| ==> IsPinCode(p.completed[i]))
  }

  /** Joining one-character digits gives a digit string of the same length. */
  lemma {:induction false} JoinDigits(ds: seq<string>)
    requires forall i :: 0 <= i < |ds| ==> DigitKey(ds[i])
    ensures |Join(ds)| == |ds| && AllDigits(Join(ds))
    decreases |ds|
  {
    if |ds| > 0 {
      JoinDigits(ds[..|ds| - 1]);
    }
  }

  datatype Input = Key(key: string) | Elapsed

  predicate ValidInput(x: Input) {
    x.Key? ==> x.key in KeyGrid
  }

  function Step(p: Pad, x: Input): Pad
    requires ValidInput(x)
  {
    match x
    case Key(key) => PressKey(p, key)
    case Elapsed => Timeout(p)
  }

  lemma StepKeepsInv(p: Pad, x: Input)
    requires Inv(p) && ValidInput(x)
    ensures Inv(Step(p, x))
  {
    match x
    case Key(key) =>
      if key == DeleteKey {
        DeleteKeepsInv(p);
      } else if key != "" {
        GridKeysAreDigits(key);
        DigitKeepsInv(p, key);
      }
    case Elapsed => TimeoutKeepsInv(p);
  }

  lemma DigitKeepsInv(p: Pad, key: string)
    requires Inv(p) && DigitKey(key)
    ensures Inv(PressDigit(p, key))
  {
    if |p.digits| < PinLength {
      var ds := p.digits + [key];
      assert forall i :: 0 <= i < |ds| ==> DigitKey(ds[i]);
      if |ds| == PinLength {
        JoinDigits(ds);
      }
    }
  }

  lemma DeleteKeepsInv(p: Pad)
    requires Inv(p)
    ensures Inv(PressDelete(p))
  {
  }

  lemma TimeoutKeepsInv(p: Pad)
    requires Inv(p)
    ensures Inv(Timeout(p))
  {
  }

  function Steps(p: Pad, xs: seq<Input>): Pad
    requires forall i :: 0 <= i < |xs| ==> ValidInput(xs[i])
    decreases |xs|
  {
    if |xs| == 0 then p else Steps(Step(p, xs[0]), xs[1..])
  }

  /**
   * Whatever is pressed, and however the callbacks interleave with the
   * presses, the buffer never holds more than four digits and every PIN the
   * pad hands over is four decimal digits, the format the server requires.
   */
  lemma {:induction false} PadOnlyDeliversPinCodes(p: Pad, xs: seq<Input>)
    requires Inv(p)
    requires forall i :: 0 <= i < |xs| ==> ValidInput(xs[i])
    ensures Inv(Steps(p, xs))
    decreases |xs|
  {
    if |xs| > 0 {
      StepKeepsInv(p, xs[0]);
      PadOnlyDeliversPinCodes(Step(p, xs[0]), xs[1..]);
    }
  }

  /** Four digits and the callback: the digits are delivered once, in the order typed, and the pad is empty again. */
  lemma FourDigitsDelivered(a: string, b: string, c: string, d: string)
    ensures var p := Timeout(PressDigit(PressDigit(PressDigit(PressDigit(Empty, a), b), c), d));
            p == Pad([], [], [a + b + c + d])
  {
    PressBelowFour(Empty, a);
    assert [] + [a] == [a];
    PressBelowFour(Pad([a], [], []), b);
    assert [a] + [b] == [a, b];
    PressBelowFour(Pad([a, b], [], []), c);
    assert [a, b] + [c] == [a, b, c];
    var p4 := PressDigit(Pad([a, b, c], [], []), d);
    assert p4 == Pad([a, b, c, d], [Join([a, b, c, d])], []);
    JoinFour(a, b, c, d);
  }

  lemma PressBelowFour(p: Pad, key: string)
    requires |p.digits| + 1 < PinLength
    ensures PressDigit(p, key) == p.(digits := p.digits + [key])
  {
  }

  lemma JoinFour(a: string, b: string, c: string, d: string)
    ensures Join([a, b, c, d]) == a + b + c + d
  {
    assert Join([a]) == a by {
      assert [a][..0] == [];
      assert "" + a == a;
    }
    assert Join([a, b]) == a + b by {
      assert [a, b][..1] == [a];
    }
    assert Join([a, b, c]) == a + b + c by {
      assert [a, b, c][..2] == [a, b];
    }
    assert [a, b, c, d][..3] == [a, b, c];
  }
}

=== FILE: relay.dfy ===
/**
 * The realtime relay of beaver-backend/src/services/socketService.ts.
 *
 * `activeRooms` is a finite map from session id to the set of socket ids
 * that joined it. socket.io's own room membership is updated by the same
 * handler as `activeRooms` and is identified with it here. Every handler
 * runs as one atomic step; what it emits is returned as a `Delivery`
 * (recipients and payload) instead of being sent.
 */
module Relay {
  import opened Common
  import opened Types
  import opened SessionStore

  type SocketId = string

  type Rooms = map<string, set<SocketId>>

  /** No room is kept once its last socket has left. */
  predicate NoEmptyRooms(rooms: Rooms) {
    forall id :: id in rooms ==> rooms[id] != {}
  }

  /** The sockets currently in the room of `sessionId`. */
  function Members(rooms: Rooms, sessionId: string): set<SocketId> {
    if sessionId in rooms then rooms[sessionId] else {}
  }

  /** What an emit to a room reaches: the recipients and the unchanged payload. */
  datatype Delivery<P> = Delivery(recipients: set<SocketId>, payload: P)

  /** `socket.to(room).emit(...)`: every member of the room except the sender. */
  function ToRoom<P>(rooms: Rooms, sessionId: string, sender: SocketId, payload: P): (d: Delivery<P>)
    ensures forall x :: x in d.recipients <==> x in Members(rooms, sessionId) && x != sender
    ensures d.payload == payload
  {
    Delivery(Members(rooms, sessionId) - {sender}, payload)
  }

  datatype RelayState = RelayState(rooms: Rooms, store: Store)

  // ---------------------------------------------------------------------------
  // join_session
  // ---------------------------------------------------------------------------

  /**
   * Runs the validity check (with its lazy expiry) and adds the socket to the
   * room whatever the verdict. When that check throws (`checkThrows`), the
   * handler only logs: no membership is added and nothing is written.
   */
  function JoinSession(s: RelayState, socket: SocketId, sessionId: string, now: int, checkThrows: bool): (r: RelayState)
    ensures checkThrows ==> r == s
    ensures !checkThrows ==> r.store == IsSessionValid(s.store, sessionId, now).store
    ensures !checkThrows ==> r.rooms.Keys == s.rooms.Keys + {sessionId}
    ensures !checkThrows ==> r.rooms[sessionId] == Members(s.rooms, sessionId) + {socket}
    ensures forall id :: id in s.rooms && id != sessionId ==> id in r.rooms && r.rooms[id] == s.rooms[id]
    ensures NoEmptyRooms(s.rooms) ==> NoEmptyRooms(r.rooms)
  {
    if checkThrows then s
    else
      var checked := IsSessionValid(s.store, sessionId, now);
      RelayState(s.rooms[sessionId := Members(s.rooms, sessionId) + {socket}], checked.store)
  }

  // ---------------------------------------------------------------------------
  // gps_position
  // ---------------------------------------------------------------------------

  /**
   * How far `saveGpsPosition`'s two awaited writes got: the sample document's
   * `set` threw (`NothingWritten`), the `set` went through and the session's
   * `update` threw (`SampleOnly`), or both calls returned (`BothCalls`, in
   * which the update still fails for a missing session document).
   */
  datatype Persist = NothingWritten | SampleOnly | BothCalls

  /**
   * Broadcasts the sample to the other members of its session's room and
   * starts its persistence without waiting for it; `p` says how far the
   * persistence got. The broadcast does not depend on it.
   */
  function GpsPositionEvent(s: RelayState, sender: SocketId, pos: GpsPosition, p: Persist)
    : (r: (RelayState, Delivery<GpsPosition>))
    ensures r.0.rooms == s.rooms
    ensures r.1 == ToRoom(s.rooms, pos.sessionId, sender, pos)
    ensures p.NothingWritten? ==> r.0.store == s.store
    ensures p.SampleOnly? ==>
              r.0.store == s.store.(positions := s.store.positions[KeyOf(pos) := pos])
    ensures p.BothCalls? ==> r.0.store == SaveGpsPosition(s.store, pos).store
  {
    var d := ToRoom(s.rooms, pos.sessionId, sender, pos);
    var store := match p
      case NothingWritten => s.store
      case SampleOnly => s.store.(positions := s.store.positions[KeyOf(pos) := pos])
      case BothCalls => SaveGpsPosition(s.store, pos).store;
    (RelayState(s.rooms, store), d)
  }

  /** However far the persistence got, the same sockets receive the same position, never the sender. */
  lemma BroadcastIndependentOfPersistence(s: RelayState, sender: SocketId, pos: GpsPosition, p: Persist, q: Persist)
    ensures GpsPositionEvent(s, sender, pos, p).1 == GpsPositionEvent(s, sender, pos, q).1
    ensures sender !in GpsPositionEvent(s, sender, pos, p).1.recipients
  {
  }

  /**
   * A failed session update after the sample was written leaves the sample
   * stored with `lastGpsUpdate` not advanced; for a session whose document is
   * missing this is exactly what the completed save does as well.
   */
  lemma SampleWithoutStamp(s: RelayState, sender: SocketId, pos: GpsPosition)
    ensures var st := GpsPositionEvent(s, sender, pos, SampleOnly).0.store;
            && KeyOf(pos) in st.positions && st.positions[KeyOf(pos)] == pos
            && st.sessions == s.store.sessions
    ensures pos.sessionId !in s.store.sessions ==>
              GpsPositionEvent(s, sender, pos, SampleOnly) == GpsPositionEvent(s, sender, pos, BothCalls)
    ensures pos.sessionId in s.store.sessions ==>
              GpsPositionEvent(s, sender, pos, BothCalls).0.store.sessions[pos.sessionId].lastGpsUpdate
              == Some(pos.timestamp)
  {
  }

  // ---------------------------------------------------------------------------
  // webrtc_offer / webrtc_answer / webrtc_ice_candidate
  // ---------------------------------------------------------------------------

  datatype SignalKind = Offer | Answer | IceCandidate

  /** A signalling message: its session, and the SDP or ICE payload, which the relay never reads. */
  datatype Signal<P> = Signal(kind: SignalKind, sessionId: string, data: P)

  /** All three signalling events are relayed unchanged, under the same event name, to the other room members. */
  function RelaySignal<P>(rooms: Rooms, sender: SocketId, sig: Signal<P>): (d: Delivery<Signal<P>>)
    ensures d.payload == sig
    ensures forall x :: x in d.recipients <==> x in Members(rooms, sig.sessionId) && x != sender
  {
    ToRoom(rooms, sig.sessionId, sender, sig)
  }

  // ---------------------------------------------------------------------------
  // disconnect
  // ---------------------------------------------------------------------------

  /** Removes the socket from every room and deletes the rooms left empty. */
  function Disconnect(rooms: Rooms, socket: SocketId): (r: Rooms)
    ensures forall id :: id in r ==> socket !in r[id] && r[id] != {}
    ensures forall id :: id in r <==> id in rooms && rooms[id] - {socket} != {}
    ensures forall id :: id in r ==> r[id] == rooms[id] - {socket}
  {
    map id | id in rooms && rooms[id] - {socket} != {} :: rooms[id] - {socket}
  }

  /** `getRoomParticipants`: the size of the room, 0 when there is none. */
  function RoomParticipants(rooms: Rooms, sessionId: string): (n: nat)
    ensures n == |Members(rooms, sessionId)|
    ensures NoEmptyRooms(rooms) ==> (n == 0 <==> sessionId !in rooms)
  {
    if sessionId in rooms then |rooms[sessionId]| else 0
  }

  /**
   * Joining with a fresh socket and disconnecting it restores the rooms
   * exactly: the round trip leaves no trace, not even an empty room.
   */
  lemma JoinThenDisconnect(s: RelayState, socket: SocketId, sessionId: string, now: int)
    requires NoEmptyRooms(s.rooms)
    requires forall id :: id in s.rooms ==> socket !in s.rooms[id]
    ensures Disconnect(JoinSession(s, socket, sessionId, now, false).rooms, socket) == s.rooms
  {
    var joined := JoinSession(s, socket, sessionId, now, false).rooms;
    var back := Disconnect(joined, socket);
    forall id | id in s.rooms ensures id in back && back[id] == s.rooms[id] {
      assert joined[id] - {socket} == s.rooms[id];
    }
    assert back.Keys == s.rooms.Keys;
  }

  /**
   * Two sockets A (the phone) and B (a viewer) join the same session: a GPS
   * sample from A reaches B only, B's signalling reaches A only, and when A
   * leaves the room holds B alone.
   */
  lemma PhoneAndViewer(s: RelayState, a: SocketId, b: SocketId, sessionId: string, now: int,
                       pos: GpsPosition, sig: Signal<string>)
    requires a != b && sessionId !in s.rooms
    requires pos.sessionId == sessionId && sig.sessionId == sessionId
    ensures var s2 := JoinSession(JoinSession(s, a, sessionId, now, false), b, sessionId, now, false);
            && GpsPositionEvent(s2, a, pos, BothCalls).1.recipients == {b}
            && RelaySignal(s2.rooms, b, sig).recipients == {a}
            && Disconnect(s2.rooms, a)[sessionId] == {b}
            && RoomParticipants(s2.rooms, sessionId) == 2
  {
    var s2 := JoinSession(JoinSession(s, a, sessionId, now, false), b, sessionId, now, false);
    assert s2.rooms[sessionId] == {a, b};
    assert {a, b} - {a} == {b};
    assert {a, b} - {b} == {a};
  }
}

=== FILE: session_controller.dfy ===
/**
 * The five REST handlers of beaver-backend/src/controllers/sessionController.ts:
 * request validation, the mapping of store results to HTTP status codes, and
 * the sent/failed accounting of an alert dispatch.
 *
 * A request body is modelled with `Option` fields, because the handlers
 * test for missing fields before anything else. Each handler is one atomic
 * step over the store, so a session that was just read still exists when
 * the handler writes to it. `storeFails` says that a Firestore call made by
 * the handler throws: the handler then answers 500, and since the one write
 * it makes is the call that failed, the store is unchanged.
 */
module SessionController {
  import opened Common
  import opened Types
  import opened SessionStore
  import opened Notifications

  /** The error bodies the handlers send. */
  datatype ApiError =
    | NameRequired
    | ContactRequired
    | PinFormat
    | PhoneFormat(contactName: string)
    | SessionNotFound
    | DeactivationRefused(reason: Option<Reason>)
    | SessionIdRequired
    | SessionInvalid(reason: Option<Reason>)
    | InternalError

  /** The public projection of a session: every field the GET handler sends, and no PIN digest. */
  datatype SessionView = SessionView(
    sessionId: string,
    userFirstName: string,
    status: SessionStatus,
    valid: bool,
    reason: Option<Reason>,
    createdAt: int,
    expiresAt: int,
    lastGpsUpdate: Option<int>)

  datatype Body =
    | ErrorBody(error: ApiError)
    | CreatedBody(sessionId: string, expiresAt: int, trackingUrl: string)
    | ViewBody(view: SessionView)
    | TrackBody(sessionId: string, positions: seq<GpsPosition>)
    | DeactivatedBody
    | AlertReport(sent: nat, failed: nat, message: string)

  datatype Response = Response(code: int, body: Body)

  /** A handler's effect: the store afterwards and the response sent. */
  datatype Handled = Handled(store: Store, response: Response)

  // ---------------------------------------------------------------------------
  // POST /api/session/create
  // ---------------------------------------------------------------------------

  datatype ContactInput = ContactInput(name: string, phone: Option<string>)

  datatype CreateBody = CreateBody(
    userFirstName: Option<string>,
    contacts: Option<seq<ContactInput>>,
    pinCode: Option<string>,
    sessionDurationMinutes: Option<int>)

  /** `payload.userFirstName?.trim()` is a non-empty string. */
  predicate NameGiven(b: CreateBody) {
    b.userFirstName.Some? && Trim(b.userFirstName.value) != ""
  }

  /** `payload.contacts?.length` is non-zero. */
  predicate ContactsGiven(b: CreateBody) {
    b.contacts.Some? && |b.contacts.value| > 0
  }

  predicate PinGiven(b: CreateBody) {
    b.pinCode.Some? && IsPinCode(b.pinCode.value)
  }

  predicate PhoneOk(c: ContactInput) {
    c.phone.Some? && IsE164Phone(c.phone.value)
  }

  predicate AllPhonesOk(cs: seq<ContactInput>) {
    forall i :: 0 <= i < |cs| ==> PhoneOk(cs[i])
  }

  /** The position of the first contact whose phone is rejected, if any. */
  function FirstBadPhone(cs: seq<ContactInput>): (r: Option<nat>)
    ensures r.None? <==> AllPhonesOk(cs)
    ensures r.Some? ==> r.value < |cs| && !PhoneOk(cs[r.value])
                        && forall j :: 0 <= j < r.value ==> PhoneOk(cs[j])
  {
    if |cs| == 0 then None
    else if !PhoneOk(cs[0]) then Some(0)
    else match FirstBadPhone(cs[1..])
      case None => None
      case Some(k) => Some(k + 1)
  }

  /** The checks of the create handler, in the order the handler makes them. */
  function CreateError(b: CreateBody): (e: Option<ApiError>)
    ensures e.None? <==> NameGiven(b) && ContactsGiven(b) && PinGiven(b) && AllPhonesOk(b.contacts.value)
    ensures !NameGiven(b) ==> e == Some(NameRequired)
    ensures NameGiven(b) && !ContactsGiven(b) ==> e == Some(ContactRequired)
    ensures NameGiven(b) && ContactsGiven(b) && !PinGiven(b) ==> e == Some(PinFormat)
    ensures NameGiven(b) && ContactsGiven(b) && PinGiven(b) && !AllPhonesOk(b.contacts.value) ==>
              exists i :: 0 <= i < |b.contacts.value| && !PhoneOk(b.contacts.value[i])
                          && (forall j :: 0 <= j < i ==> PhoneOk(b.contacts.value[j]))
                          && e == Some(PhoneFormat(b.contacts.value[i].name))
  {
    if !NameGiven(b) then Some(NameRequired)
    else if !ContactsGiven(b) then Some(ContactRequired)
    else if !PinGiven(b) then Some(PinFormat)
    else match FirstBadPhone(b.contacts.value)
      case Some(i) => Some(PhoneFormat(b.contacts.value[i].name))
      case None => None
  }

  /** The store payload built from a request that passed validation. */
  function ToPayload(b: CreateBody): CreatePayload
    requires b.userFirstName.Some? && b.contacts.Some? && b.pinCode.Some? && AllPhonesOk(b.contacts.value)
  {
    var cs := b.contacts.value;
    CreatePayload(b.userFirstName.value,
                  seq(|cs|, i requires 0 <= i < |cs| => NewContact(cs[i].name, cs[i].phone.value)),
                  b.pinCode.value, b.sessionDurationMinutes)
  }

  /**
   * The tracking link of the create response. The handler reads
   * `BEAVER_WEB_URL` with no fallback, so an unset variable is rendered as
   * the text `undefined` by the template literal.
   */
  function CreatedTrackingUrl(webUrl: Option<string>, sessionId: string): string {
    webUrl.GetOr("undefined") + "/s/" + sessionId
  }

  /**
   * 400 for the first failed check; otherwise the session is stored and the
   * response is 201 with its id, expiry and tracking link, or 500 when the
   * write throws. No limit on the number of contacts is applied here.
   */
  function CreateSessionHandler(st: Store, b: CreateBody, sessionId: string, contactIds: seq<string>,
                                now: int, webUrl: Option<string>, storeFails: bool): (h: Handled)
    requires b.contacts.Some? ==> |contactIds| == |b.contacts.value|
    ensures h.response.code == 201 <==> CreateError(b).None? && !storeFails
    ensures CreateError(b).Some? ==> h == Handled(st, Response(400, ErrorBody(CreateError(b).value)))
    ensures CreateError(b).None? && storeFails ==> h == Handled(st, Response(500, ErrorBody(InternalError)))
    ensures h.response.code == 201 ==>
              && sessionId in h.store.sessions
              && h.store.sessions[sessionId].status == Active
              && h.store.sessions[sessionId].pinHash == Some(HashPin(b.pinCode.value))
              && |h.store.sessions[sessionId].contacts| == |b.contacts.value|
              && h.response.body == CreatedBody(sessionId, h.store.sessions[sessionId].expiresAt,
                                                CreatedTrackingUrl(webUrl, sessionId))
    ensures h.response.code == 201 ==>
              var c := CreateSession(st, ToPayload(b), sessionId, contactIds, now);
              h.store == c.store && h.store.sessions[sessionId] == c.session
  {
    match CreateError(b)
    case Some(e) => Handled(st, Response(400, ErrorBody(e)))
    case None =>
      if storeFails then Handled(st, Response(500, ErrorBody(InternalError)))
      else
        var c := CreateSession(st, ToPayload(b), sessionId, contactIds, now);
        Handled(c.store, Response(201, CreatedBody(sessionId, c.session.expiresAt,
                                                   CreatedTrackingUrl(webUrl, sessionId))))
  }

  // ---------------------------------------------------------------------------
  // GET /api/session/:sessionId
  // ---------------------------------------------------------------------------

  function ViewOf(s: Session, v: Validity): SessionView {
    SessionView(s.sessionId, s.userFirstName, s.status, v.valid, v.reason,
                s.createdAt, s.expiresAt, s.lastGpsUpdate)
  }

  /**
   * 500 when the store throws (the read, or the write of a lazy expiry).
   * Otherwise 404 when no session exists, and 200 with the public fields of
   * the session as read before any lazy expiry, plus the validity verdict.
   */
  function GetSessionHandler(st: Store, id: string, now: int, storeFails: bool): (h: Handled)
    ensures storeFails ==> h == Handled(st, Response(500, ErrorBody(InternalError)))
    ensures h.response.code == 404 <==> !storeFails && id !in st.sessions
    ensures h.response.code == 200 <==> !storeFails && id in st.sessions
    ensures h.response.code == 404 ==> h.response.body == ErrorBody(SessionNotFound)
    ensures h.response.code == 200 ==>
              && h.response.body.ViewBody?
              && h.response.body.view.sessionId == st.sessions[id].sessionId
              && h.response.body.view.userFirstName == st.sessions[id].userFirstName
              && h.response.body.view.status == st.sessions[id].status
              && (h.response.body.view.valid <==> IsLive(st.sessions[id], now))
              && h.response.body.view.reason == IsSessionValid(st, id, now).result.reason
              && h.response.body.view.createdAt == st.sessions[id].createdAt
              && h.response.body.view.expiresAt == st.sessions[id].expiresAt
              && h.response.body.view.lastGpsUpdate == st.sessions[id].lastGpsUpdate
    ensures !storeFails ==> h.store == IsSessionValid(st, id, now).store
  {
    if storeFails then Handled(st, Response(500, ErrorBody(InternalError)))
    else
      var c := IsSessionValid(st, id, now);
      match c.result.session
      case None => Handled(c.store, Response(404, ErrorBody(SessionNotFound)))
      case Some(s) => Handled(c.store, Response(200, ViewBody(ViewOf(s, c.result))))
  }

  /** The GET response does not depend on the stored PIN digest: it cannot reveal it. */
  lemma GetHidesPinHash(st: Store, id: string, now: int, other: Option<PinDigest>, storeFails: bool)
    requires id in st.sessions
    ensures var st2 := st.(sessions := st.sessions[id := st.sessions[id].(pinHash := other)]);
            GetSessionHandler(st2, id, now, storeFails).response == GetSessionHandler(st, id, now, storeFails).response
  {
    var st2 := st.(sessions := st.sessions[id := st.sessions[id].(pinHash := other)]);
    assert st2.sessions[id].status == st.sessions[id].status;
  }

  // ---------------------------------------------------------------------------
  // GET /api/session/:sessionId/track
  // ---------------------------------------------------------------------------

  /**
   * 200 with the track of the session, whatever its status and even for an
   * unknown id; 500 when the query throws. The store is only read.
   */
  function GetSessionTrackHandler(st: Store, id: string, storeFails: bool): (h: Handled)
    requires PositionsKeyed(st)
    ensures h.store == st
    ensures storeFails ==> h.response == Response(500, ErrorBody(InternalError))
    ensures !storeFails ==> && h.response.code == 200
                            && h.response.body.TrackBody? && h.response.body.sessionId == id
                            && h.response.body.positions == GetSessionTrack(st, id)
                            && |h.response.body.positions| <= TrackWindow
                            && forall i :: 0 <= i < |h.response.body.positions| ==>
                                 h.response.body.positions[i].sessionId == id
  {
    if storeFails then Handled(st, Response(500, ErrorBody(InternalError)))
    else Handled(st, Response(200, TrackBody(id, GetSessionTrack(st, id))))
  }

  /** An id with no stored samples gets an empty track rather than an error. */
  lemma UnknownTrackIsEmpty(st: Store, id: string)
    requires PositionsKeyed(st)
    requires forall k :: k in st.positions ==> k.sessionId != id
    ensures GetSessionTrackHandler(st, id, false).response == Response(200, TrackBody(id, []))
  {
    assert TimestampsOf(st, id) == {};
  }

  // ---------------------------------------------------------------------------
  // POST /api/session/:sessionId/deactivate
  // ---------------------------------------------------------------------------

  /**
   * 400 for a missing or malformed PIN, without touching the store; then 500
   * when the store throws; 401 when the store refuses (unknown session or
   * wrong PIN); 200 on success.
   */
  function DeactivateSessionHandler(st: Store, id: string, pin: Option<string>, storeFails: bool): (h: Handled)
    ensures pin.None? || !IsPinCode(pin.value) ==> h == Handled(st, Response(400, ErrorBody(PinFormat)))
    ensures pin.Some? && IsPinCode(pin.value) && storeFails ==>
              h == Handled(st, Response(500, ErrorBody(InternalError)))
    ensures pin.Some? && IsPinCode(pin.value) && !storeFails ==>
              var o := DeactivateSession(st, id, pin.value);
              && h.store == o.store
              && (o.success ==> h.response == Response(200, DeactivatedBody))
              && (!o.success ==> h.response == Response(401, ErrorBody(DeactivationRefused(o.reason))))
    ensures h.response.code == 200 <==>
              pin.Some? && IsPinCode(pin.value) && !storeFails && id in st.sessions
              && st.sessions[id].pinHash == Some(HashPin(pin.value))
  {
    if pin.None? || !IsPinCode(pin.value) then Handled(st, Response(400, ErrorBody(PinFormat)))
    else if storeFails then Handled(st, Response(500, ErrorBody(InternalError)))
    else
      var o := DeactivateSession(st, id, pin.value);
      if !o.success then Handled(o.store, Response(401, ErrorBody(DeactivationRefused(o.reason))))
      else Handled(o.store, Response(200, DeactivatedBody))
  }

  // ---------------------------------------------------------------------------
  // POST /api/alert/send
  // ---------------------------------------------------------------------------

  const SentWords: string := " alerte(s) envoy\U{E9}e(s)"
  const FailedWords: string := " \U{E9}chec(s)"

  /** `${sent} alerte(s) envoyée(s)` followed by `, ${failed} échec(s)` only when something failed. */
  function AlertMessage(sent: nat, failed: nat): (m: string)
    ensures NatToDecimal(sent) + SentWords <= m
    ensures failed == 0 <==> m == NatToDecimal(sent) + SentWords
    ensures failed > 0 ==> m[|NatToDecimal(sent) + SentWords|..] == ", " + NatToDecimal(failed) + FailedWords
  {
    var head := NatToDecimal(sent) + SentWords;
    if failed > 0 then head + ", " + NatToDecimal(failed) + FailedWords else head
  }

  /** The report of a dispatch: counts by status, and `success` whatever they are. */
  function Report(alerts: seq<Alert>): Body {
    var sent := CountStatus(alerts, Sent);
    var failed := CountStatus(alerts, Failed);
    AlertReport(sent, failed, AlertMessage(sent, failed))
  }

  /**
   * 400 without a session id. 500, with nothing sent and the store as it was,
   * when the validity check throws (`validFails`: its read or its lazy
   * `expired` write). 403 when the session is not valid (the lazy expiry of
   * the validity check is kept). Otherwise the dispatcher runs over every
   * contact, `outcome(i)` describing what happens to contact `i`, and the
   * response is 200 with the counts, even when every contact failed. The
   * closing `alertSentAt` update addresses the document named by the
   * session's own `sessionId` field; if that document is missing, or the
   * update throws (`stampThrows`), the alerts have already gone out and been
   * stored, and the handler answers 500.
   */
  method SendAlertHandler(st: Store, sessionId: Option<string>, now: int,
                          outcome: nat -> ContactOutcome, endTime: int,
                          validFails: bool, stampThrows: bool)
    returns (h: Handled, alerts: seq<Alert>)
    ensures sessionId.None? || sessionId.value == "" ==>
              h == Handled(st, Response(400, ErrorBody(SessionIdRequired))) && alerts == []
    ensures sessionId.Some? && sessionId.value != "" && validFails ==>
              h == Handled(st, Response(500, ErrorBody(InternalError))) && alerts == []
    ensures sessionId.Some? && sessionId.value != "" && !validFails
            && !IsSessionValid(st, sessionId.value, now).result.valid ==>
              && h.store == IsSessionValid(st, sessionId.value, now).store
              && h.response == Response(403, ErrorBody(SessionInvalid(IsSessionValid(st, sessionId.value, now).result.reason)))
              && alerts == []
    ensures h.response.code == 200 ==>
              sessionId.Some? && sessionId.value != "" && !validFails && !stampThrows
              && IsSessionValid(st, sessionId.value, now).result.valid
    ensures (sessionId.Some? && sessionId.value != "" && !validFails && !stampThrows
             && IsSessionValid(st, sessionId.value, now).result.valid
             && SessionsKeyed(st)) ==> h.response.code == 200
    ensures sessionId.Some? && sessionId.value != "" && !validFails
            && IsSessionValid(st, sessionId.value, now).result.valid ==>
              && (h.response.code == 200 || h.response.code == 500)
              && var s := st.sessions[sessionId.value];
              && |alerts| == |s.contacts|
              && (forall i :: 0 <= i < |alerts| ==> alerts[i] == AlertFor(s, s.contacts[i], outcome(i)))
              && h.store.alerts == st.alerts + SentOnly(alerts)
              && (stampThrows ==> h.response.code == 500 && h.store.sessions == st.sessions)
    ensures h.response.code == 200 ==>
              && h.response.body == Report(alerts)
              && h.response.body.sent + h.response.body.failed == |alerts|
              && var s := st.sessions[sessionId.value];
              && s.sessionId in h.store.sessions
              && h.store.sessions[s.sessionId].alertSentAt == Some(endTime)
  {
    if sessionId.None? || sessionId.value == "" {
      return Handled(st, Response(400, ErrorBody(SessionIdRequired))), [];
    }
    if validFails {
      return Handled(st, Response(500, ErrorBody(InternalError))), [];
    }
    var id := sessionId.value;
    var c := IsSessionValid(st, id, now);
    if !c.result.valid || c.result.session.None? {
      return Handled(c.store, Response(403, ErrorBody(SessionInvalid(c.result.reason)))), [];
    }
    var s := c.result.session.value;
    var outcomes := seq(|s.contacts|, i requires 0 <= i < |s.contacts| => outcome(i));
    assert c.store == st && s == st.sessions[id];
    var d := SendAlertsToContacts(c.store, s, outcomes, endTime, stampThrows);
    alerts := d.alerts;
    if !d.stamped {
      h := Handled(d.store, Response(500, ErrorBody(InternalError)));
    } else {
      CountsAddUp(d.alerts);
      h := Handled(d.store, Response(200, Report(d.alerts)));
    }
  }

  // ---------------------------------------------------------------------------
  // An end-to-end run
  // ---------------------------------------------------------------------------

  /** The request body of the example below. */
  function SampleBody(): CreateBody {
    CreateBody(Some("Camille"), Some([ContactInput("Lou", Some("+33612345678"))]), Some("4821"), None)
  }

  lemma SampleNameNotBlank()
    ensures Trim("Camille") != ""
  {
    assert !IsJsWhitespace("Camille"[0]);
    assert TrimStart("Camille") == "Camille";
  }

  lemma PinsWellFormed()
    ensures IsPinCode("4821") && IsPinCode("0000")
  {
  }

  lemma SamplePhoneValid()
    ensures IsE164Phone("+33612345678")
  {
    assert "+33612345678"[1..] == "33612345678";
  }

  /** The example request passes every check of the create handler. */
  lemma SampleBodyAccepted()
    ensures CreateError(SampleBody()) == None
  {
    var b := SampleBody();
    SampleNameNotBlank();
    SamplePhoneValid();
    PinsWellFormed();
    assert NameGiven(b);
    assert PinGiven(b);
    assert PhoneOk(b.contacts.value[0]);
    assert AllPhonesOk(b.contacts.value);
  }

  /**
   * A session created with PIN 4821: a deactivation with 0000 is refused
   * with 401 and changes nothing, the one with 4821 succeeds with 200, after
   * which the GET handler reports the session deactivated and not valid.
   */
  lemma WrongThenRightPin(sessionId: string, contactIds: seq<string>, now: int, later: int, webUrl: Option<string>)
    requires |contactIds| == 1
    ensures var h0 := CreateSessionHandler(EmptyStore, SampleBody(), sessionId, contactIds, now, webUrl, false);
            var h1 := DeactivateSessionHandler(h0.store, sessionId, Some("0000"), false);
            var h2 := DeactivateSessionHandler(h1.store, sessionId, Some("4821"), false);
            var h3 := GetSessionHandler(h2.store, sessionId, later, false);
            && h0.response.code == 201
            && h1.response.code == 401 && h1.store == h0.store
            && h2.response.code == 200
            && h3.response.code == 200
            && h3.response.body.view.status == Deactivated && !h3.response.body.view.valid
  {
    SampleCreated(sessionId, contactIds, now, webUrl);
    var h0 := CreateSessionHandler(EmptyStore, SampleBody(), sessionId, contactIds, now, webUrl, false);
    WrongThenRightOn(h0.store, sessionId, later);
  }

  lemma SampleCreated(sessionId: string, contactIds: seq<string>, now: int, webUrl: Option<string>)
    requires |contactIds| == 1
    ensures var h0 := CreateSessionHandler(EmptyStore, SampleBody(), sessionId, contactIds, now, webUrl, false);
            && h0.response.code == 201
            && sessionId in h0.store.sessions && h0.store.sessions[sessionId].pinHash == Some(HashPin("4821"))
  {
    SampleBodyAccepted();
  }

  /** On any store holding the session with PIN 4821: 0000 is refused, 4821 switches it off for good. */
  lemma WrongThenRightOn(st0: Store, sessionId: string, later: int)
    requires sessionId in st0.sessions && st0.sessions[sessionId].pinHash == Some(HashPin("4821"))
    ensures var h1 := DeactivateSessionHandler(st0, sessionId, Some("0000"), false);
            var h2 := DeactivateSessionHandler(h1.store, sessionId, Some("4821"), false);
            var h3 := GetSessionHandler(h2.store, sessionId, later, false);
            && h1.response.code == 401 && h1.store == st0
            && h2.response.code == 200
            && h3.response.code == 200
            && h3.response.body.view.status == Deactivated && !h3.response.body.view.valid
  {
    HashPinInjective("4821", "0000");
    PinsWellFormed();
    var h1 := DeactivateSessionHandler(st0, sessionId, Some("0000"), false);
    assert h1.response.code == 401 && h1.store == st0;
    var h2 := DeactivateSessionHandler(h1.store, sessionId, Some("4821"), false);
    assert h2.response.code == 200;
    assert h2.store.sessions[sessionId].status == Deactivated;
  }
}

=== FILE: session_store.dfy ===
/**
 * The session store of beaver-backend/src/services/sessionService.ts.
 *
 * The two Firestore collections the service touches become finite maps: the
 * sessions by id and the GPS samples by `(sessionId, timestamp)` (the
 * document id `${sessionId}_${timestamp}`). Alert records, appended by the
 * notification dispatcher, are a sequence. `Date.now()` is the parameter
 * `now`, and every `uuidv4()` is a parameter supplied by the caller.
 */
module SessionStore {
  import opened Common
  import opened Types

  /** Key of a GPS document: one record per session and timestamp. */
  datatype GpsKey = GpsKey(sessionId: string, timestamp: int)

  datatype Store = Store(
    sessions: map<string, Session>,
    positions: map<GpsKey, GpsPosition>,
    alerts: seq<Alert>)

  /** Why a validity check or a deactivation failed. */
  datatype Reason = NotFound | SessionExpired | SessionDeactivated | IncorrectPin

  function KeyOf(p: GpsPosition): GpsKey {
    GpsKey(p.sessionId, p.timestamp)
  }

  /** Every GPS record is stored under the key its own fields produce. */
  predicate PositionsKeyed(st: Store) {
    forall k :: k in st.positions ==> KeyOf(st.positions[k]) == k
  }

  /** Every session is stored under its own id (the document id is the `sessionId` field). */
  predicate SessionsKeyed(st: Store) {
    forall id :: id in st.sessions ==> st.sessions[id].sessionId == id
  }

  const EmptyStore: Store := Store(map[], map[], [])

  // ---------------------------------------------------------------------------
  // PIN digest
  // ---------------------------------------------------------------------------

  /** The fixed-salt text that is hashed: `beaver_${pin}_salt`. */
  function SaltedPin(pin: string): string {
    "beaver_" + pin + "_salt"
  }

  function HashPin(pin: string): PinDigest {
    Sha256Of(SaltedPin(pin))
  }

  /** Two PINs have the same digest exactly when they are the same PIN. */
  lemma HashPinInjective(a: string, b: string)
    ensures HashPin(a) == HashPin(b) <==> a == b
  {
    if HashPin(a) == HashPin(b) {
      var sa, sb := SaltedPin(a), SaltedPin(b);
      assert |a| == |b|;
      assert a == sa[7..7 + |a|];
      assert b == sb[7..7 + |b|];
    }
  }

  // ---------------------------------------------------------------------------
  // createSession
  // ---------------------------------------------------------------------------

  /** A contact as submitted for a new session (no id yet). */
  datatype NewContact = NewContact(name: string, phone: string)

  datatype CreatePayload = CreatePayload(
    userFirstName: string,
    contacts: seq<NewContact>,
    pinCode: string,
    sessionDurationMinutes: Option<int>)

  datatype Created = Created(store: Store, session: Session)

  /** Minutes a session lives when the payload gives no duration. */
  const DefaultDurationMinutes: int := 60

  /**
   * Stores a fresh active session under `sessionId` (a Firestore `set`, so an
   * existing document with that id would be replaced). Contact `i` receives
   * the fresh id `contactIds[i]`.
   */
  function CreateSession(st: Store, p: CreatePayload, sessionId: string,
                         contactIds: seq<string>, now: int): (r: Created)
    requires |contactIds| == |p.contacts|
    ensures r.session.sessionId == sessionId && r.session.userFirstName == p.userFirstName
    ensures r.session.status == Active && r.session.createdAt == now
    ensures r.session.expiresAt == now + p.sessionDurationMinutes.GetOr(60) * 60000
    ensures r.session.pinHash == Some(HashPin(p.pinCode))
    ensures r.session.lastGpsUpdate == None && r.session.alertSentAt == None
    ensures |r.session.contacts| == |p.contacts|
    ensures forall i :: 0 <= i < |p.contacts| ==>
              r.session.contacts[i] == Contact(contactIds[i], p.contacts[i].name, p.contacts[i].phone)
    ensures r.store.sessions == st.sessions[sessionId := r.session]
    ensures r.store.positions == st.positions && r.store.alerts == st.alerts
    ensures SessionsKeyed(st) ==> SessionsKeyed(r.store)
  {
    var durationMs := p.sessionDurationMinutes.GetOr(DefaultDurationMinutes) * 60 * 1000;
    var contacts := seq(|p.contacts|, i requires 0 <= i < |p.contacts| =>
                          Contact(contactIds[i], p.contacts[i].name, p.contacts[i].phone));
    var s := Session(sessionId, p.userFirstName, contacts, Active, now, now + durationMs,
                     None, None, Some(HashPin(p.pinCode)));
    Created(st.(sessions := st.sessions[sessionId := s]), s)
  }

  // ---------------------------------------------------------------------------
  // getSession / updateSessionStatus
  // ---------------------------------------------------------------------------

  function GetSession(st: Store, id: string): (r: Option<Session>)
    ensures r.Some? <==> id in st.sessions
    ensures r.Some? ==> r.value == st.sessions[id]
  {
    if id in st.sessions then Some(st.sessions[id]) else None
  }

  /**
   * Overwrites the status of a stored session, whatever it was. A Firestore
   * `update` of a missing document is rejected: `None`.
   */
  function UpdateSessionStatus(st: Store, id: string, status: SessionStatus): (r: Option<Store>)
    ensures r.Some? <==> id in st.sessions
    ensures r.Some? ==> r.value.sessions == st.sessions[id := st.sessions[id].(status := status)]
    ensures r.Some? ==> r.value.positions == st.positions && r.value.alerts == st.alerts
  {
    if id in st.sessions then
      Some(st.(sessions := st.sessions[id := st.sessions[id].(status := status)]))
    else None
  }

  // ---------------------------------------------------------------------------
  // isSessionValid
  // ---------------------------------------------------------------------------

  datatype Validity = Validity(valid: bool, session: Option<Session>, reason: Option<Reason>)

  datatype Checked = Checked(store: Store, result: Validity)

  /** True when a read at time `now` finds the session live. */
  predicate IsLive(s: Session, now: int) {
    s.status == Active && now <= s.expiresAt
  }

  /**
   * Checks a session. An active session read after its expiry time is
   * persisted as expired, but the returned snapshot is the one read before
   * that write, so its status is still `Active`.
   */
  function IsSessionValid(st: Store, id: string, now: int): (r: Checked)
    ensures r.result.valid <==> id in st.sessions && IsLive(st.sessions[id], now)
    ensures r.result.session == GetSession(st, id)
    ensures r.result.valid <==> r.result.reason.None?
    ensures id !in st.sessions ==> r.result.reason == Some(NotFound)
    ensures id in st.sessions && st.sessions[id].status == Deactivated ==>
              r.result.reason == Some(SessionDeactivated)
    ensures id in st.sessions && st.sessions[id].status != Deactivated && !IsLive(st.sessions[id], now) ==>
              r.result.reason == Some(SessionExpired)
    ensures id in st.sessions && st.sessions[id].status == Active && now > st.sessions[id].expiresAt ==>
              r.store.sessions == st.sessions[id := st.sessions[id].(status := Expired)]
    ensures !(id in st.sessions && st.sessions[id].status == Active && now > st.sessions[id].expiresAt) ==>
              r.store == st
    ensures r.store.positions == st.positions && r.store.alerts == st.alerts
  {
    match GetSession(st, id)
    case None => Checked(st, Validity(false, None, Some(NotFound)))
    case Some(s) =>
      if s.status == Expired then Checked(st, Validity(false, Some(s), Some(SessionExpired)))
      else if s.status == Deactivated then Checked(st, Validity(false, Some(s), Some(SessionDeactivated)))
      else if now > s.expiresAt then
        var st' := UpdateSessionStatus(st, id, Expired).value;
        Checked(st', Validity(false, Some(s), Some(SessionExpired)))
      else Checked(st, Validity(true, Some(s), None))
  }

  // ---------------------------------------------------------------------------
  // saveGpsPosition
  // ---------------------------------------------------------------------------

  /** `ok` is false when the session update was rejected (no such session). */
  datatype Saved = Saved(store: Store, ok: bool)

  /**
   * Writes the sample under `(sessionId, timestamp)` (replacing any sample
   * with the same key), then records its timestamp as the session's last GPS
   * update. The session's status is not consulted.
   */
  function SaveGpsPosition(st: Store, pos: GpsPosition): (r: Saved)
    ensures r.store.positions == st.positions[KeyOf(pos) := pos]
    ensures r.ok <==> pos.sessionId in st.sessions
    ensures r.ok ==> (r.store.sessions ==
              st.sessions[pos.sessionId := st.sessions[pos.sessionId].(lastGpsUpdate := Some(pos.timestamp))])
    ensures !r.ok ==> r.store.sessions == st.sessions
    ensures r.store.alerts == st.alerts
    ensures PositionsKeyed(st) ==> PositionsKeyed(r.store)
  {
    var written := st.(positions := st.positions[KeyOf(pos) := pos]);
    if pos.sessionId in st.sessions then
      var s := st.sessions[pos.sessionId];
      Saved(written.(sessions := st.sessions[pos.sessionId := s.(lastGpsUpdate := Some(pos.timestamp))]), true)
    else Saved(written, false)
  }

  /** Stamps `alertSentAt`; `None` when the session document does not exist. */
  function SetAlertSentAt(st: Store, id: string, t: int): (r: Option<Store>)
    ensures r.Some? <==> id in st.sessions
    ensures r.Some? ==> r.value.sessions == st.sessions[id := st.sessions[id].(alertSentAt := Some(t))]
    ensures r.Some? ==> r.value.positions == st.positions && r.value.alerts == st.alerts
  {
    if id in st.sessions then
      Some(st.(sessions := st.sessions[id := st.sessions[id].(alertSentAt := Some(t))]))
    else None
  }

  // ---------------------------------------------------------------------------
  // getSessionTrack
  // ---------------------------------------------------------------------------

  predicate IsMin(m: int, s: set<int>) {
    m in s && forall y :: y in s ==> m <= y
  }

  lemma Pick(s: set<int>) returns (x: int)
    requires s != {}
    ensures x in s
  {
    if forall y :: y !in s {
      assert false;
    }
    x :| x in s;
  }

  lemma MinOfInsert(s: set<int>, x: int, m: int)
    requires IsMin(m, s - {x}) && x in s
    ensures IsMin(if x < m then x else m, s)
  {
    forall y | y in s ensures (if x < m then x else m) <= y {
      if y != x {
        assert y in s - {x};
      }
    }
  }

  /** Every finite non-empty set of integers has a least element. */
  lemma {:induction false} MinExists(s: set<int>)
    requires s != {}
    ensures exists m :: IsMin(m, s)
    decreases |s|
  {
    var x := Pick(s);
    var t := s - {x};
    if t == {} {
      assert s == {x};
      assert IsMin(x, s);
    } else {
      MinExists(t);
      var m :| IsMin(m, t);
      MinOfInsert(s, x, m);
    }
  }

  function MinOf(s: set<int>): (m: int)
    requires s != {}
    ensures IsMin(m, s)
  {
    MinExists(s);
    var m :| IsMin(m, s);
    m
  }

  predicate StrictlyIncreasing(xs: seq<int>) {
    forall i, j :: 0 <= i < j < |xs| ==> xs[i] < xs[j]
  }

  /** The set of elements of a sequence. */
  function Elements(xs: seq<int>): set<int> {
    set x | x in xs
  }

  /** Putting the least element in front of the ascending rest keeps the sequence ascending. */
  lemma ConsMin(m: int, s: set<int>, rest: seq<int>)
    requires IsMin(m, s) && Elements(rest) == s - {m} && StrictlyIncreasing(rest)
    ensures StrictlyIncreasing([m] + rest) && Elements([m] + rest) == s
  {
    var r := [m] + rest;
    forall i, j | 0 <= i < j < |r| ensures r[i] < r[j] {
      assert r[j] == rest[j - 1];
      assert rest[j - 1] in Elements(rest);
      if i > 0 {
        assert r[i] == rest[i - 1];
      }
    }
    forall x ensures x in Elements(r) <==> x in s {
      if x in s && x != m {
        assert x in Elements(rest);
        var k :| 0 <= k < |rest| && rest[k] == x;
        assert r[k + 1] == x;
      }
      if x in Elements(r) {
        var k :| 0 <= k < |r| && r[k] == x;
        if k > 0 {
          assert rest[k - 1] == x;
          assert x in Elements(rest);
        }
      }
    }
  }

  /** The elements of a finite set of integers in ascending order. */
  function SortedElements(s: set<int>): (r: seq<int>)
    ensures |r| == |s| && StrictlyIncreasing(r)
    ensures Elements(r) == s
    decreases |s|
  {
    if s == {} then []
    else
      var m := MinOf(s);
      var rest := SortedElements(s - {m});
      ConsMin(m, s, rest);
      [m] + rest
  }

  /** The last `n` of an ascending sequence are its `n` largest elements. */
  lemma LastNKeepsLargest(all: seq<int>, n: nat, t: int)
    requires StrictlyIncreasing(all) && t in all
    requires |LastN(all, n)| < n || (|LastN(all, n)| > 0 && LastN(all, n)[0] <= t)
    ensures t in LastN(all, n)
  {
    var ts := LastN(all, n);
    var j :| 0 <= j < |all| && all[j] == t;
    if |ts| == n {
      var k := |all| - n;
      assert all[k] == ts[0];
      assert ts[j - k] == t;
    }
  }

  /** Timestamps under which samples of session `id` are stored. */
  function TimestampsOf(st: Store, id: string): set<int> {
    set k | k in st.positions && k.sessionId == id :: k.timestamp
  }

  lemma StoredTimestamp(st: Store, id: string, t: int)
    requires t in TimestampsOf(st, id)
    ensures GpsKey(id, t) in st.positions
  {
    var k :| k in st.positions && k.sessionId == id && k.timestamp == t;
    assert k == GpsKey(id, t);
  }

  lemma LastNIncreasing(xs: seq<int>, n: nat)
    requires StrictlyIncreasing(xs)
    ensures StrictlyIncreasing(LastN(xs, n))
  {
    var ts := LastN(xs, n);
    var k := |xs| - |ts|;
    forall i, j | 0 <= i < j < |ts| ensures ts[i] < ts[j] {
      assert ts[i] == xs[k + i] && ts[j] == xs[k + j];
    }
  }

  /** The last `n` of the ascending enumeration of `s` are members of `s`. */
  lemma LatestAreMembers(s: set<int>, n: nat)
    ensures forall i :: 0 <= i < |LastN(SortedElements(s), n)| ==> LastN(SortedElements(s), n)[i] in s
  {
    LastNMembers(SortedElements(s), n);
  }

  lemma LastNMembers(all: seq<int>, n: nat)
    ensures forall i :: 0 <= i < |LastN(all, n)| ==> LastN(all, n)[i] in Elements(all)
  {
    var ts := LastN(all, n);
    forall i | 0 <= i < |ts| ensures ts[i] in Elements(all) {
      assert ts[i] == all[|all| - |ts| + i];
    }
  }

  /** No member of `s` at or after the first kept one is dropped. */
  lemma LatestAreKept(s: set<int>, n: nat)
    ensures var ts := LastN(SortedElements(s), n);
            forall t :: t in s && (|ts| < n || (|ts| > 0 && ts[0] <= t)) ==> t in ts
  {
    var all := SortedElements(s);
    var ts := LastN(all, n);
    forall t | t in s && (|ts| < n || (|ts| > 0 && ts[0] <= t)) ensures t in ts {
      assert t in Elements(all);
      LastNKeepsLargest(all, n, t);
    }
  }

  /** How many samples the track query returns when `n` are stored: all of them, capped at 200. */
  function TrackLength(n: nat): nat {
    if n > TrackWindow then TrackWindow else n
  }

  /** The timestamps the track query returns: the latest 200, ascending. */
  function TrackTimestamps(st: Store, id: string): (ts: seq<int>)
    ensures |ts| == TrackLength(|TimestampsOf(st, id)|)
    ensures StrictlyIncreasing(ts)
    ensures forall i :: 0 <= i < |ts| ==> GpsKey(id, ts[i]) in st.positions
    ensures forall t :: t in TimestampsOf(st, id) && (|ts| < TrackWindow || ts[0] <= t) ==> t in ts
  {
    var s := TimestampsOf(st, id);
    var ts := LastN(SortedElements(s), TrackWindow);
    LastNIncreasing(SortedElements(s), TrackWindow);
    LatestAreMembers(s, TrackWindow);
    LatestAreKept(s, TrackWindow);
    forall i | 0 <= i < |ts| ensures GpsKey(id, ts[i]) in st.positions {
      StoredTimestamp(st, id, ts[i]);
    }
    ts
  }

  /** The stored samples of session `id` at the given timestamps, in the same order. */
  function PositionsAt(st: Store, id: string, ts: seq<int>): (r: seq<GpsPosition>)
    requires forall i :: 0 <= i < |ts| ==> GpsKey(id, ts[i]) in st.positions
    ensures |r| == |ts|
    ensures forall i :: 0 <= i < |ts| ==> r[i] == st.positions[GpsKey(id, ts[i])]
  {
    if ts == [] then [] else [st.positions[GpsKey(id, ts[0])]] + PositionsAt(st, id, ts[1..])
  }

  /**
   * `where sessionId == id`, `orderBy timestamp asc`, `limitToLast(200)`:
   * the session's samples, oldest first, at most 200 of them, and they are
   * the most recent ones.
   */
  function GetSessionTrack(st: Store, id: string): (r: seq<GpsPosition>)
    requires PositionsKeyed(st)
    ensures |r| == TrackLength(|TimestampsOf(st, id)|)
    ensures forall i :: 0 <= i < |r| ==>
              r[i].sessionId == id && GpsKey(id, r[i].timestamp) in st.positions
              && st.positions[GpsKey(id, r[i].timestamp)] == r[i]
    ensures forall i, j :: 0 <= i < j < |r| ==> r[i].timestamp < r[j].timestamp
    ensures forall k :: k in st.positions && k.sessionId == id && (|r| < TrackWindow || r[0].timestamp <= k.timestamp)
              ==> st.positions[k] in r
  {
    TrackFacts(st, id);
    PositionsAt(st, id, TrackTimestamps(st, id))
  }

  /** What `GetSessionTrack` promises, for the samples at the track's timestamps. */
  lemma TrackFacts(st: Store, id: string)
    requires PositionsKeyed(st)
    ensures var r := PositionsAt(st, id, TrackTimestamps(st, id));
            && |r| == TrackLength(|TimestampsOf(st, id)|)
            && (forall i :: 0 <= i < |r| ==>
                  r[i].sessionId == id && GpsKey(id, r[i].timestamp) in st.positions
                  && st.positions[GpsKey(id, r[i].timestamp)] == r[i])
            && (forall i, j :: 0 <= i < j < |r| ==> r[i].timestamp < r[j].timestamp)
            && (forall k :: k in st.positions && k.sessionId == id && (|r| < TrackWindow || r[0].timestamp <= k.timestamp)
                  ==> st.positions[k] in r)
  {
    var ts := TrackTimestamps(st, id);
    PositionsAtKeyed(st, id, ts);
    TrackOrdered(st, id, ts);
    TrackCovers(st, id, ts);
  }

  /** Samples found at strictly increasing timestamps come in strictly increasing time order. */
  lemma TrackOrdered(st: Store, id: string, ts: seq<int>)
    requires PositionsKeyed(st) && StrictlyIncreasing(ts)
    requires forall i :: 0 <= i < |ts| ==> GpsKey(id, ts[i]) in st.positions
    ensures var r := PositionsAt(st, id, ts);
            forall i, j :: 0 <= i < j < |r| ==> r[i].timestamp < r[j].timestamp
  {
    var r := PositionsAt(st, id, ts);
    PositionsAtKeyed(st, id, ts);
    forall i, j | 0 <= i < j < |r| ensures r[i].timestamp < r[j].timestamp {
      assert r[i].timestamp == ts[i] && r[j].timestamp == ts[j];
    }
  }

  /** Every stored sample of the session inside the track's time range is in the track. */
  lemma TrackCovers(st: Store, id: string, ts: seq<int>)
    requires PositionsKeyed(st) && ts == TrackTimestamps(st, id)
    ensures var r := PositionsAt(st, id, ts);
            forall k :: k in st.positions && k.sessionId == id && (|r| < TrackWindow || r[0].timestamp <= k.timestamp)
              ==> st.positions[k] in r
  {
    var r := PositionsAt(st, id, ts);
    PositionsAtKeyed(st, id, ts);
    forall k | k in st.positions && k.sessionId == id && (|r| < TrackWindow || r[0].timestamp <= k.timestamp)
      ensures st.positions[k] in r
    {
      assert k.timestamp in TimestampsOf(st, id);
      PositionsAtCovers(st, id, ts, k);
    }
  }

  /** The samples found at the track's timestamps belong to the session and carry those timestamps. */
  lemma PositionsAtKeyed(st: Store, id: string, ts: seq<int>)
    requires PositionsKeyed(st)
    requires forall i :: 0 <= i < |ts| ==> GpsKey(id, ts[i]) in st.positions
    ensures var r := PositionsAt(st, id, ts);
            forall i :: 0 <= i < |r| ==> r[i].sessionId == id && r[i].timestamp == ts[i]
  {
    var r := PositionsAt(st, id, ts);
    forall i | 0 <= i < |r| ensures r[i].sessionId == id && r[i].timestamp == ts[i] {
      assert KeyOf(st.positions[GpsKey(id, ts[i])]) == GpsKey(id, ts[i]);
    }
  }

  /** A stored sample of the session whose timestamp is listed is among the samples found. */
  lemma PositionsAtCovers(st: Store, id: string, ts: seq<int>, k: GpsKey)
    requires forall i :: 0 <= i < |ts| ==> GpsKey(id, ts[i]) in st.positions
    requires k in st.positions && k.sessionId == id && k.timestamp in ts
    ensures st.positions[k] in PositionsAt(st, id, ts)
  {
    var j :| 0 <= j < |ts| && ts[j] == k.timestamp;
    assert k == GpsKey(id, ts[j]);
    assert PositionsAt(st, id, ts)[j] == st.positions[k];
  }


  // ---------------------------------------------------------------------------
  // deactivateSession
  // ---------------------------------------------------------------------------

  datatype Outcome = Outcome(store: Store, success: bool, reason: Option<Reason>)

  /**
   * PIN-gated deactivation. A matching PIN writes `Deactivated` whatever the
   * previous status, expired or already deactivated included.
   */
  function DeactivateSession(st: Store, id: string, pin: string): (r: Outcome)
    ensures r.success <==> id in st.sessions && st.sessions[id].pinHash == Some(HashPin(pin))
    ensures r.success <==> r.reason.None?
    ensures id !in st.sessions ==> r.reason == Some(NotFound)
    ensures id in st.sessions && !r.success ==> r.reason == Some(IncorrectPin)
    ensures r.success ==> r.store.sessions == st.sessions[id := st.sessions[id].(status := Deactivated)]
    ensures !r.success ==> r.store == st
    ensures r.store.positions == st.positions && r.store.alerts == st.alerts
  {
    match GetSession(st, id)
    case None => Outcome(st, false, Some(NotFound))
    case Some(s) =>
      if s.pinHash != Some(HashPin(pin)) then Outcome(st, false, Some(IncorrectPin))
      else Outcome(UpdateSessionStatus(st, id, Deactivated).value, true, None)
  }

  // ---------------------------------------------------------------------------
  // cleanupExpiredSessions
  // ---------------------------------------------------------------------------

  /** The query of the sweep: `expiresAt < now` and `status == 'active'`. */
  predicate Sweepable(s: Session, now: int) {
    s.status == Active && s.expiresAt < now
  }

  function SweepSet(st: Store, now: int): set<string> {
    set id | id in st.sessions && Sweepable(st.sessions[id], now)
  }

  datatype Swept = Swept(store: Store, count: nat)

  /** Flips every active session past its expiry to expired in one batch and counts them. */
  function CleanupExpiredSessions(st: Store, now: int): (r: Swept)
    ensures r.count == |SweepSet(st, now)|
    ensures r.store.sessions.Keys == st.sessions.Keys
    ensures forall id :: id in st.sessions && Sweepable(st.sessions[id], now) ==>
              r.store.sessions[id] == st.sessions[id].(status := Expired)
    ensures forall id :: id in st.sessions && !Sweepable(st.sessions[id], now) ==>
              r.store.sessions[id] == st.sessions[id]
    ensures r.store.positions == st.positions && r.store.alerts == st.alerts
  {
    var sessions := map id | id in st.sessions ::
      if Sweepable(st.sessions[id], now) then st.sessions[id].(status := Expired) else st.sessions[id];
    Swept(st.(sessions := sessions), |SweepSet(st, now)|)
  }

  /** A second sweep at the same time finds nothing left to expire. */
  lemma SweepIdempotent(st: Store, now: int)
    ensures CleanupExpiredSessions(CleanupExpiredSessions(st, now).store, now).count == 0
    ensures CleanupExpiredSessions(CleanupExpiredSessions(st, now).store, now).store
            == CleanupExpiredSessions(st, now).store
  {
    var s1 := CleanupExpiredSessions(st, now).store;
    assert SweepSet(s1, now) == {};
    var s2 := CleanupExpiredSessions(s1, now).store;
    assert s2.sessions == s1.sessions;
  }

  /**
   * The lazy check and the sweep agree: expiring one session on read and then
   * sweeping gives the same sessions as sweeping alone.
   */
  lemma LazyExpiryAgreesWithSweep(st: Store, id: string, now: int)
    ensures CleanupExpiredSessions(IsSessionValid(st, id, now).store, now).store
            == CleanupExpiredSessions(st, now).store
  {
    var a := CleanupExpiredSessions(IsSessionValid(st, id, now).store, now).store;
    var b := CleanupExpiredSessions(st, now).store;
    assert a.sessions.Keys == b.sessions.Keys;
    forall x | x in a.sessions ensures a.sessions[x] == b.sessions[x] {
    }
  }

  // ---------------------------------------------------------------------------
  // Status evolution over every operation that follows creation
  // ---------------------------------------------------------------------------

  /** The fields of a session that no operation after creation changes. */
  predicate SameIdentity(a: Session, b: Session) {
    && a.sessionId == b.sessionId && a.userFirstName == b.userFirstName
    && a.contacts == b.contacts && a.createdAt == b.createdAt
    && a.expiresAt == b.expiresAt && a.pinHash == b.pinHash
  }

  /**
   * `st'` follows `st`: the same sessions exist, none changed its identity,
   * and no status moved down the order Active < Expired < Deactivated.
   */
  predicate Evolves(st: Store, st': Store) {
    && st'.sessions.Keys == st.sessions.Keys
    && forall id :: id in st.sessions ==>
         SameIdentity(st.sessions[id], st'.sessions[id])
         && StatusRank(st.sessions[id].status) <= StatusRank(st'.sessions[id].status)
  }

  /** The store operations available once a session exists. */
  datatype StoreOp =
    | Validate(id: string, now: int)
    | Deactivate(id: string, pin: string)
    | RecordGps(pos: GpsPosition)
    | MarkAlertSent(id: string, t: int)
    | Sweep(now: int)

  function Apply(st: Store, op: StoreOp): Store {
    match op
    case Validate(id, now) => IsSessionValid(st, id, now).store
    case Deactivate(id, pin) => DeactivateSession(st, id, pin).store
    case RecordGps(pos) => SaveGpsPosition(st, pos).store
    case MarkAlertSent(id, t) => SetAlertSentAt(st, id, t).GetOr(st)
    case Sweep(now) => CleanupExpiredSessions(st, now).store
  }

  function Run(st: Store, ops: seq<StoreOp>): Store
    decreases |ops|
  {
    if |ops| == 0 then st else Run(Apply(st, ops[0]), ops[1..])
  }

  /** Every single operation after creation is an evolution step. */
  lemma ApplyEvolves(st: Store, op: StoreOp)
    ensures Evolves(st, Apply(st, op))
  {
    match op
    case Validate(id, now) =>
      if id in st.sessions && st.sessions[id].status == Active && now > st.sessions[id].expiresAt {
        WriteEvolves(st, IsSessionValid(st, id, now).store, id, st.sessions[id].(status := Expired));
      } else {
        EvolvesReflexive(st);
      }
    case Deactivate(id, pin) =>
      var o := DeactivateSession(st, id, pin);
      if o.success {
        WriteEvolves(st, o.store, id, st.sessions[id].(status := Deactivated));
      } else {
        EvolvesReflexive(st);
      }
    case RecordGps(pos) =>
      var r := SaveGpsPosition(st, pos);
      if r.ok {
        var id := pos.sessionId;
        WriteEvolves(st, r.store, id, st.sessions[id].(lastGpsUpdate := Some(pos.timestamp)));
      } else {
        SameSessionsEvolve(st, r.store);
      }
    case MarkAlertSent(id, t) =>
      if id in st.sessions {
        WriteEvolves(st, SetAlertSentAt(st, id, t).value, id, st.sessions[id].(alertSentAt := Some(t)));
      } else {
        EvolvesReflexive(st);
      }
    case Sweep(now) =>
      var r := CleanupExpiredSessions(st, now).store;
      forall id | id in st.sessions
        ensures SameIdentity(st.sessions[id], r.sessions[id])
                && StatusRank(st.sessions[id].status) <= StatusRank(r.sessions[id].status)
      {
        if Sweepable(st.sessions[id], now) {
          assert r.sessions[id] == st.sessions[id].(status := Expired);
        } else {
          assert r.sessions[id] == st.sessions[id];
        }
      }
  }

  lemma EvolvesReflexive(st: Store)
    ensures Evolves(st, st)
  {
  }

  lemma SameSessionsEvolve(st: Store, st': Store)
    requires st'.sessions == st.sessions
    ensures Evolves(st, st')
  {
  }

  /** Rewriting one session without changing its identity or lowering its status is an evolution step. */
  lemma WriteEvolves(st: Store, st': Store, id: string, s': Session)
    requires id in st.sessions && st'.sessions == st.sessions[id := s']
    requires SameIdentity(st.sessions[id], s') && StatusRank(st.sessions[id].status) <= StatusRank(s'.status)
    ensures Evolves(st, st')
  {
  }

  /**
   * Along any sequence of operations after creation, sessions keep their
   * identity and statuses never move down: nothing writes `Active` again, and
   * a deactivated session stays deactivated.
   */
  lemma {:induction false} StatusNeverDecreases(st: Store, ops: seq<StoreOp>)
    ensures Evolves(st, Run(st, ops))
    decreases |ops|
  {
    if |ops| > 0 {
      var next := Apply(st, ops[0]);
      ApplyEvolves(st, ops[0]);
      StatusNeverDecreases(next, ops[1..]);
    }
  }

  /** Consequence: only creation makes a session active. */
  lemma OnlyCreationWritesActive(st: Store, ops: seq<StoreOp>, id: string)
    requires id in Run(st, ops).sessions && Run(st, ops).sessions[id].status == Active
    ensures id in st.sessions && st.sessions[id].status == Active
  {
    StatusNeverDecreases(st, ops);
  }

  /** Consequence: deactivation is absorbing. */
  lemma DeactivatedIsFinal(st: Store, ops: seq<StoreOp>, id: string)
    requires id in st.sessions && st.sessions[id].status == Deactivated
    ensures id in Run(st, ops).sessions && Run(st, ops).sessions[id].status == Deactivated
  {
    StatusNeverDecreases(st, ops);
  }

  /**
   * `expired` is not final: a correct PIN moves an expired session to
   * `deactivated` and reports success.
   */
  lemma ExpiredCanBeDeactivated(st: Store, id: string, pin: string)
    requires id in st.sessions && st.sessions[id].status == Expired
    requires st.sessions[id].pinHash == Some(HashPin(pin))
    ensures DeactivateSession(st, id, pin).success
    ensures DeactivateSession(st, id, pin).store.sessions[id].status == Deactivated
  {
  }

  /** A wrong PIN changes no status, whatever the session's state. */
  lemma WrongPinChangesNothing(st: Store, id: string, pin: string, other: string)
    requires id in st.sessions && st.sessions[id].pinHash == Some(HashPin(pin))
    requires other != pin
    ensures !DeactivateSession(st, id, other).success
    ensures DeactivateSession(st, id, other).store == st
  {
    HashPinInjective(pin, other);
  }

  /**
   * Every operation keeps each GPS sample under its own key and each session
   * under its own id.
   */
  lemma {:induction false} RunKeepsKeys(st: Store, ops: seq<StoreOp>)
    requires PositionsKeyed(st) && SessionsKeyed(st)
    ensures PositionsKeyed(Run(st, ops)) && SessionsKeyed(Run(st, ops))
    decreases |ops|
  {
    if |ops| > 0 {
      var next := Apply(st, ops[0]);
      ApplyEvolves(st, ops[0]);
      assert SessionsKeyed(next) by {
        forall id | id in next.sessions ensures next.sessions[id].sessionId == id {
          assert SameIdentity(st.sessions[id], next.sessions[id]);
        }
      }
      RunKeepsKeys(next, ops[1..]);
    }
  }
}

=== FILE: settings_screen.dfy ===
/**
 * The settings of beaver-app/src/screens/SettingsScreen.tsx: the first name,
 * the contact list, the timer duration and the three-step PIN change.
 *
 * Device storage is part of the state: `savedName`, `contacts`,
 * `savedDuration` and `storedPin` are what the storage holds after each
 * step. The awaited storage calls (the first name, the timer duration,
 * reading and writing the PIN) come with their outcome; when one rejects,
 * the handler stops there. The contact list is written without waiting and
 * is taken as written.
 */
module SettingsScreen {
  import opened Common
  import opened Types
  import opened ContactForm

  datatype PinStep = VerifyCurrent | NewPin | ConfirmPin

  /** The PIN modal: visibility, step, the candidate PIN held between the last two steps, and the error line. */
  datatype PinModal = PinModal(open: bool, step: PinStep, newPin: string, error: string)

  datatype Settings = Settings(
    nameInput: string,
    savedName: Option<string>,
    contacts: seq<Contact>,
    draft: Draft,
    shownDuration: TimerDuration,   // the picker's selection
    savedDuration: TimerDuration,
    storedPin: Option<string>,
    modal: PinModal,
    hasChanges: bool)

  // ---------------------------------------------------------------------------
  // First name, contacts, timer
  // ---------------------------------------------------------------------------

  /**
   * A name of fewer than two characters once trimmed is refused. Otherwise
   * the trimmed name is written (`saveOk` says whether the write succeeded)
   * and, once written, marked as a change; a rejected write changes nothing.
   */
  function SaveFirstName(s: Settings, saveOk: bool): (r: Settings)
    ensures Utf16Length(Trim(s.nameInput)) < 2 || !saveOk ==> r == s
    ensures Utf16Length(Trim(s.nameInput)) >= 2 && saveOk ==>
              r == s.(savedName := Some(Trim(s.nameInput)), hasChanges := true)
    ensures r.savedName.Some? && r.savedName != s.savedName ==>
              saveOk && Utf16Length(r.savedName.value) >= 2 && Trimmed(r.savedName.value)
  {
    var name := Trim(s.nameInput);
    assert Trimmed(name);
    if Utf16Length(name) < 2 || !saveOk then s
    else s.(savedName := Some(name), hasChanges := true)
  }

  /**
   * The length test counts UTF-16 code units: a one-character name outside
   * the Basic Multilingual Plane is long enough.
   */
  lemma AstralNameSaved(s: Settings)
    requires s.nameInput == "\U{20000}"
    ensures SaveFirstName(s, true).savedName == Some(s.nameInput)
  {
    assert !IsJsWhitespace(s.nameInput[0]);
    TrimmedFixed(s.nameInput);
    AstralCharCountsTwice();
  }

  /** A single letter is too short. */
  lemma OneLetterNameRefused(s: Settings)
    requires s.nameInput == "a"
    ensures forall saveOk :: SaveFirstName(s, saveOk) == s
  {
    assert !IsJsWhitespace(s.nameInput[0]);
    TrimmedFixed(s.nameInput);
    assert Utf16Length(s.nameInput) == 1 by { assert s.nameInput[1..] == ""; }
  }

  /** The add button: the list is stored as soon as it changes. */
  function AddContactPressed(s: Settings, freshId: string): (r: Settings)
    ensures r.contacts == AddContact(s.contacts, s.draft, freshId).contacts
    ensures r.hasChanges <==> s.hasChanges || |r.contacts| != |s.contacts|
    ensures WellFormedContacts(s.contacts) ==> WellFormedContacts(r.contacts)
    ensures r.storedPin == s.storedPin && r.savedName == s.savedName
  {
    AddKeepsWellFormed(s.contacts, s.draft, freshId);
    var a := AddContact(s.contacts, s.draft, freshId);
    s.(contacts := a.contacts, draft := a.draft, hasChanges := s.hasChanges || a.error.None?)
  }

  /** The confirmed delete: the filtered list is stored. */
  function DeleteContactConfirmed(s: Settings, id: string): (r: Settings)
    ensures r.contacts == DeleteContact(s.contacts, id)
    ensures forall c :: c in r.contacts <==> c in s.contacts && c.id != id
    ensures WellFormedContacts(s.contacts) ==> WellFormedContacts(r.contacts)
    ensures r.storedPin == s.storedPin && r.hasChanges
  {
    DeleteKeepsWellFormed(s.contacts, id);
    s.(contacts := DeleteContact(s.contacts, id), hasChanges := true)
  }

  /**
   * The duration picker: the selection changes at once, then the duration is
   * written (`saveOk`) and, once written, marked as a change. A rejected
   * write leaves the stored duration and the change flag as they were.
   */
  function ChangeTimer(s: Settings, d: TimerDuration, saveOk: bool): (r: Settings)
    ensures r.shownDuration == d
    ensures saveOk ==> r.savedDuration == d && r.hasChanges
    ensures !saveOk ==> r.savedDuration == s.savedDuration && r.hasChanges == s.hasChanges
    ensures r.(shownDuration := s.shownDuration, savedDuration := s.savedDuration, hasChanges := s.hasChanges) == s
  {
    var shown := s.(shownDuration := d);
    if saveOk then shown.(savedDuration := d, hasChanges := true) else shown
  }

  /**
   * After a successful change the picker shows what is stored; after a
   * rejected one it shows a duration the storage does not hold whenever the
   * choice was a new one.
   */
  lemma ChangeTimerShownVersusStored(s: Settings, d: TimerDuration, saveOk: bool)
    ensures var r := ChangeTimer(s, d, saveOk);
            (r.shownDuration == r.savedDuration <==> saveOk || d == s.savedDuration)
  {
  }

  // ---------------------------------------------------------------------------
  // PIN change
  // ---------------------------------------------------------------------------

  const WrongCurrentPin: string := "Code PIN actuel incorrect"
  const PinMismatch: string := "Les codes ne correspondent pas"

  /** Opening the PIN change always starts over at the current-PIN check. */
  function OpenPinChange(s: Settings): (r: Settings)
    ensures r.modal == PinModal(true, VerifyCurrent, "", "") && r.storedPin == s.storedPin
  {
    s.(modal := PinModal(true, VerifyCurrent, "", ""))
  }

  function ClosePinModal(s: Settings): (r: Settings)
    ensures !r.modal.open && r.storedPin == s.storedPin
  {
    s.(modal := s.modal.(open := false))
  }

  /**
   * One 4-digit entry on the pad, with the outcome of the secure-store call
   * it makes: reading the stored PIN at the current-PIN step, writing the new
   * one at a matching confirmation. Other steps make no call.
   */
  datatype PinEntry = PinEntry(pin: string, storageOk: bool)

  /**
   * `handlePinStepComplete`, called with each entry while the modal is shown.
   * The error line is cleared first. The current PIN must equal the stored
   * one (`verifyPin`) to move on; the new PIN is held; the confirmation
   * either stores it and closes the modal, or clears it and asks for a new
   * PIN again. A rejected storage call stops the handler where it is, with
   * only the error line cleared.
   */
  function PinStepComplete(s: Settings, pin: string, storageOk: bool): (r: Settings)
    ensures !s.modal.open ==> r == s
    ensures s.modal.open && s.modal.step == VerifyCurrent && !storageOk ==> r == s.(modal := s.modal.(error := ""))
    ensures s.modal.open && s.modal.step == VerifyCurrent && storageOk ==>
              && r.storedPin == s.storedPin && r.modal.open
              && (r.modal.step == NewPin <==> s.storedPin == Some(pin))
              && (r.modal.step != NewPin ==> r.modal.step == VerifyCurrent && r.modal.error == WrongCurrentPin)
    ensures s.modal.open && s.modal.step == NewPin ==>
              r.storedPin == s.storedPin && r.modal == PinModal(true, ConfirmPin, pin, "")
    ensures s.modal.open && s.modal.step == ConfirmPin && pin != s.modal.newPin ==>
              r.storedPin == s.storedPin && r.modal == PinModal(true, NewPin, "", PinMismatch)
    ensures s.modal.open && s.modal.step == ConfirmPin && pin == s.modal.newPin && storageOk ==>
              r.storedPin == Some(pin) && !r.modal.open && r.hasChanges
    ensures s.modal.open && s.modal.step == ConfirmPin && pin == s.modal.newPin && !storageOk ==>
              r == s.(modal := s.modal.(error := ""))
    ensures r.storedPin != s.storedPin ==>
              s.modal.open && s.modal.step == ConfirmPin && pin == s.modal.newPin && storageOk
  {
    if !s.modal.open then s
    else
      var m := s.modal.(error := "");
      match m.step
      case VerifyCurrent =>
        if !storageOk then s.(modal := m)
        else if s.storedPin != Some(pin) then s.(modal := m.(error := WrongCurrentPin))
        else s.(modal := m.(step := NewPin))
      case NewPin => s.(modal := m.(newPin := pin, step := ConfirmPin))
      case ConfirmPin =>
        if pin != m.newPin then s.(modal := m.(error := PinMismatch, step := NewPin, newPin := ""))
        else if !storageOk then s.(modal := m)
        else s.(storedPin := Some(pin), modal := m.(open := false), hasChanges := true)
  }

  /** A run of entries on the pad. */
  function Entries(s: Settings, es: seq<PinEntry>): Settings
    decreases |es|
  {
    if |es| == 0 then s else Entries(PinStepComplete(s, es[0].pin, es[0].storageOk), es[1..])
  }

  /** The PINs typed in a run of entries. */
  function PinsOf(es: seq<PinEntry>): (r: seq<string>)
    ensures |r| == |es| && forall i :: 0 <= i < |es| ==> r[i] == es[i].pin
  {
    if |es| == 0 then [] else [es[0].pin] + PinsOf(es[1..])
  }

  /** Generalisation: before the current PIN is verified, no entries can change it unless one of them is that PIN. */
  lemma {:induction false} UnverifiedCannotChange(t: Settings, es: seq<PinEntry>)
    requires !t.modal.open || t.modal.step == VerifyCurrent
    ensures Entries(t, es).storedPin != t.storedPin ==> t.storedPin.Some? && t.storedPin.value in PinsOf(es)
    decreases |es|
  {
    if |es| > 0 {
      var t1 := PinStepComplete(t, es[0].pin, es[0].storageOk);
      if !es[0].storageOk || t.storedPin != Some(es[0].pin) {
        UnverifiedCannotChange(t1, es[1..]);
        assert PinsOf(es) == [es[0].pin] + PinsOf(es[1..]);
      }
    }
  }

  /**
   * Whatever is typed after opening the PIN change, the stored PIN changes
   * only if the current PIN was among the entries: the lock cannot be
   * replaced without knowing it.
   */
  lemma PinChangeNeedsCurrentPin(s: Settings, es: seq<PinEntry>)
    ensures Entries(OpenPinChange(s), es).storedPin != s.storedPin ==>
              s.storedPin.Some? && s.storedPin.value in PinsOf(es)
  {
    UnverifiedCannotChange(OpenPinChange(s), es);
  }

  /**
   * The three entries of a normal change: the PIN becomes the new one exactly
   * when the stored PIN could be read and is the current one, the two new
   * entries agree and the write succeeds. A rejected write leaves the modal
   * open at the confirmation, still holding the candidate.
   */
  lemma ThreeEntryChange(s: Settings, current: PinEntry, p: PinEntry, q: PinEntry)
    ensures Entries(OpenPinChange(s), [current, p, q]).storedPin
            == if current.storageOk && s.storedPin == Some(current.pin) && p.pin == q.pin && q.storageOk
               then Some(p.pin) else s.storedPin
    ensures current.storageOk && s.storedPin == Some(current.pin) && p.pin == q.pin && !q.storageOk ==>
              Entries(OpenPinChange(s), [current, p, q]).modal == PinModal(true, ConfirmPin, p.pin, "")
  {
    var t0 := OpenPinChange(s);
    var t1 := PinStepComplete(t0, current.pin, current.storageOk);
    var t2 := PinStepComplete(t1, p.pin, p.storageOk);
    var t3 := PinStepComplete(t2, q.pin, q.storageOk);
    assert [current, p, q][1..] == [p, q];
    assert [p, q][1..] == [q];
    assert Entries(t0, [current, p, q]) == Entries(t1, [p, q]);
    assert Entries(t1, [p, q]) == Entries(t2, [q]);
    assert Entries(t2, [q]) == t3;
  }

  /** After a rejected write, entering the same confirmation again with a working store completes the change. */
  lemma RetryAfterRejectedWrite(s: Settings, pin: string)
    requires s.modal.open && s.modal.step == ConfirmPin && s.modal.newPin == pin
    ensures var failed := PinStepComplete(s, pin, false);
            && failed.storedPin == s.storedPin && failed.modal.open
            && PinStepComplete(failed, pin, true).storedPin == Some(pin)
            && !PinStepComplete(failed, pin, true).modal.open
  {
  }
}

=== FILE: status_bar.dfy ===
/**
 * The figures under the viewer's map (beaver-web/src/components/StatusBar.tsx):
 * the time since the alert started, and the battery, speed and accuracy of
 * the latest sample.
 *
 * Times are integer milliseconds; `Math.floor` is `FloorDiv` and the
 * JavaScript `%` is `JsRem`, which differ from Dafny's operators on negative
 * operands, i.e. when the viewer's clock is behind the phone's.
 */
module StatusBar {
  import opened Common
  import opened Types

  /** `Math.floor((Date.now() - startMs) / 1000)`. */
  function ElapsedSeconds(nowMs: int, startMs: int): (sec: int)
    ensures 1000 * sec <= nowMs - startMs < 1000 * (sec + 1)
  {
    FloorDiv(nowMs - startMs, 1000)
  }

  /** Hours, minutes and seconds as `formatDuration` computes them. */
  datatype Parts = Parts(h: int, m: int, s: int)

  function PartsOf(sec: int): Parts {
    Parts(FloorDiv(sec, 3600), FloorDiv(JsRem(sec, 3600), 60), JsRem(sec, 60))
  }

  /** For a non-negative duration the three figures are its hours, minutes and seconds. */
  lemma PartsDecompose(sec: int)
    requires sec >= 0
    ensures var p := PartsOf(sec);
            && p.h >= 0 && 0 <= p.m < 60 && 0 <= p.s < 60
            && p.h * 3600 + p.m * 60 + p.s == sec
  {
    var p := PartsOf(sec);
    var r := sec % 3600;
    assert sec == 3600 * p.h + r;
    assert JsRem(sec, 3600) == r;
    assert r == 60 * p.m + r % 60;
    assert sec == 60 * (60 * p.h + p.m) + r % 60;
    assert JsRem(sec, 60) == sec % 60;
    ModOfSum(60 * p.h + p.m, r % 60);
  }

  lemma ModOfSum(q: int, r: int)
    requires 0 <= r < 60
    ensures (60 * q + r) % 60 == r
  {
  }

  /**
   * `formatDuration`: hours and minutes from one hour on, minutes and
   * seconds from one minute on, seconds alone below that. When the viewer's
   * clock is behind, the elapsed time is negative and only a non-positive
   * number of seconds (`-59s` to `0s`) is shown.
   */
  function FormatDuration(nowMs: int, startMs: int): (r: string)
    ensures var sec := ElapsedSeconds(nowMs, startMs);
            && (0 <= sec < 60 ==> r == NatToDecimal(sec) + "s")
            && (60 <= sec < 3600 ==> r == NatToDecimal(sec / 60) + "min " + NatToDecimal(sec % 60) + "s")
            && (sec >= 3600 ==> r == NatToDecimal(sec / 3600) + "h " + NatToDecimal(sec % 3600 / 60) + "min")
            && (sec < 0 ==> r == IntToString(-((-sec) % 60)) + "s")
  {
    var sec := ElapsedSeconds(nowMs, startMs);
    var p := PartsOf(sec);
    BranchFacts(sec);
    if p.h > 0 then IntToString(p.h) + "h " + IntToString(p.m) + "min"
    else if p.m > 0 then IntToString(p.m) + "min " + IntToString(p.s) + "s"
    else IntToString(p.s) + "s"
  }

  /** Which branch a non-negative duration takes, and with which figures. */
  lemma SmallParts(sec: int)
    requires sec >= 0
    ensures var p := PartsOf(sec);
            && (p.h > 0 <==> sec >= 3600)
            && (p.h == 0 ==> p.m == sec / 60 && p.s == sec % 60)
            && (p.h > 0 ==> p.h == sec / 3600 && p.m == sec % 3600 / 60)
            && (p.m > 0 || p.h > 0 <==> sec >= 60)
            && (sec < 60 ==> p.s == sec)
  {
    PartsDecompose(sec);
  }

  /** A negative duration takes the seconds-only branch. */
  lemma NegativeParts(sec: int)
    requires sec < 0
    ensures var p := PartsOf(sec);
            p.h < 0 && p.m <= 0 && p.s == -((-sec) % 60) && -60 < p.s <= 0
  {
    var r := JsRem(sec, 3600);
    assert -3600 < r <= 0;
    assert FloorDiv(r, 60) <= 0;
  }

  lemma BranchFacts(sec: int)
    ensures var p := PartsOf(sec);
            && (sec >= 0 ==> && (p.h > 0 <==> sec >= 3600)
                             && (p.h == 0 ==> p.m == sec / 60 && p.s == sec % 60)
                             && (p.h > 0 ==> p.h == sec / 3600 && p.m == sec % 3600 / 60)
                             && (p.m > 0 || p.h > 0 <==> sec >= 60)
                             && (sec < 60 ==> p.s == sec))
            && (sec < 0 ==> p.h < 0 && p.m <= 0 && p.s == -((-sec) % 60))
  {
    if sec >= 0 {
      SmallParts(sec);
    } else {
      NegativeParts(sec);
    }
  }

  /** A text of an hour or more ends in "min"; every shorter one, negative ones included, ends in "s". */
  lemma DurationShape(nowMs: int, startMs: int)
    ensures var r := FormatDuration(nowMs, startMs);
            && |r| >= 2
            && (ElapsedSeconds(nowMs, startMs) >= 3600 ==> |r| >= 5 && r[|r| - 3..] == "min")
            && (ElapsedSeconds(nowMs, startMs) < 3600 ==> r[|r| - 1] == 's')
  {
    var sec := ElapsedSeconds(nowMs, startMs);
    var r := FormatDuration(nowMs, startMs);
    if sec >= 3600 {
      var a := NatToDecimal(sec / 3600) + "h " + NatToDecimal(sec % 3600 / 60);
      assert r == a + "min";
      assert r[|r| - 3..] == "min";
    }
  }

  // ---------------------------------------------------------------------------
  // Battery, speed, accuracy
  // ---------------------------------------------------------------------------

  const Success: string := "#16A34A"
  const Warning: string := "#D97706"
  const Danger: string := "#DC2626"

  /** `BatteryIcon`: green above 30 %, orange above 15 %, red otherwise. */
  function BatteryColor(level: int): (c: string)
    ensures c == Success <==> level > 30
    ensures c == Warning <==> 15 < level <= 30
    ensures c == Danger <==> level <= 15
  {
    if level > 30 then Success else if level > 15 then Warning else Danger
  }

  /** Severity of a battery colour, 0 for green. */
  function Severity(c: string): nat {
    if c == Success then 0 else if c == Warning then 1 else 2
  }

  /** A lower battery is never shown in a calmer colour. */
  lemma BatteryColorMonotone(a: int, b: int)
    requires a <= b
    ensures Severity(BatteryColor(b)) <= Severity(BatteryColor(a))
  {
  }

  /** One figure: the placeholder when the sample lacks it, or the value. */
  datatype Cell = Placeholder(text: string) | Speed(mps: real) | Accuracy(metres: real) | Battery(level: int, color: string)

  datatype Cells = Cells(speed: Cell, accuracy: Cell, battery: Cell)

  /** The three figures of the latest sample, each replaced by a dash when it is missing. */
  function CellsOf(p: Option<GpsPosition>): (r: Cells)
    ensures r.speed.Placeholder? <==> p.None? || p.value.speed.None?
    ensures r.speed.Placeholder? ==> r.speed.text == "\U{2014} km/h"
    ensures r.accuracy.Placeholder? <==> p.None?
    ensures r.battery.Placeholder? <==> p.None? || p.value.battery.None?
    ensures r.accuracy.Placeholder? ==> r.accuracy.text == "\U{2014}"
    ensures r.battery.Placeholder? ==> r.battery.text == "\U{2014}"
    ensures r.battery.Battery? ==> r.battery.level == p.value.battery.value
                                   && r.battery.color == BatteryColor(r.battery.level)
  {
    match p
    case None => Cells(Placeholder("\U{2014} km/h"), Placeholder("\U{2014}"), Placeholder("\U{2014}"))
    case Some(q) =>
      Cells(if q.speed.Some? then Speed(q.speed.value) else Placeholder("\U{2014} km/h"),
            Accuracy(q.accuracy),
            if q.battery.Some? then Battery(q.battery.value, BatteryColor(q.battery.value)) else Placeholder("\U{2014}"))
  }
}

=== FILE: ticker.dfy ===
/**
 * The one-second countdown shared by the alert countdown of
 * beaver-app/src/hooks/useAlert.ts and the security timer of
 * beaver-app/src/screens/HomeScreen.tsx. Both run `setInterval` with the
 * state updater `prev <= 1 ? 0 : prev - 1`; the tick that sees a value of at
 * most 1 clears the interval and performs the timer's action. Each interval
 * callback is one discrete tick.
 */
module Ticker {

  /** What one run of the updater produces: the new value and whether it was the last tick. */
  datatype Step = Step(next: int, last: bool)

  function Decrement(prev: int): (s: Step)
    ensures s.last <==> prev <= 1
    ensures s.next >= 0 && (prev >= 1 ==> s.next == prev - 1)
  {
    if prev <= 1 then Step(0, true) else Step(prev - 1, false)
  }

  /**
   * A countdown with its interval: `running` while the interval exists, and
   * `fired` counting how many times the timer's action has run.
   */
  datatype Timer = Timer(value: int, running: bool, fired: nat)

  /** A timer just started at `n`. */
  function Started(n: int): Timer {
    Timer(n, true, 0)
  }

  /** One interval callback; a stopped timer has no interval and does not move. */
  function TickTimer(t: Timer): (r: Timer)
    ensures !t.running ==> r == t
    ensures t.running ==> r.fired == t.fired + (if t.value <= 1 then 1 else 0)
    ensures t.running ==> (r.running <==> t.value > 1)
  {
    if !t.running then t
    else
      var s := Decrement(t.value);
      Timer(s.next, !s.last, t.fired + (if s.last then 1 else 0))
  }

  /** `k` interval callbacks in a row. */
  function Ticks(t: Timer, k: nat): Timer
    decreases k
  {
    if k == 0 then t else Ticks(TickTimer(t), k - 1)
  }

  /**
   * Started at `n >= 1`, the timer counts down one per tick, runs its action
   * exactly once, on the `n`-th tick, and then stays at 0 whatever further
   * ticks arrive.
   */
  lemma {:induction false} TicksFromStart(n: int, k: nat)
    requires n >= 1
    ensures Ticks(Started(n), k) == if k < n then Timer(n - k, true, 0) else Timer(0, false, 1)
    decreases k
  {
    if k > 0 {
      if n == 1 {
        StoppedStays(Timer(0, false, 1), k - 1);
      } else {
        TicksFromStart(n - 1, k - 1);
      }
    }
  }

  /** A stopped timer is not moved by any number of ticks. */
  lemma {:induction false} StoppedStays(t: Timer, k: nat)
    requires !t.running
    ensures Ticks(t, k) == t
    decreases k
  {
    if k > 0 {
      StoppedStays(t, k - 1);
    }
  }
}

=== FILE: tracking.dfy ===
/**
 * The viewer's data hook, beaver-web/src/hooks/useTracking.ts: the initial
 * load of the session and its recorded track, and the live updates received
 * once the session is known to be valid.
 *
 * The two HTTP calls are replaced by their outcome (`Load`); the socket is
 * open exactly while the loaded session is valid, and its events are
 * transitions of the hook state.
 */
module Tracking {
  import opened Common
  import opened Types
  import opened SessionStore
  import opened SessionController

  /** The hook's state; `session` is the JSON of the GET response (`SessionInfo`). */
  datatype Tracking = Tracking(
    session: Option<SessionView>,
    current: Option<GpsPosition>,
    positions: seq<GpsPosition>,
    isLoading: bool,
    error: Option<string>)

  const Initial: Tracking := Tracking(None, None, [], true, None)

  const NotFoundText: string := "Session introuvable ou expir\U{E9}e"
  const LoadFailedText: string := "Impossible de charger la session"

  /** What the track request gave: a non-2xx answer, an exception, or the body's `positions` (possibly absent). */
  datatype TrackFetch = TrackNotOk | TrackThrew | TrackOk(positions: Option<seq<GpsPosition>>)

  /** What the session request gave. */
  datatype Load =
    | SessionThrew
    | SessionNotOk
    | SessionLoaded(info: SessionView, track: TrackFetch)

  /**
   * `loadSession`. A non-2xx session answer is reported as not found; an
   * exception anywhere is reported as a load failure, even after the session
   * was stored. An invalid session is kept without fetching its track. The
   * loading flag is always cleared.
   */
  function LoadSession(t: Tracking, l: Load): (r: Tracking)
    ensures !r.isLoading
    ensures l.SessionNotOk? ==> r == t.(error := Some(NotFoundText), isLoading := false)
    ensures l.SessionThrew? ==> r == t.(error := Some(LoadFailedText), isLoading := false)
    ensures l.SessionLoaded? ==> r.session == Some(l.info)
    ensures l.SessionLoaded? && !l.info.valid ==> r == t.(session := Some(l.info), isLoading := false)
    ensures l.SessionLoaded? && l.info.valid && l.track.TrackOk? ==>
              && r.positions == l.track.positions.GetOr([]) && r.error == t.error
              && (|r.positions| > 0 ==> r.current == Some(r.positions[|r.positions| - 1]))
              && (|r.positions| == 0 ==> r.current == t.current)
    ensures l.SessionLoaded? && l.info.valid && l.track.TrackThrew? ==> r.error == Some(LoadFailedText)
    ensures r.positions != t.positions ==> l.SessionLoaded? && l.info.valid && l.track.TrackOk?
  {
    match l
    case SessionThrew => t.(error := Some(LoadFailedText), isLoading := false)
    case SessionNotOk => t.(error := Some(NotFoundText), isLoading := false)
    case SessionLoaded(info, track) =>
      var t1 := t.(session := Some(info));
      if !info.valid then t1.(isLoading := false)
      else match track
        case TrackNotOk => t1.(isLoading := false)
        case TrackThrew => t1.(error := Some(LoadFailedText), isLoading := false)
        case TrackOk(ps) =>
          var positions := ps.GetOr([]);
          var current := if |positions| > 0 then Some(positions[|positions| - 1]) else t1.current;
          t1.(positions := positions, current := current, isLoading := false)
  }

  /** The socket exists only while the loaded session is valid. */
  predicate SocketOpen(t: Tracking) {
    t.session.Some? && t.session.value.valid
  }

  /** `gps_update`: the sample becomes the current position and is appended to a trace capped at the last 200. */
  function GpsUpdate(t: Tracking, p: GpsPosition): (r: Tracking)
    ensures !SocketOpen(t) ==> r == t
    ensures SocketOpen(t) ==> && r.current == Some(p) && |r.positions| <= TrackWindow
                              && r.positions == LastN(t.positions + [p], TrackWindow)
                              && r.positions[|r.positions| - 1] == p
                              && r.session == t.session
  {
    if !SocketOpen(t) then t
    else t.(current := Some(p), positions := LastN(t.positions + [p], TrackWindow))
  }

  /**
   * `session_status`: only for the viewer's own session and only once a
   * session is loaded, and only the status changes.
   */
  function StatusUpdate(t: Tracking, routeId: string, eventId: string, status: SessionStatus): (r: Tracking)
    ensures (eventId != routeId || t.session.None? || !SocketOpen(t)) ==> r == t
    ensures eventId == routeId && SocketOpen(t) ==> r == t.(session := Some(t.session.value.(status := status)))
  {
    if eventId != routeId || !SocketOpen(t) then t
    else t.(session := Some(t.session.value.(status := status)))
  }

  function GpsUpdates(t: Tracking, ps: seq<GpsPosition>): Tracking
    decreases |ps|
  {
    if |ps| == 0 then t else GpsUpdates(GpsUpdate(t, ps[0]), ps[1..])
  }

  /**
   * Over any number of updates the trace is the last 200 samples of
   * everything shown so far, in arrival order, and the current position is
   * the last sample received.
   */
  lemma TraceIsWindowOfHistory(t: Tracking, ps: seq<GpsPosition>)
    requires SocketOpen(t) && |t.positions| <= TrackWindow
    ensures GpsUpdates(t, ps).positions == LastN(t.positions + ps, TrackWindow)
    ensures |ps| > 0 ==> GpsUpdates(t, ps).current == Some(ps[|ps| - 1])
    ensures |ps| == 0 ==> GpsUpdates(t, ps).current == t.current
  {
    TraceWindow(t, ps);
    CurrentIsLast(t, ps);
  }

  /** One update, then the rest. */
  lemma UpdatesUnfold(t: Tracking, ps: seq<GpsPosition>)
    requires |ps| > 0
    ensures GpsUpdates(t, ps) == GpsUpdates(GpsUpdate(t, ps[0]), ps[1..])
  {
  }

  lemma {:induction false} TraceWindow(t: Tracking, ps: seq<GpsPosition>)
    requires SocketOpen(t) && |t.positions| <= TrackWindow
    ensures GpsUpdates(t, ps).positions == LastN(t.positions + ps, TrackWindow)
    decreases |ps|
  {
    if |ps| == 0 {
      assert t.positions + ps == t.positions;
    } else {
      var t1 := GpsUpdate(t, ps[0]);
      var w := LastN(t.positions + [ps[0]], TrackWindow);
      assert SocketOpen(t1) && t1.positions == w && |w| <= TrackWindow;
      UpdatesUnfold(t, ps);
      TraceWindow(t1, ps[1..]);
      assert GpsUpdates(t, ps).positions == LastN(w + ps[1..], TrackWindow);
      LastNWindowAppend(t.positions, ps[0], ps[1..]);
      assert t.positions + [ps[0]] + ps[1..] == t.positions + ps by {
        assert ps == [ps[0]] + ps[1..];
      }
    }
  }

  lemma {:induction false} CurrentIsLast(t: Tracking, ps: seq<GpsPosition>)
    requires SocketOpen(t)
    ensures |ps| > 0 ==> GpsUpdates(t, ps).current == Some(ps[|ps| - 1])
    ensures |ps| == 0 ==> GpsUpdates(t, ps).current == t.current
    decreases |ps|
  {
    if |ps| > 0 {
      var t1 := GpsUpdate(t, ps[0]);
      UpdatesUnfold(t, ps);
      CurrentIsLast(t1, ps[1..]);
      if |ps| > 1 {
        assert ps[1..][|ps[1..]| - 1] == ps[|ps| - 1];
      }
    }
  }

  /** Trimming after the first sample and then over the rest equals trimming once over all of it. */
  lemma {:induction false} LastNWindowAppend(xs: seq<GpsPosition>, x: GpsPosition, rest: seq<GpsPosition>)
    ensures LastN(LastN(xs + [x], TrackWindow) + rest, TrackWindow) == LastN(xs + [x] + rest, TrackWindow)
    decreases |rest|
  {
    if |rest| > 0 {
      var ys := xs + [x];
      var init := rest[..|rest| - 1];
      var last := rest[|rest| - 1];
      assert rest == init + [last];
      LastNWindowAppend(xs, x, init);
      assert LastN(ys, TrackWindow) + rest == (LastN(ys, TrackWindow) + init) + [last];
      assert ys + rest == (ys + init) + [last];
      LastNAppend(LastN(ys, TrackWindow) + init, last, TrackWindow);
      LastNAppend(ys + init, last, TrackWindow);
      LastNIdempotentAppend(LastN(ys, TrackWindow) + init, ys + init, last);
    } else {
      assert LastN(xs + [x], TrackWindow) + rest == LastN(xs + [x], TrackWindow);
      assert xs + [x] + rest == xs + [x];
    }
  }

  /** Two histories with the same window keep the same window after one more sample. */
  lemma LastNIdempotentAppend(a: seq<GpsPosition>, b: seq<GpsPosition>, x: GpsPosition)
    requires LastN(a, TrackWindow) == LastN(b, TrackWindow)
    ensures LastN(a + [x], TrackWindow) == LastN(b + [x], TrackWindow)
  {
    LastNAppend(a, x, TrackWindow);
    LastNAppend(b, x, TrackWindow);
  }

  /**
   * The session response arrives first and opens the socket while the
   * track request is still in flight; when the track arrives it replaces the
   * trace, so samples received in between disappear from it.
   */
  lemma EarlyUpdatesOverwrittenByTrack(t: Tracking, info: SessionView, p: GpsPosition, track: seq<GpsPosition>)
    requires info.valid
    ensures var live := LoadSession(t, SessionLoaded(info, TrackNotOk));
            var early := GpsUpdate(live, p);
            && early.positions == LastN(t.positions + [p], TrackWindow)
            && LoadSession(early, SessionLoaded(info, TrackOk(Some(track)))).positions == track
  {
  }

  // ---------------------------------------------------------------------------
  // Against the server
  // ---------------------------------------------------------------------------

  /**
   * The viewer's two requests answered by the server's handlers; `getFails`
   * and `trackFails` say whether the store throws during each of them, which
   * the viewer sees as a non-2xx answer.
   */
  function LoadFromServer(st: Store, id: string, now: int, getFails: bool, trackFails: bool): (l: Load)
    requires PositionsKeyed(st)
    ensures l.SessionNotOk? <==> getFails || id !in st.sessions
    ensures l.SessionLoaded? ==> l.info.sessionId == st.sessions[id].sessionId
                                 && (l.info.valid <==> IsLive(st.sessions[id], now))
    ensures l.SessionLoaded? ==> (l.track.TrackNotOk? <==> trackFails)
  {
    var g := GetSessionHandler(st, id, now, getFails);
    if g.response.code != 200 then SessionNotOk
    else
      var t := GetSessionTrackHandler(g.store, id, trackFails);
      SessionLoaded(g.response.body.view, if t.response.code != 200 then TrackNotOk else TrackOk(Some(t.response.body.positions)))
  }

  /**
   * Loading from the server: the socket opens exactly for a live session,
   * and the trace starts as the server's track, which is within the window.
   */
  lemma ServerLoad(st: Store, id: string, now: int, getFails: bool, trackFails: bool)
    requires PositionsKeyed(st)
    ensures var r := LoadSession(Initial, LoadFromServer(st, id, now, getFails, trackFails));
            && (SocketOpen(r) <==> !getFails && id in st.sessions && IsLive(st.sessions[id], now))
            && |r.positions| <= TrackWindow
            && (getFails || id !in st.sessions ==> r.error == Some(NotFoundText) && r.session.None?)
  {
  }

  /**
   * A viewer that loaded the track from the server and then received
   * samples shows the last 200 of the recorded track followed by the
   * samples.
   */
  lemma ServerTrackThenUpdates(st: Store, id: string, now: int, ps: seq<GpsPosition>)
    requires PositionsKeyed(st)
    requires id in st.sessions && IsLive(st.sessions[id], now)
    ensures var t := LoadSession(Initial, LoadFromServer(st, id, now, false, false));
            GpsUpdates(t, ps).positions == LastN(GetSessionTrack(st, id) + ps, TrackWindow)
  {
    var t := LoadSession(Initial, LoadFromServer(st, id, now, false, false));
    assert IsSessionValid(st, id, now).store.positions == st.positions;
    assert t.positions == GetSessionTrack(IsSessionValid(st, id, now).store, id);
    TrackOfSamePositions(IsSessionValid(st, id, now).store, st, id);
    TraceIsWindowOfHistory(t, ps);
  }

  /** The track query reads only the position collection. */
  lemma TrackOfSamePositions(a: Store, b: Store, id: string)
    requires PositionsKeyed(a) && a.positions == b.positions
    ensures PositionsKeyed(b) && GetSessionTrack(a, id) == GetSessionTrack(b, id)
  {
    assert a.(sessions := b.sessions, alerts := b.alerts) == b;
    TrackIgnoresSessions(a, b.sessions, b.alerts, id);
  }

  lemma TrackIgnoresSessions(a: Store, sessions: map<string, Session>, alerts: seq<Alert>, id: string)
    requires PositionsKeyed(a)
    ensures PositionsKeyed(a.(sessions := sessions, alerts := alerts))
    ensures GetSessionTrack(a, id) == GetSessionTrack(a.(sessions := sessions, alerts := alerts), id)
  {
    var b := a.(sessions := sessions, alerts := alerts);
    assert TimestampsOf(a, id) == TimestampsOf(b, id);
    assert TrackTimestamps(a, id) == TrackTimestamps(b, id);
  }
}

=== FILE: tracking_page.dfy ===
/**
 * Which page the viewer shows at /s/:sessionId
 * (beaver-web/src/pages/TrackingPage.tsx), from the route parameter and the
 * state of the data hook. Layout, map, audio and the emergency links are not
 * modelled; each page is reduced to the texts that depend on the session.
 */
module TrackingPage {
  import opened Common
  import opened Types
  import opened SessionStore
  import opened SessionController
  import opened Tracking

  datatype Page =
    | ErrorPage(message: string)
    | LoadingPage
    | EndedPage(message: string, allClear: bool)   // `ExpiredPage`; `allClear` is the "Tout va bien" badge
    | LivePage(title: string)

  const InvalidLinkText: string := "Lien d'alerte invalide"
  const NoSessionText: string := "Session introuvable"
  const ExpiredText: string := "Cette session d'alerte a expir\U{E9}."

  const DeactivatedSuffix: string := " a d\U{E9}sactiv\U{E9} l'alerte. Elle est en s\U{E9}curit\U{E9}."

  /** The ended page's line: who switched the alert off, or that it expired; the two can never be confused. */
  function EndedMessage(v: SessionView): (m: string)
    ensures v.status == Deactivated ==> && |m| > |v.userFirstName| && m[..|v.userFirstName|] == v.userFirstName
                                        && m != ExpiredText
    ensures v.status != Deactivated ==> m == ExpiredText
  {
    if v.status == Deactivated then
      var m := v.userFirstName + DeactivatedSuffix;
      assert m[|m| - 3] == 't' && ExpiredText[|ExpiredText| - 3] == 'r';
      m
    else ExpiredText
  }

  function LiveTitle(name: string): string {
    name + " a besoin d'aide !"
  }

  /**
   * A missing route parameter is an invalid link; then loading, then an
   * error (a non-empty error text, or no session), then an ended page for a
   * session that is not valid, and the live page otherwise.
   */
  function PageOf(routeId: Option<string>, t: Tracking): (p: Page)
    ensures routeId.None? || routeId == Some("") ==> p == ErrorPage(InvalidLinkText)
    ensures p.LivePage? <==> routeId.Some? && routeId.value != "" && !t.isLoading
                             && (t.error.None? || t.error == Some("")) && SocketOpen(t)
    ensures p.EndedPage? ==> t.session.Some? && !t.session.value.valid
                             && (p.allClear <==> t.session.value.status == Deactivated)
    ensures p.LoadingPage? <==> routeId.Some? && routeId.value != "" && t.isLoading
  {
    if routeId.None? || routeId.value == "" then ErrorPage(InvalidLinkText)
    else if t.isLoading then LoadingPage
    else if (t.error.Some? && t.error.value != "") || t.session.None? then
      ErrorPage(if t.error.Some? then t.error.value else NoSessionText)
    else if !t.session.value.valid then
      EndedPage(EndedMessage(t.session.value), t.session.value.status == Deactivated)
    else LivePage(LiveTitle(t.session.value.userFirstName))
  }

  /** What a viewer opening the link sees once both requests are answered by the server. */
  function ViewerPage(st: Store, id: string, now: int, getFails: bool, trackFails: bool): Page
    requires PositionsKeyed(st)
  {
    PageOf(Some(id), LoadSession(Initial, LoadFromServer(st, id, now, getFails, trackFails)))
  }

  /**
   * End to end: an unknown id, or a server failing on the session request,
   * shows the not-found error; a switched-off session shows its owner's
   * all-clear; an expired one (stored as expired, or past its expiry and
   * expired by this very read) shows the expiry line; a live one shows the
   * live page under the owner's name, whether or not the track request fails.
   */
  lemma ViewerPageFromServer(st: Store, id: string, now: int, getFails: bool, trackFails: bool)
    requires PositionsKeyed(st) && id != ""
    ensures getFails || id !in st.sessions ==> ViewerPage(st, id, now, getFails, trackFails) == ErrorPage(NotFoundText)
    ensures !getFails && id in st.sessions && st.sessions[id].status == Deactivated ==>
              ViewerPage(st, id, now, getFails, trackFails)
              == EndedPage(st.sessions[id].userFirstName + DeactivatedSuffix, true)
    ensures !getFails && id in st.sessions && st.sessions[id].status != Deactivated && !IsLive(st.sessions[id], now) ==>
              ViewerPage(st, id, now, getFails, trackFails) == EndedPage(ExpiredText, false)
    ensures !getFails && id in st.sessions && IsLive(st.sessions[id], now) ==>
              ViewerPage(st, id, now, getFails, trackFails) == LivePage(LiveTitle(st.sessions[id].userFirstName))
  {
    var c := IsSessionValid(st, id, now);
    if id in st.sessions {
      assert c.result.session == Some(st.sessions[id]);
    }
  }

  /**
   * A `session_status` event changes only the status and leaves `valid`
   * alone, so an open live page stays live even when the event says the
   * session was switched off.
   */
  lemma StatusEventKeepsLivePage(routeId: string, t: Tracking, status: SessionStatus)
    requires routeId != "" && PageOf(Some(routeId), t).LivePage?
    ensures PageOf(Some(routeId), StatusUpdate(t, routeId, routeId, status)) == PageOf(Some(routeId), t)
  {
  }
}

=== FILE: types.dfy ===
/**
 * The entities shared by the backend, the mobile app and the web viewer:
 * sessions, trusted contacts, GPS samples and per-contact alert records.
 * Timestamps are integer milliseconds since the epoch; coordinates, accuracy,
 * speed and heading are carried as opaque reals and never computed on.
 */
module Types {
  import opened Common

  /** Lifecycle state of a session. */
  datatype SessionStatus = Active | Expired | Deactivated

  /**
   * Position of a status in the order Active < Expired < Deactivated. Every
   * store operation other than creation only ever moves a session up this
   * order (see SessionStore.StatusNeverDecreases).
   */
  function StatusRank(s: SessionStatus): nat {
    match s
    case Active => 0
    case Expired => 1
    case Deactivated => 2
  }

  /** A trusted contact: `phone` is meant to be in E.164 form (`+33612345678`). */
  datatype Contact = Contact(id: string, name: string, phone: string)

  /**
   * The stored PIN digest. SHA-256 is idealised as an injective function, so
   * a digest is identified with the salted text it was computed from.
   */
  datatype PinDigest = Sha256Of(input: string)

  datatype Session = Session(
    sessionId: string,
    userFirstName: string,
    contacts: seq<Contact>,
    status: SessionStatus,
    createdAt: int,
    expiresAt: int,
    lastGpsUpdate: Option<int>,
    alertSentAt: Option<int>,
    pinHash: Option<PinDigest>)

  /** One position sample sent by the phone. */
  datatype GpsPosition = GpsPosition(
    sessionId: string,
    latitude: real,
    longitude: real,
    accuracy: real,
    speed: Option<real>,
    heading: Option<real>,
    battery: Option<int>,
    timestamp: int)

  datatype Channel = WhatsApp | Sms

  /** `delivered` exists in the type but no code path produces it. */
  datatype AlertStatus = Sent | Failed | Delivered

  /** One delivery attempt to one contact. */
  datatype Alert = Alert(
    sessionId: string,
    contactPhone: string,
    channel: Channel,
    status: AlertStatus,
    providerSid: Option<string>,
    sentAt: int)

  /** The durations, in minutes, offered by the security timer. */
  type TimerDuration = d: int | d == 5 || d == 15 || d == 30 witness 15

  /** Seconds of the alert countdown (`ALERT_COUNTDOWN_SECONDS`). */
  const AlertCountdownSeconds: nat := 10

  /** The most contacts the app lets a user register. */
  const MaxContacts: nat := 5

  /** Positions kept by the track query and by the web viewer. */
  const TrackWindow: nat := 200
}
